=== FILE: README.md ===
# Widget logic of the SpaceView, MapViewer and Zilzila web-map widgets

This project is a Dafny model of the logic inside a set of map widgets. The widgets
are written in TypeScript/React for a web-map host. The model keeps what the widgets
compute and leaves out what they draw. Host calls such as the map view, the graphics
layers, the imagery service, `fetch`, `DOMParser`, JSZip and the shapefile converter
become parameters or oracle fields.

## What is modelled

- **Spatial file import**, in two generations.
  - The newer SpaceView importer: `KmlCoordinates`, `KmlReader`, `GeoJson`,
    `FileGuard` and `SpaceViewImport`.
    - It reads KML coordinate text, then Polygons with holes, LineStrings, Points and
      MultiGeometry.
    - It normalises GeoJSON FeatureCollections and bare geometries.
    - It applies the 15 MiB size guard, the extension allow-list, the KMZ and zip
      entry selection, and the "no geometry" alert.
  - The older MapViewer importer: `MapViewerKml`, `RegexSplit` and `MapViewerImport`.
    - Its single-ring KML reader splits on regular expressions, and the ECMAScript
      `split` loop is modelled for the three patterns it uses.
    - It uses the shapefile converter for both zip and kmz.
  - Shared pieces:
    - `XmlTree`: an element tree with descendant selectors.
    - `JsonValue`: parsed JSON values.
    - `ImportOutcome`: the alert, or the geometries handed to `onChange`.
- **Imagery filter** (`ImageryFilter`): the SQL where clause built from
  - the date, cloud and resolution ranges, each under a three-way rule;
  - the quoted `IN` lists of the ticked data types and sensors;
  - the check-box toggle.
- **Two date pickers.**
  - Shared: `CivilDate` (proleptic Gregorian day numbers, the `new Date(y, m, d)`
    carry, weekdays) and `MonthGrid` (the 42-cell Monday-first grid, the mode cycle).
  - `ZilzilaCalendar`: the older picker, with a fixed `dd.mm.yyyy` format and future
    days greyed out.
  - `SpaceViewCalendar`: the newer picker, with a configurable `%D.%M.%Y` format and
    minimum/maximum bounds.
- **Earthquake table settings** (`FieldSettings`): the default column configuration,
  the clamped move with `posIndex` renumbering, the Enter handler and per-field
  updates.
- **Earthquake table** (`QuakeTable`):
  - the sort-label mapping;
  - the previous/next page rules and the page buttons;
  - row numbering and zebra styling;
  - the columns in use;
  - the request query string, with its parse-back.
- **Imagery viewer map.**
  - `RasterCollect`: extent validity, normalisation, OBJECTID de-duplication, raster
    rings, the query's where clause and the mosaic rule.
  - `MapLists`: the list-action reducer for drawn areas and rasters.
  - `MapDrawing`: click and double-click drawing, and the rectangle ring.
  - `LeftPanel`: the popup state machine, the counter, and the show-all and hide-all
    guards.
  - `RightPanel`: the tool toggle, the zoom clamps and the basemap popup.
- **JavaScript built-ins the code relies on** (`JsText`, `JsNumber`):
  - `trim`, `split`, `join`, `padStart`, `indexOf`, `replace`, and `toLowerCase` restricted to ASCII letters and the Kelvin sign;
  - `parseFloat`, `parseInt` and `Number`, over a number type with NaN and the two
    infinities.

Oracles, the parameters that stand in for host behaviour:
- `DroppedFile` carries the result of each call the import code makes on the file's
  bytes. `None` stands for a call that throws.
- A drawn `Area` carries the features the imagery service returns for it.
- A `RasterFeature` carries what projecting its extent to WGS 84 yields.
- `Today` is the clock.
- Geodesic areas are strings handed in.

## Model

| member | source | states |
|---|---|---|
| JsText.Tokens | widgets/prod/SpaceView/dist/runtime/assets/DragAndDrop/DragAndDrop.tsx:27-29 | trimming and splitting on white-space runs, then dropping empty pieces, gives non-empty tokens without white space |
| JsText.TokensOfJoin | widgets/prod/SpaceView/dist/runtime/assets/DragAndDrop/DragAndDrop.tsx:27-29 | white-space tokenisation of space-joined tokens gives the tokens back |
| JsText.Split | widgets/prod/SpaceView/dist/runtime/assets/DragAndDrop/DragAndDrop.tsx:31 | a one-character split gives at least one piece, and no piece holds the separator |
| JsText.JoinSplit | widgets/prod/SpaceView/dist/runtime/assets/DragAndDrop/DragAndDrop.tsx:31 | joining the pieces of a split with the separator rebuilds the string |
| JsText.SplitJoin | widgets/src/Zilzila/src/runtime/widget.tsx:53 | splitting a join of separator-free pieces gives the pieces back |
| JsText.TrimStart | widgets/prod/SpaceView/dist/runtime/assets/DragAndDrop/DragAndDrop.tsx:27 | the result is the suffix left after dropping exactly the leading white space |
| JsText.TrimEnd | widgets/prod/SpaceView/dist/runtime/assets/DragAndDrop/DragAndDrop.tsx:27 | the result is the prefix left after dropping exactly the trailing white space |
| JsText.ToLower | widgets/prod/SpaceView/dist/runtime/assets/DragAndDrop/DragAndDrop.tsx:131 | lower-casing maps each character and keeps the length |
| JsText.PadStart | widgets/prod/Zilzila/dist/runtime/assets/calendar.tsx:76 | padding reaches the requested length, ends with the original and is filled with the fill character |
| JsText.IndexOf | widgets/prod/SpaceView/dist/runtime/assets/Calendar/Calendar.tsx:51-53 | `indexOf` is the first position of the pattern, or -1 when it occurs nowhere |
| JsNumber.ParseIntOfString | widgets/prod/SpaceView/dist/runtime/assets/Calendar/Calendar.tsx:46 | `parseInt` reads back the decimal text of any integer |
| JsNumber.ParseIntPadded | widgets/prod/SpaceView/dist/runtime/assets/Calendar/Calendar.tsx:46 | `parseInt` reads back an integer written with `padStart(2, "0")` |
| JsNumber.ToNumberPadded | widgets/prod/Zilzila/dist/runtime/assets/calendar.tsx:67-69 | `Number` reads back an integer written with `padStart(2, "0")` |
| JsNumber.ToNumberOfString | widgets/prod/MapViewer/dist/runtime/assets/DragAndDrop/DragAndDrop.tsx:153 | `Number` reads back the decimal text of any integer |
| JsNumber.ParseFloatOfString | widgets/prod/SpaceView/dist/runtime/assets/DragAndDrop/DragAndDrop.tsx:31 | `parseFloat` reads back the decimal text of any integer |
| KmlCoordinates.PairOf | widgets/prod/SpaceView/dist/runtime/assets/DragAndDrop/DragAndDrop.tsx:31-35 | a pair is kept exactly when there are two fields and neither parses to NaN |
| KmlCoordinates.TupleCoord | widgets/prod/SpaceView/dist/runtime/assets/DragAndDrop/DragAndDrop.tsx:30-36 | a tuple yields at most one pair, and never a NaN coordinate |
| KmlCoordinates.CoordsOfTuples | widgets/prod/SpaceView/dist/runtime/assets/DragAndDrop/DragAndDrop.tsx:30-37 | no more pairs than tuples, all readable |
| KmlCoordinates.ParseCoordinates | widgets/prod/SpaceView/dist/runtime/assets/DragAndDrop/DragAndDrop.tsx:25-37 | null, undefined and "" give no pairs; never more pairs than tokens; no NaN coordinate |
| KmlCoordinates.CoordsOfTuplesAppend | widgets/prod/SpaceView/dist/runtime/assets/DragAndDrop/DragAndDrop.tsx:30-37 | tuples are read independently and in order: the pairs of a concatenation are the concatenation of the pairs |
| KmlCoordinates.TupleWithoutComma | widgets/prod/SpaceView/dist/runtime/assets/DragAndDrop/DragAndDrop.tsx:31-35 | a token without a comma is dropped |
| KmlCoordinates.TupleCoordOfInts | widgets/prod/SpaceView/dist/runtime/assets/DragAndDrop/DragAndDrop.tsx:31-34 | `lon,lat` followed by any altitude fields reads as exactly `(lon, lat)` |
| KmlCoordinates.ParseCoordinatesRoundTrip | widgets/prod/SpaceView/dist/runtime/assets/DragAndDrop/DragAndDrop.tsx:25-37 | coordinate text written from integer pairs reads back as those pairs, in order |
| XmlTree.QueryFirst | widgets/prod/SpaceView/dist/runtime/assets/DragAndDrop/DragAndDrop.tsx:70 | `querySelector` finds an element exactly when `querySelectorAll` finds one, and it is the first match in document order |
| KmlReader.Holes | widgets/prod/SpaceView/dist/runtime/assets/DragAndDrop/DragAndDrop.tsx:78-83 | only inner rings with at least three pairs are kept, never more than given |
| KmlReader.HolesAppend | widgets/prod/SpaceView/dist/runtime/assets/DragAndDrop/DragAndDrop.tsx:78-83 | reading inner rings distributes over concatenation, so the kept rings keep document order |
| KmlReader.HolesOne | widgets/prod/SpaceView/dist/runtime/assets/DragAndDrop/DragAndDrop.tsx:79-82 | an inner ring is kept exactly when it has at least three pairs, and is kept as read |
| KmlReader.HoleKept | widgets/prod/SpaceView/dist/runtime/assets/DragAndDrop/DragAndDrop.tsx:78-83 | an inner ring with at least three pairs appears in the holes, after the kept rings before it and before the kept rings after it |
| KmlReader.ShortHoleDropped | widgets/prod/SpaceView/dist/runtime/assets/DragAndDrop/DragAndDrop.tsx:73-88 | an inner ring with fewer than three pairs is dropped, and the polygon is still emitted with the other kept rings |
| KmlReader.PolygonOf | widgets/prod/SpaceView/dist/runtime/assets/DragAndDrop/DragAndDrop.tsx:69-89 | a polygon is emitted exactly when its outer ring has three pairs; ring 0 is that outer ring and the rings after it are exactly the kept holes |
| KmlReader.Polygons | widgets/prod/SpaceView/dist/runtime/assets/DragAndDrop/DragAndDrop.tsx:69-89 | every emitted item is a well-formed polygon, at most one per `<Polygon>` |
| KmlReader.PolygonsAppend | widgets/prod/SpaceView/dist/runtime/assets/DragAndDrop/DragAndDrop.tsx:69-89 | reading `<Polygon>` elements distributes over concatenation: the polygons come in document order |
| KmlReader.PolygonsOne | widgets/prod/SpaceView/dist/runtime/assets/DragAndDrop/DragAndDrop.tsx:69-89 | a `<Polygon>` contributes its polygon exactly when one is read from it |
| KmlReader.Lines | widgets/prod/SpaceView/dist/runtime/assets/DragAndDrop/DragAndDrop.tsx:95-103 | every emitted item is a line string with at least two pairs |
| KmlReader.LinesAppend | widgets/prod/SpaceView/dist/runtime/assets/DragAndDrop/DragAndDrop.tsx:95-103 | reading line coordinates distributes over concatenation: the line strings come in document order |
| KmlReader.LinesOne | widgets/prod/SpaceView/dist/runtime/assets/DragAndDrop/DragAndDrop.tsx:96-102 | a line's `<coordinates>` gives a line string of its pairs exactly when it has at least two pairs |
| KmlReader.PointOf | widgets/prod/SpaceView/dist/runtime/assets/DragAndDrop/DragAndDrop.tsx:106-116 | a point is emitted exactly when the trimmed text is non-empty and its first two comma fields are numbers, and it is those two numbers |
| KmlReader.Points | widgets/prod/SpaceView/dist/runtime/assets/DragAndDrop/DragAndDrop.tsx:106-117 | every emitted item is a well-formed point |
| KmlReader.PointsAppend | widgets/prod/SpaceView/dist/runtime/assets/DragAndDrop/DragAndDrop.tsx:106-117 | reading point coordinates distributes over concatenation: the points come in document order |
| KmlReader.PointsOne | widgets/prod/SpaceView/dist/runtime/assets/DragAndDrop/DragAndDrop.tsx:106-116 | a point's `<coordinates>` contributes its point exactly when one is read from it |
| KmlReader.ExtractGeometries | widgets/prod/SpaceView/dist/runtime/assets/DragAndDrop/DragAndDrop.tsx:65-120 | within one container, the polygons, line strings and points are exactly what the three readers give for its `<Polygon>`, line and point elements, and come in that order; everything is well formed |
| KmlReader.ExtractAll | widgets/prod/SpaceView/dist/runtime/assets/DragAndDrop/DragAndDrop.tsx:56 | the geometries of several MultiGeometry containers are well formed |
| KmlReader.ExtractAllAppend | widgets/prod/SpaceView/dist/runtime/assets/DragAndDrop/DragAndDrop.tsx:56 | the containers are read one after another, in document order |
| KmlReader.ExtractAllOne | widgets/prod/SpaceView/dist/runtime/assets/DragAndDrop/DragAndDrop.tsx:56 | one container contributes exactly its own geometries |
| KmlReader.PlacemarkGeometries | widgets/prod/SpaceView/dist/runtime/assets/DragAndDrop/DragAndDrop.tsx:52-59 | a Placemark with MultiGeometry descendants gives the geometries of each of them in document order and nothing read outside them; without any, it gives its own geometries |
| KmlReader.PlacemarksGeometries | widgets/prod/SpaceView/dist/runtime/assets/DragAndDrop/DragAndDrop.tsx:51-60 | the geometries of all Placemarks are well formed |
| KmlReader.PlacemarksAppend | widgets/prod/SpaceView/dist/runtime/assets/DragAndDrop/DragAndDrop.tsx:51-60 | Placemarks are read one after another, in document order |
| KmlReader.PlacemarksOne | widgets/prod/SpaceView/dist/runtime/assets/DragAndDrop/DragAndDrop.tsx:52-59 | one Placemark contributes exactly its own geometries |
| KmlReader.ParseKml | widgets/prod/SpaceView/dist/runtime/assets/DragAndDrop/DragAndDrop.tsx:41-63 | the reader throws exactly when the document has a `parsererror` element, and otherwise gives the geometries of every Placemark |
| FileGuard.Extension | widgets/prod/SpaceView/dist/runtime/assets/DragAndDrop/DragAndDrop.tsx:131 | the extension holds no dot and is no longer than the name |
| FileGuard.LastPieceIsSuffix | widgets/prod/SpaceView/dist/runtime/assets/DragAndDrop/DragAndDrop.tsx:131 | `split(".").pop()` is a dot-free suffix of the name |
| FileGuard.ExtensionOfName | widgets/prod/SpaceView/dist/runtime/assets/DragAndDrop/DragAndDrop.tsx:131-135 | `base.ext` has extension `ext` lower-cased, whatever dots `base` holds |
| FileGuard.ExtensionOfDotlessName | widgets/prod/SpaceView/dist/runtime/assets/DragAndDrop/DragAndDrop.tsx:131-135 | a name without a dot is its own extension, so a file named `kml` passes the guard |
| GeoJson.FeatureGeometries | widgets/prod/SpaceView/dist/runtime/assets/DragAndDrop/DragAndDrop.tsx:143 | succeeds only on an array; yields no more geometries than features, all truthy |
| GeoJson.GeometriesOf | widgets/prod/SpaceView/dist/runtime/assets/DragAndDrop/DragAndDrop.tsx:143 | mapping to `geometry` throws exactly when some feature is null; the kept geometries are truthy |
| GeoJson.Normalise | widgets/prod/SpaceView/dist/runtime/assets/DragAndDrop/DragAndDrop.tsx:140-147 | `null` throws; every geometry produced is truthy |
| GeoJson.GeometriesOfFeatures | widgets/prod/SpaceView/dist/runtime/assets/DragAndDrop/DragAndDrop.tsx:143 | the geometries of features are the present ones, in order |
| GeoJson.NormaliseFeatureCollection | widgets/prod/SpaceView/dist/runtime/assets/DragAndDrop/DragAndDrop.tsx:142-143 | a FeatureCollection reads back as its non-null geometries, in order |
| GeoJson.NormaliseBareGeometry | widgets/prod/SpaceView/dist/runtime/assets/DragAndDrop/DragAndDrop.tsx:144-146 | a bare `{type, coordinates}` object gives a one-element list |
| GeoJson.NormaliseMalformedCollection | widgets/prod/SpaceView/dist/runtime/assets/DragAndDrop/DragAndDrop.tsx:142-143 | a FeatureCollection whose `features` is not an array throws |
| SpaceViewImport.FirstKml | widgets/prod/SpaceView/dist/runtime/assets/DragAndDrop/DragAndDrop.tsx:153 | the chosen entry is the first whose lower-cased name ends in `.kml`; none is chosen only if no entry does |
| SpaceViewImport.ReadKml | widgets/prod/SpaceView/dist/runtime/assets/DragAndDrop/DragAndDrop.tsx:148-149 | reading a KML document fails exactly on a parser error, and otherwise gives the geometries of every Placemark |
| SpaceViewImport.ZipGeometries | widgets/prod/SpaceView/dist/runtime/assets/DragAndDrop/DragAndDrop.tsx:158-176 | a converter result that normalises wins; otherwise the first KML entry is read, an archive without one gives no geometries, and a non-archive throws |
| SpaceViewImport.ReadGeometries | widgets/prod/SpaceView/dist/runtime/assets/DragAndDrop/DragAndDrop.tsx:139-176 | `.kml` goes to the KML reader; `.geojson` succeeds exactly when the text parses and normalises; `.kmz` exactly when the archive has a KML entry that reads, and then with that entry; `.zip` through the converter and its fallback |
| SpaceViewImport.Settle | widgets/prod/SpaceView/dist/runtime/assets/DragAndDrop/DragAndDrop.tsx:178-187 | a throw gives the read-error alert, an empty list the no-geometry alert, and any other list goes to `onChange` unchanged |
| SpaceViewImport.HandleFiles | widgets/prod/SpaceView/dist/runtime/assets/DragAndDrop/DragAndDrop.tsx:122-188 | no file does nothing; an oversized file is refused; a disallowed extension is refused; an allowed one ends as its reader's result settles; only the first file is read |
| SpaceViewImport.ImportFeatureCollection | widgets/prod/SpaceView/dist/runtime/assets/DragAndDrop/DragAndDrop.tsx:140-183 | a small `.geojson` FeatureCollection imports its non-null geometries, in order |
| SpaceViewImport.ImportBrokenKml | widgets/prod/SpaceView/dist/runtime/assets/DragAndDrop/DragAndDrop.tsx:139-187 | a `.kml` document with a parser error ends in the read-error alert |
| SpaceViewImport.ZipFallsBackToKml | widgets/prod/SpaceView/dist/runtime/assets/DragAndDrop/DragAndDrop.tsx:158-176 | when the shapefile converter throws, a zip is read through its first KML entry |
| SpaceViewImport.ZipEmptyShapefileDoesNotFallBack | widgets/prod/SpaceView/dist/runtime/assets/DragAndDrop/DragAndDrop.tsx:158-181 | an empty converter result does not fall back to KML and ends in the no-geometry alert |
| SpaceViewImport.KmzWithoutKml | widgets/prod/SpaceView/dist/runtime/assets/DragAndDrop/DragAndDrop.tsx:151-157 | a KMZ without a KML entry ends in the read-error alert |
| MapViewerImport.Recognise | widgets/prod/MapViewer/dist/runtime/assets/DragAndDrop/DragAndDrop.tsx:51-61 | `null` throws; a FeatureCollection with truthy features gives their geometries (or their throw); otherwise truthy `type` and `coordinates` give the value itself; anything else is not recognised |
| MapViewerImport.DeliverJson | widgets/prod/MapViewer/dist/runtime/assets/DragAndDrop/DragAndDrop.tsx:50-61 | a throw gives the read-error alert, an unrecognised value its own alert, and recognised geometries go to `onChange` when there are any |
| MapViewerImport.Deliver | widgets/prod/MapViewer/dist/runtime/assets/DragAndDrop/DragAndDrop.tsx:93-98 | `onChange` is called exactly when the list is non-empty, with that list |
| MapViewerImport.HandleFiles | widgets/prod/MapViewer/dist/runtime/assets/DragAndDrop/DragAndDrop.tsx:23-103 | no file does nothing; an oversized file is refused; a disallowed extension is refused; `.zip` and `.kmz` go through the converter, `.geojson` through `JSON.parse` and `.kml` through the KML reader; only the first file is read |
| MapViewerImport.DeliverKml | widgets/prod/MapViewer/dist/runtime/assets/DragAndDrop/DragAndDrop.tsx:84-98 | a KML without geometries raises the KML alert; any geometries go to `onChange` |
| MapViewerImport.RecogniseFeatureCollection | widgets/prod/MapViewer/dist/runtime/assets/DragAndDrop/DragAndDrop.tsx:51-54 | a FeatureCollection result gives its non-null geometries, in order |
| MapViewerImport.InvalidGeoJsonAlert | widgets/prod/MapViewer/dist/runtime/assets/DragAndDrop/DragAndDrop.tsx:63-71 | GeoJSON text that does not parse gets its own alert |
| MapViewerImport.UnknownShapeAlert | widgets/prod/MapViewer/dist/runtime/assets/DragAndDrop/DragAndDrop.tsx:73-82 | a value that is neither a collection nor a geometry is refused with an alert |
| MapViewerImport.ImportersAgreeOnFeatureCollections | widgets/prod/MapViewer/dist/runtime/assets/DragAndDrop/DragAndDrop.tsx:63-98 | both importers give the same outcome for a `.geojson` FeatureCollection |
| MapViewerImport.KmzThroughConverter | widgets/prod/MapViewer/dist/runtime/assets/DragAndDrop/DragAndDrop.tsx:46-48 | a KMZ goes through the shapefile converter, and a converter failure is a read error |
| MapViewerImport.BrokenKmlAlert | widgets/prod/MapViewer/dist/runtime/assets/DragAndDrop/DragAndDrop.tsx:84-91 | a KML with a parser error yields no geometries and the KML alert |
| RegexSplit.SplitFrom | widgets/prod/MapViewer/dist/runtime/assets/DragAndDrop/DragAndDrop.tsx:126 | the regex split loop yields at least one piece and never more than the remaining characters plus one |
| RegexSplit.NonEmpty | widgets/prod/MapViewer/dist/runtime/assets/DragAndDrop/DragAndDrop.tsx:126 | `filter(Boolean)` keeps exactly the non-empty pieces; with NonEmptyAppend and NonEmptyOne, in order |
| RegexSplit.NonEmptyAppend | widgets/prod/MapViewer/dist/runtime/assets/DragAndDrop/DragAndDrop.tsx:126 | dropping empty pieces distributes over concatenation, so kept pieces stay in order |
| RegexSplit.NonEmptyOne | widgets/prod/MapViewer/dist/runtime/assets/DragAndDrop/DragAndDrop.tsx:126 | one piece is kept, as itself, exactly when it is non-empty |
| RegexSplit.SplitByAsSplit | widgets/prod/MapViewer/dist/runtime/assets/DragAndDrop/DragAndDrop.tsx:129 | a pattern that matches exactly one character splits like `split` on it |
| RegexSplit.FieldBreakOnlyCommas | widgets/prod/MapViewer/dist/runtime/assets/DragAndDrop/DragAndDrop.tsx:129 | without white space, `\s*,\s*` matches exactly at the commas |
| RegexSplit.TupleBreakOnlyNewlines | widgets/prod/MapViewer/dist/runtime/assets/DragAndDrop/DragAndDrop.tsx:126 | when the only white space is lone newlines, the tuple pattern matches exactly those |
| RegexSplit.NonEmptyKeepsAll | widgets/prod/MapViewer/dist/runtime/assets/DragAndDrop/DragAndDrop.tsx:126 | dropping empty pieces keeps a list of non-empty pieces unchanged |
| MapViewerKml.FirstCoordinatesText | widgets/prod/MapViewer/dist/runtime/assets/DragAndDrop/DragAndDrop.tsx:124 | the trimmed text of the first `<coordinates>` element, or none when there is none |
| MapViewerKml.RingTuples | widgets/prod/MapViewer/dist/runtime/assets/DragAndDrop/DragAndDrop.tsx:126 | the ring's tuples are non-empty |
| MapViewerKml.RingAsWritten | widgets/prod/MapViewer/dist/runtime/assets/DragAndDrop/DragAndDrop.tsx:126-137 | the ring as written: readable pairs, at most one per tuple |
| MapViewerKml.Ring | widgets/prod/MapViewer/dist/runtime/assets/DragAndDrop/DragAndDrop.tsx:126-137 | the corrected ring: readable pairs, at most one per tuple |
| MapViewerKml.PolygonOf | widgets/prod/MapViewer/dist/runtime/assets/DragAndDrop/DragAndDrop.tsx:122-145 | a single-ring polygon is emitted exactly when the coordinate text is non-empty and, read as written, yields three pairs; its ring is that reading |
| MapViewerKml.LinePairs | widgets/prod/MapViewer/dist/runtime/assets/DragAndDrop/DragAndDrop.tsx:152-155 | a line keeps only the pairs with both numbers readable, in order |
| MapViewerKml.LineOf | widgets/prod/MapViewer/dist/runtime/assets/DragAndDrop/DragAndDrop.tsx:148-163 | a line string is emitted exactly when the coordinate text is non-empty and yields two readable pairs; its path is those pairs |
| MapViewerKml.PointOf | widgets/prod/MapViewer/dist/runtime/assets/DragAndDrop/DragAndDrop.tsx:166-178 | a point is emitted exactly when the coordinate text is non-empty and its two numbers are readable; it is those numbers |
| MapViewerKml.PlacemarkGeometries | widgets/prod/MapViewer/dist/runtime/assets/DragAndDrop/DragAndDrop.tsx:118-179 | a Placemark gives its polygons, then its lines, then its points, each kind exactly what its reader gives for every element of that tag |
| MapViewerKml.CollectAppend | widgets/prod/MapViewer/dist/runtime/assets/DragAndDrop/DragAndDrop.tsx:118-179 | reading elements of one kind distributes over concatenation: the geometries come in document order |
| MapViewerKml.CollectOne | widgets/prod/MapViewer/dist/runtime/assets/DragAndDrop/DragAndDrop.tsx:118-179 | an element contributes a geometry exactly when its reader keeps one |
| MapViewerKml.ParseKml | widgets/prod/MapViewer/dist/runtime/assets/DragAndDrop/DragAndDrop.tsx:105-182 | a parser error gives the empty list rather than an exception; otherwise the geometries of every Placemark; all geometries are well formed |
| MapViewerKml.PlacemarksAppend | widgets/prod/MapViewer/dist/runtime/assets/DragAndDrop/DragAndDrop.tsx:116-180 | Placemarks are read one after another, in document order |
| MapViewerKml.PlacemarksOne | widgets/prod/MapViewer/dist/runtime/assets/DragAndDrop/DragAndDrop.tsx:116-180 | one Placemark contributes exactly its own geometries |
| MapViewerKml.RingRoundTrip | widgets/prod/MapViewer/dist/runtime/assets/DragAndDrop/DragAndDrop.tsx:126-137 | with fields cut at commas, a ring written one tuple per line reads back as its pairs |
| MapViewerKml.LineRoundTrip | widgets/prod/MapViewer/dist/runtime/assets/DragAndDrop/DragAndDrop.tsx:152-155 | a line's space-separated coordinate text reads back as its pairs |
| MapViewerKml.SampleFieldsAsWritten | widgets/prod/MapViewer/dist/runtime/assets/DragAndDrop/DragAndDrop.tsx:129 | as written, the field pattern cuts `12,34` into single characters |
| MapViewerKml.RingAsWrittenMisreads | widgets/prod/MapViewer/dist/runtime/assets/DragAndDrop/DragAndDrop.tsx:126-137 | the ring `12,34` reads as `(1, 2)` as written, and as `(12, 34)` once corrected |
| ImageryFilter.Range | widgets/prod/SpaceView/dist/runtime/assets/CustomMap/Popup/Popup.tsx:123-147 | the three-way rule: both bounds give BETWEEN, only the lower gives >=, only the upper gives <=, neither gives no condition |
| ImageryFilter.Checked | widgets/prod/SpaceView/dist/runtime/assets/CustomMap/Popup/Popup.tsx:149-151 | a title is listed exactly when some checked item has it |
| ImageryFilter.CheckedAppend | widgets/prod/SpaceView/dist/runtime/assets/CustomMap/Popup/Popup.tsx:149-151 | the checked titles keep list order: checking distributes over concatenation |
| ImageryFilter.CheckedOne | widgets/prod/SpaceView/dist/runtime/assets/CustomMap/Popup/Popup.tsx:149-151 | an item's title is listed exactly when the item is checked |
| ImageryFilter.Membership | widgets/prod/SpaceView/dist/runtime/assets/CustomMap/Popup/Popup.tsx:149-163 | the `IN` condition is omitted exactly when nothing is checked |
| ImageryFilter.Render | widgets/prod/SpaceView/dist/runtime/assets/CustomMap/Popup/Popup.tsx:123-163 | each condition's SQL text: `col BETWEEN lo AND hi`, `col >= b`, `col <= b`, or `col IN ('a', 'b')` with the values quoted and joined by ", " |
| ImageryFilter.Toggle | widgets/prod/SpaceView/dist/runtime/assets/CustomMap/Popup/Popup.tsx:264-270 | a click flips only item i; the length and the other items are unchanged |
| ImageryFilter.ConditionsOrdered | widgets/prod/SpaceView/dist/runtime/assets/CustomMap/Popup/Popup.tsx:123-166 | conditions appear in the order date, cloud, resolution, type, sensor, each column at most once |
| ImageryFilter.SqlDateOfDotted | widgets/prod/SpaceView/dist/runtime/assets/CustomMap/Popup/Popup.tsx:113-121 | `D.M.Y` becomes `TIMESTAMP 'Y-M-D 00:00:00'`, or `23:59:59` at the end of the day |
| ImageryFilter.EmptyQuery | widgets/prod/SpaceView/dist/runtime/assets/CustomMap/Popup/Popup.tsx:166 | the clause is empty exactly when no bound is set and nothing is checked |
| ImageryFilter.InitialQuery | widgets/prod/SpaceView/dist/runtime/assets/CustomMap/Popup/Popup.tsx:79-99 | the initial form gives the empty clause |
| ImageryFilter.DateOnlyQuery | widgets/prod/SpaceView/dist/runtime/assets/CustomMap/Popup/Popup.tsx:113-166 | with only the two dates set, the clause is `Sana BETWEEN` the start of the first day `AND` the end of the last |
| ImageryFilter.CloudAndTypesQuery | widgets/prod/SpaceView/dist/runtime/assets/CustomMap/Popup/Popup.tsx:123-166 | a lower cloud bound and checked types give `Bulut_qop >= b AND Tur IN (...)`, the quoted titles in list order |
| ImageryFilter.ToggleTwice | widgets/prod/SpaceView/dist/runtime/assets/CustomMap/Popup/Popup.tsx:264-270 | clicking the same box twice restores the list |
| ImageryFilter.ToggleMembership | widgets/prod/SpaceView/dist/runtime/assets/CustomMap/Popup/Popup.tsx:149-155 | checking a box adds its title to the `IN` list and unchecking removes it |
| FieldSettings.DefaultField | widgets/src/Zilzila/src/setting/setting.tsx:46-67 | a default field has `posIndex` = key index, name = title = key, and `use` = true |
| FieldSettings.DefaultFields | widgets/src/Zilzila/src/setting/setting.tsx:46-68 | one default per key of the first record, in key order |
| FieldSettings.Clamp | widgets/src/Zilzila/src/setting/setting.tsx:87-88 | the new position is clamped into [0, length-1]: a position inside is kept, one below goes to 0 and one past the end to length-1 |
| FieldSettings.Renumber | widgets/src/Zilzila/src/setting/setting.tsx:94-96 | every field's `posIndex` becomes its position; nothing else changes |
| FieldSettings.MoveItem | widgets/src/Zilzila/src/setting/setting.tsx:84-107 | a move keeps the length and leaves every `posIndex` equal to its position |
| FieldSettings.OnEnter | widgets/src/Zilzila/src/setting/setting.tsx:109-114 | Enter with text `parseInt` can read moves the field to that position; anything else does nothing |
| FieldSettings.HandlePosChange | widgets/src/Zilzila/src/setting/setting.tsx:116-120 | typing a position stores `Number(text)` in that field only |
| FieldSettings.UpdateData | widgets/src/Zilzila/src/setting/setting.tsx:122-135 | entry `index` gains the listed names, each set to its paired value (`undefined` past the values) with the last assignment to a name winning, and keeps its other properties; every other entry is unchanged |
| FieldSettings.AssignLastWins | widgets/src/Zilzila/src/setting/setting.tsx:128-133 | on the entry, the last assignment to a name wins, unnamed properties keep their values, and no other property appears |
| FieldSettings.MoveItemPlaces | widgets/src/Zilzila/src/setting/setting.tsx:87-92 | the moved field lands at the clamped position; fields in between shift by one; the rest keep their places |
| FieldSettings.MoveItemPermutes | widgets/src/Zilzila/src/setting/setting.tsx:90-92 | a move is a permutation of the fields, apart from their positions |
| FieldSettings.MoveBack | widgets/src/Zilzila/src/setting/setting.tsx:84-96 | moving back from the new position restores the renumbered list |
| FieldSettings.DefaultsNumbered | widgets/src/Zilzila/src/setting/setting.tsx:46-48 | the defaults are already numbered by position |
| FieldSettings.EnterNeedsNumber | widgets/src/Zilzila/src/setting/setting.tsx:109-113 | Enter with a non-numeric value does nothing |
| CivilDate.DaysInMonth | widgets/prod/Zilzila/dist/runtime/assets/calendar.tsx:104 | a month has 28 to 31 days |
| CivilDate.WeekDay | widgets/prod/Zilzila/dist/runtime/assets/calendar.tsx:103 | `getDay()` is in 0..6 |
| CivilDate.MondayColumn | widgets/prod/Zilzila/dist/runtime/assets/calendar.tsx:103 | `(getDay() + 6) % 7` is in 0..6 |
| CivilDate.MonthLength | widgets/prod/Zilzila/dist/runtime/assets/calendar.tsx:104 | `new Date(y, m + 1, 0).getDate()` is 28 to 31 for any month number, after carrying |
| CivilDate.DayZeroIsLastDay | widgets/prod/Zilzila/dist/runtime/assets/calendar.tsx:104-105 | day 0 of the next month is the last day of this one |
| CivilDate.FirstDayFollowsLastDay | widgets/prod/Zilzila/dist/runtime/assets/calendar.tsx:105 | day 1 of a month follows the last day of the month before |
| CivilDate.MonthCarry | widgets/prod/Zilzila/dist/runtime/assets/calendar.tsx:116-136 | month 12 is January of the next year, and month -1 is December of the year before |
| CivilDate.ColumnStep | widgets/prod/Zilzila/dist/runtime/assets/calendar.tsx:103 | successive days move one Monday-first column to the right, wrapping after Sunday |
| MonthGrid.NextMode | widgets/prod/Zilzila/dist/runtime/assets/calendar.tsx:186 | the header click always changes the mode |
| MonthGrid.ModeCycle | widgets/prod/Zilzila/dist/runtime/assets/calendar.tsx:186 | days, months, years and back: three clicks restore the mode |
| MonthGrid.StartColumn | widgets/prod/Zilzila/dist/runtime/assets/calendar.tsx:102-103 | the number of leading cells is in 0..6 |
| MonthGrid.Layout | widgets/prod/Zilzila/dist/runtime/assets/calendar.tsx:101-150 | the loop with its day counter yields exactly the 42 cells `CellAt` describes |
| MonthGrid.CurrentRun | widgets/prod/Zilzila/dist/runtime/assets/calendar.tsx:123-132 | the month's days fill the cells from the start column, numbered 1 to the month's length in order, inside the grid |
| MonthGrid.Neighbours | widgets/prod/Zilzila/dist/runtime/assets/calendar.tsx:113-143 | leading cells end with the previous month's last day; trailing cells count up from 1 |
| MonthGrid.CellDates | widgets/prod/Zilzila/dist/runtime/assets/calendar.tsx:110-147 | cell i stands for the day `i - startColumn` days after the first of the month |
| MonthGrid.CellColumn | widgets/prod/Zilzila/dist/runtime/assets/calendar.tsx:103-147 | each cell's weekday column is its grid column |
| MonthGrid.GridIsConsecutiveWeeks | widgets/prod/Zilzila/dist/runtime/assets/calendar.tsx:101-150 | the grid is six Monday-first weeks of consecutive days |
| ZilzilaCalendar.ParseDate | widgets/prod/Zilzila/dist/runtime/assets/calendar.tsx:63-72 | a date is read only from exactly three dot-separated parts, none NaN |
| ZilzilaCalendar.FromParts | widgets/prod/Zilzila/dist/runtime/assets/calendar.tsx:67-71 | a date read from three parts has no NaN field |
| ZilzilaCalendar.SelectDay | widgets/prod/Zilzila/dist/runtime/assets/calendar.tsx:79-85 | picking a day selects it in the viewed month, emits its text and closes the popup |
| ZilzilaCalendar.DayClick | widgets/prod/Zilzila/dist/runtime/assets/calendar.tsx:230 | a click picks a day exactly when the cell is enabled and in the viewed month |
| ZilzilaCalendar.ChangeMonth | widgets/prod/Zilzila/dist/runtime/assets/calendar.tsx:87-93 | the view changes only to a year inside [minYear, maxYear]; nothing else changes |
| ZilzilaCalendar.ChangeYear | widgets/prod/Zilzila/dist/runtime/assets/calendar.tsx:95-98 | the year changes only into [minYear, maxYear], and the month is kept |
| ZilzilaCalendar.GenerateDays | widgets/prod/Zilzila/dist/runtime/assets/calendar.tsx:101-150 | 42 cells, each the grid cell at its position with its greying |
| ZilzilaCalendar.YearList | widgets/prod/Zilzila/dist/runtime/assets/calendar.tsx:278 | the years from the minimum to the current one, in order |
| ZilzilaCalendar.ParseParts | widgets/prod/Zilzila/dist/runtime/assets/calendar.tsx:63-72 | three dot-free parts are read one by one |
| ZilzilaCalendar.ParseFormatRoundTrip | widgets/prod/Zilzila/dist/runtime/assets/calendar.tsx:63-77 | parsing what `formatDate` wrote gives the date back |
| ZilzilaCalendar.EmptyPartsReadAsZero | widgets/prod/Zilzila/dist/runtime/assets/calendar.tsx:64-71 | `..` reads as day 0 of month -1 of year 0 rather than as no date |
| ZilzilaCalendar.ChangeMonthSteps | widgets/prod/Zilzila/dist/runtime/assets/calendar.tsx:87-93 | month steps stay in 0..11, wrapping -1 to 11 with year-1 and 12 to 0 with year+1 |
| ZilzilaCalendar.ForwardUndoesBack | widgets/prod/Zilzila/dist/runtime/assets/calendar.tsx:87-93 | one month forward undoes one month back |
| ZilzilaCalendar.ArrowsKeepYearRange | widgets/prod/Zilzila/dist/runtime/assets/calendar.tsx:174-203 | the four arrows never leave the year range |
| ZilzilaCalendar.CurrentCellsAreTheMonth | widgets/prod/Zilzila/dist/runtime/assets/calendar.tsx:123-132 | the current cells are exactly the days 1 to the month's length, in order |
| ZilzilaCalendar.DisabledIsSuffix | widgets/prod/Zilzila/dist/runtime/assets/calendar.tsx:113-143 | greyed-out cells form a tail of the grid |
| ZilzilaCalendar.PickedDayNotInFuture | widgets/prod/Zilzila/dist/runtime/assets/calendar.tsx:230 | a picked day is never after today, and its text reads back as that day |
| ZilzilaCalendar.MonthClickNotInFuture | widgets/prod/Zilzila/dist/runtime/assets/calendar.tsx:244-266 | a month click never opens a month after today's, and returns to the day view |
| SpaceViewCalendar.Slot | widgets/prod/SpaceView/dist/runtime/assets/Calendar/Calendar.tsx:50-54 | the slot of a tag is `indexOf / 3`, in -1..2 |
| SpaceViewCalendar.SeparatorOfDayMonthYear | widgets/prod/SpaceView/dist/runtime/assets/Calendar/Calendar.tsx:43-44 | for `%D.%M.%Y` the separator is '.' |
| SpaceViewCalendar.SlotsOfDayMonthYear | widgets/prod/SpaceView/dist/runtime/assets/Calendar/Calendar.tsx:50-54 | for `%D.%M.%Y` day, month and year take slots 0, 1 and 2 |
| SpaceViewCalendar.ParseAll | widgets/prod/SpaceView/dist/runtime/assets/Calendar/Calendar.tsx:46 | every part is read by `parseInt` |
| SpaceViewCalendar.ParseDate | widgets/prod/SpaceView/dist/runtime/assets/Calendar/Calendar.tsx:39-62 | a date is read only from a non-empty value with a format, split into exactly three parts |
| SpaceViewCalendar.MakeBounds | widgets/prod/SpaceView/dist/runtime/assets/Calendar/Calendar.tsx:65-69 | a readable bound text is used as parsed; an absent or unreadable one defaults to 1970-01-01 (minimum) or today (maximum); the bound's day is taken with the year when positive and otherwise 1970 or today's year |
| SpaceViewCalendar.GetCalendar | widgets/prod/SpaceView/dist/runtime/assets/Calendar/Calendar.tsx:115-141 | 42 cells, each labelled with the previous, current or next month's date, wrapping January and December |
| SpaceViewCalendar.SelectDay | widgets/prod/SpaceView/dist/runtime/assets/Calendar/Calendar.tsx:144-160 | a disabled day does nothing; re-selecting the selected day clears it, emits "" and moves the view to today, leaving open and mode as they were; otherwise the day is selected and its text emitted |
| SpaceViewCalendar.YearList | widgets/prod/SpaceView/dist/runtime/assets/Calendar/Calendar.tsx:286-289 | the year list runs from the minimum to the maximum bound year, one entry per year; it is non-empty exactly when both bound years are positive and in order |
| SpaceViewCalendar.FormatDayMonthYear | widgets/prod/SpaceView/dist/runtime/assets/Calendar/Calendar.tsx:89-95 | `%D.%M.%Y` is filled with the padded day, the padded month + 1 and the year |
| SpaceViewCalendar.ParseDayMonthYear | widgets/prod/SpaceView/dist/runtime/assets/Calendar/Calendar.tsx:39-62 | under `%D.%M.%Y` three dot-free parts are read as day, month + 1 and year |
| SpaceViewCalendar.ParseFormatRoundTrip | widgets/prod/SpaceView/dist/runtime/assets/Calendar/Calendar.tsx:39-95 | under `%D.%M.%Y`, parsing what `formatDate` wrote gives the date back |
| SpaceViewCalendar.NoFormatNoParse | widgets/prod/SpaceView/dist/runtime/assets/Calendar/Calendar.tsx:40 | without a format nothing is parsed |
| SpaceViewCalendar.LabelsNameCellDates | widgets/prod/SpaceView/dist/runtime/assets/Calendar/Calendar.tsx:122-139 | each cell's label names the very day the cell stands for |
| SpaceViewCalendar.SelectTwiceClears | widgets/prod/SpaceView/dist/runtime/assets/Calendar/Calendar.tsx:144-159 | selecting an enabled day emits its text; selecting it again clears it and emits "" |
| SpaceViewCalendar.SelectionReadsBack | widgets/prod/SpaceView/dist/runtime/assets/Calendar/Calendar.tsx:144-157 | what a selection emits reads back as the selected day |
| SpaceViewCalendar.NextUndoesPrev | widgets/prod/SpaceView/dist/runtime/assets/Calendar/Calendar.tsx:175-201 | in the day view `>` undoes `<`, and the month stays in 0..11 |
| SpaceViewCalendar.PrevKeepsViewInRange | widgets/prod/SpaceView/dist/runtime/assets/Calendar/Calendar.tsx:176-180 | `<` never moves to a month wholly before the minimum |
| SpaceViewCalendar.NextKeepsViewInRange | widgets/prod/SpaceView/dist/runtime/assets/Calendar/Calendar.tsx:190-194 | `>` never moves to a month wholly after the maximum |
| SpaceViewCalendar.MonthClickInRange | widgets/prod/SpaceView/dist/runtime/assets/Calendar/Calendar.tsx:273-277 | a month click lands inside the bounds and returns to the day view |
| SpaceViewCalendar.YearClickInRange | widgets/prod/SpaceView/dist/runtime/assets/Calendar/Calendar.tsx:294-297 | a year click lands between the bound years and opens the month view |
| QuakeTable.SortKeyOf | widgets/src/Zilzila/src/runtime/widget.tsx:169-186 | each of the four labels maps to its sort key; any other label maps to `datetime_desc` |
| QuakeTable.SortLabelRoundTrip | widgets/src/Zilzila/src/runtime/widget.tsx:169-197 | every sort key has an offered label, and that label maps back to it |
| QuakeTable.SortTextsDistinct | widgets/src/Zilzila/src/runtime/widget.tsx:170-185 | the four sort keys are sent as four different texts |
| QuakeTable.LastPage | widgets/src/Zilzila/src/runtime/widget.tsx:286 | the last page holds the last row: enough pages for the total, and no more |
| QuakeTable.PrevPage | widgets/src/Zilzila/src/runtime/widget.tsx:274 | the previous page is never below 1 and steps back by one from above 1 |
| QuakeTable.NextPage | widgets/src/Zilzila/src/runtime/widget.tsx:286 | the corrected next page steps forward by one before the last page and stays on the last page from there on |
| QuakeTable.NextPageAsWritten | widgets/src/Zilzila/src/runtime/widget.tsx:286 | as written, the next page never exceeds total / per_page |
| QuakeTable.NextPageAsWrittenMissesLastPage | widgets/src/Zilzila/src/runtime/widget.tsx:286 | as written, 15 rows from page 1 go to page 1.5, and 5 rows to page 0.5 |
| QuakeTable.NextUndoesPrev | widgets/src/Zilzila/src/runtime/widget.tsx:273-288 | `>` undoes `<` on pages after the first |
| QuakeTable.PrevUndoesNext | widgets/src/Zilzila/src/runtime/widget.tsx:273-288 | `<` undoes `>` on pages before the last |
| QuakeTable.ButtonsKeepPageInRange | widgets/src/Zilzila/src/runtime/widget.tsx:273-288 | both arrows keep the page within 1 to the last page |
| QuakeTable.PageButtons | widgets/src/Zilzila/src/runtime/widget.tsx:277-283 | buttons 1 to 5 are shown exactly while the page is at most 4 |
| QuakeTable.HighlightedButton | widgets/src/Zilzila/src/runtime/widget.tsx:279 | exactly the button of the current page is highlighted |
| QuakeTable.RowNumbersOfPage | widgets/src/Zilzila/src/runtime/widget.tsx:252 | the rows of page p are numbered within ((p-1)*10, p*10] |
| QuakeTable.RowNumberDecodes | widgets/src/Zilzila/src/runtime/widget.tsx:252 | a row number determines its page and index |
| QuakeTable.RowNumbersContinue | widgets/src/Zilzila/src/runtime/widget.tsx:252 | numbering continues from one page to the next |
| QuakeTable.EvenStyleMatchesNumber | widgets/src/Zilzila/src/runtime/widget.tsx:258-259 | the "even" style falls on exactly the even row numbers |
| QuakeTable.Columns | widgets/src/Zilzila/src/runtime/widget.tsx:83-85 | the columns are exactly the configured fields in use, in order |
| QuakeTable.Configure | widgets/src/Zilzila/src/runtime/widget.tsx:82-86 | a non-empty configuration replaces the columns with its fields in use; otherwise they are kept |
| QuakeTable.ColumnsOfAppend | widgets/src/Zilzila/src/runtime/widget.tsx:84 | filtering distributes over concatenation |
| QuakeTable.AllUsedAllShown | widgets/src/Zilzila/src/runtime/widget.tsx:84 | when every field is in use, all are shown |
| QuakeTable.DefaultsAllShown | widgets/src/Zilzila/src/runtime/widget.tsx:84 | the default configuration shows every field |
| QuakeTable.ColumnsIdempotent | widgets/src/Zilzila/src/runtime/widget.tsx:84 | filtering twice is filtering once |
| QuakeTable.Entries | widgets/src/Zilzila/src/runtime/widget.tsx:23-39 | fifteen entries in the filter's order, from `sort` to `page` |
| QuakeTable.Pairs | widgets/src/Zilzila/src/runtime/widget.tsx:53 | each entry becomes `key=value` |
| QuakeTable.RequestUrl | widgets/src/Zilzila/src/runtime/widget.tsx:53 | the request starts with the endpoint and `?` |
| QuakeTable.QueryRoundTrip | widgets/src/Zilzila/src/runtime/widget.tsx:53 | a query string splits back into its entries |
| QuakeTable.EntriesSeparable | widgets/src/Zilzila/src/runtime/widget.tsx:23-39 | no key holds `=` or `&`, and no value holds `&` |
| QuakeTable.RequestCarriesFilter | widgets/src/Zilzila/src/runtime/widget.tsx:23-53 | the request's query reads back the sort key, the page size and the page |
| QuakeTable.ChooseSort | widgets/src/Zilzila/src/runtime/widget.tsx:167-190 | a new sort sets the key and the active row 0, and keeps the page |
| QuakeTable.ClickPrev | widgets/src/Zilzila/src/runtime/widget.tsx:273-276 | `<` goes to the previous page, nothing else changes |
| QuakeTable.ClickNext | widgets/src/Zilzila/src/runtime/widget.tsx:285-288 | `>` goes to the next page, capped at the last page (the corrected bound), nothing else changes |
| QuakeTable.ClickPageButton | widgets/src/Zilzila/src/runtime/widget.tsx:279-282 | a page button goes to its page, 1 to 5; sort, option, count and active row are kept |
| QuakeTable.ClickRow | widgets/src/Zilzila/src/runtime/widget.tsx:241-244 | a row click makes that row active and keeps the filter |
| QuakeTable.RowFill | widgets/src/Zilzila/src/runtime/widget.tsx:249-259 | the active row is filled `#e3e4ff`; any other row takes the column's `valueFillEven` when its index is odd and `valueFillOdd` when even, or nothing when the column has none |
| QuakeTable.TableStaysOnPages | widgets/src/Zilzila/src/runtime/widget.tsx:167-288 | sorting and both arrows, the next arrow with the corrected bound, keep the page within 1 to the last page |
| QuakeTable.PageButtonCanLeavePages | widgets/src/Zilzila/src/runtime/widget.tsx:277-283 | the numbered buttons can leave the pages: with no records, button 5 goes to page 5 of 1 |
| QuakeTable.InitialRequest | widgets/src/Zilzila/src/runtime/widget.tsx:21-39 | the initial label matches the initial sort key, on page 1 |
| RasterCollect.NormalizeExtent | widgets/prod/SpaceView/dist/runtime/assets/CustomMap/RasterFunc.tsx:31-43 | an invalid extent is dropped; a WGS 84 extent is kept; another is projected |
| RasterCollect.Ring | widgets/prod/SpaceView/dist/runtime/assets/CustomMap/RasterFunc.tsx:124-130 | the ring starts at (xmin, ymin), passes (xmax, ymax), has every vertex on a corner of the extent, is closed, and each edge is axis-aligned |
| RasterCollect.RingCornersDistinct | widgets/prod/SpaceView/dist/runtime/assets/CustomMap/RasterFunc.tsx:124-130 | the four corners of a valid extent are four different points |
| RasterCollect.NewItem | widgets/prod/SpaceView/dist/runtime/assets/CustomMap/RasterFunc.tsx:132-140 | a new item is visible and carries its id, ring and spatial reference |
| RasterCollect.Gather | widgets/prod/SpaceView/dist/runtime/assets/CustomMap/RasterFunc.tsx:114-141 | the map grows by first occurrence only: ids stay distinct, and an id is listed exactly when some feature with it has a usable extent; order is fixed by GatherAppend and GatherOne |
| RasterCollect.GatherAppend | widgets/prod/SpaceView/dist/runtime/assets/CustomMap/RasterFunc.tsx:114-141 | the loop is a left fold: features are taken in order, so the list, and the mosaic rule's id order, follow first occurrence |
| RasterCollect.GatherOne | widgets/prod/SpaceView/dist/runtime/assets/CustomMap/RasterFunc.tsx:114-141 | one feature appends its item at the end unless its id is known or its extent unusable |
| RasterCollect.GatherFromEmpty | widgets/prod/SpaceView/dist/runtime/assets/CustomMap/RasterFunc.tsx:114-141 | every OBJECTID once, each item from the first usable feature with that id |
| RasterCollect.QueryWhere | widgets/prod/SpaceView/dist/runtime/assets/CustomMap/RasterFunc.tsx:109 | the clause always ends with the exclusion, starts with the user's clause and " AND " when there is one, and is the exclusion alone exactly when there is none |
| RasterCollect.MosaicWhere | widgets/prod/SpaceView/dist/runtime/assets/CustomMap/RasterFunc.tsx:156-159 | the rule is `OBJECTID IN (` … `)` |
| RasterCollect.MosaicWhereReadsBack | widgets/prod/SpaceView/dist/runtime/assets/CustomMap/RasterFunc.tsx:156-159 | the ids read back from the rule, in list order |
| RasterCollect.VisibleAreas | widgets/prod/SpaceView/dist/runtime/assets/CustomMap/RasterFunc.tsx:91 | exactly the visible drawn areas; with VisibleAreasAppend and VisibleAreasOne, in layer order and with their multiplicity |
| RasterCollect.VisibleAreasAppend | widgets/prod/SpaceView/dist/runtime/assets/CustomMap/RasterFunc.tsx:91 | the filter distributes over concatenation |
| RasterCollect.VisibleAreasOne | widgets/prod/SpaceView/dist/runtime/assets/CustomMap/RasterFunc.tsx:91 | one area is kept, as itself, exactly when visible |
| RasterCollect.Collect | widgets/prod/SpaceView/dist/runtime/assets/CustomMap/RasterFunc.tsx:78-187 | no visible area gives an empty list and rule "1=0"; otherwise the query carries the where clause; a non-empty list gets the rule of its ids and a visible layer |
| RasterCollect.CollectListsUsableHits | widgets/prod/SpaceView/dist/runtime/assets/CustomMap/RasterFunc.tsx:100-147 | a raster is listed exactly when some visible area's query returned it with a usable extent |
| RasterCollect.HiddenAreasShowNothing | widgets/prod/SpaceView/dist/runtime/assets/CustomMap/RasterFunc.tsx:93-98 | hiding every area empties the list and the mosaic |
| MapLists.ToggleGeometry | widgets/prod/SpaceView/dist/runtime/assets/CustomMap/CustomMap.tsx:202-209 | `gToggel` flips area i only |
| MapLists.DeleteGeometry | widgets/prod/SpaceView/dist/runtime/assets/CustomMap/CustomMap.tsx:212-222 | `gDelete` removes exactly area i, keeping the others in order |
| MapLists.SetAllGeometries | widgets/prod/SpaceView/dist/runtime/assets/CustomMap/CustomMap.tsx:235-255 | show-all and hide-all set every area's tick, keeping names and areas |
| MapLists.ToggleRaster | widgets/prod/SpaceView/dist/runtime/assets/CustomMap/CustomMap.tsx:337 | `rToggel` flips raster i only |
| MapLists.SetAllRasters | widgets/prod/SpaceView/dist/runtime/assets/CustomMap/CustomMap.tsx:357-377 | show-all and hide-all set every raster's tick |
| MapLists.Ticked | widgets/prod/SpaceView/dist/runtime/assets/CustomMap/CustomMap.tsx:338 | a raster is listed exactly when it is ticked |
| MapLists.TickedAppend | widgets/prod/SpaceView/dist/runtime/assets/CustomMap/CustomMap.tsx:338 | the ticked rasters keep list order: ticking distributes over concatenation |
| MapLists.TickedOne | widgets/prod/SpaceView/dist/runtime/assets/CustomMap/CustomMap.tsx:338 | a raster is listed exactly when it is ticked, as itself |
| MapLists.RuleOf | widgets/prod/SpaceView/dist/runtime/assets/CustomMap/CustomMap.tsx:338-345 | the rule lists the ticked rasters' ids, or is "1=0" when none is ticked |
| MapLists.GeometryClause | widgets/prod/SpaceView/dist/runtime/assets/CustomMap/CustomMap.tsx:186-188 | corrected: an area action recollects with the user's stored clause |
| MapLists.GeometryClauseAsWritten | widgets/prod/SpaceView/dist/runtime/assets/CustomMap/CustomMap.tsx:391-397 | as written: an area action recollects without any clause |
| MapLists.GeometryClauseDropsFilter | widgets/prod/SpaceView/dist/runtime/assets/CustomMap/CustomMap.tsx:391-397 | as written the filter is lost, since the query is the exclusion alone; corrected, the query starts with the user's clause |
| MapLists.GeometryAction | widgets/prod/SpaceView/dist/runtime/assets/CustomMap/CustomMap.tsx:192-290 | `gToggel` and `gDelete` in range flip or remove that area, out of range stop; `gShowAll` and `gHideAll` tick or untick every area; rasters, rule and clause are kept; zoom, hover and unhover leave the lists as they are and recollect exactly when the index has a graphic; any other 'g' type leaves the lists and recollects; a recollection runs without the stored clause, as written |
| MapLists.RasterAction | widgets/prod/SpaceView/dist/runtime/assets/CustomMap/CustomMap.tsx:291-385 | a raster action leaves areas and clause alone; `rToggel` in range flips one raster, out of range it throws; `rHideAll` unticks every raster with rule `1=0`; `rShowAll` ticks every raster with a rule listing all ids; without the layer or rasters, or for another type, nothing changes |
| MapLists.Reduce | widgets/prod/SpaceView/dist/runtime/assets/CustomMap/CustomMap.tsx:179-405 | "none" does nothing; "where" stores the clause and recollects with it; 'g' types act on the areas and recollect without a clause; other types act on the rasters |
| MapLists.ToggleGeometryTwice | widgets/prod/SpaceView/dist/runtime/assets/CustomMap/CustomMap.tsx:202-209 | toggling an area twice restores the list |
| MapLists.ShowHideAll | widgets/prod/SpaceView/dist/runtime/assets/CustomMap/CustomMap.tsx:235-255 | show-all ticks and hide-all unticks every area; show after hide is show |
| MapLists.DeleteThenInsert | widgets/prod/SpaceView/dist/runtime/assets/CustomMap/CustomMap.tsx:212-222 | putting the deleted area back restores the list |
| MapLists.RuleReadsBack | widgets/prod/SpaceView/dist/runtime/assets/CustomMap/CustomMap.tsx:338-345 | the ids of the ticked rasters read back from the rule, in order |
| MapLists.RasterActionsKeepRule | widgets/prod/SpaceView/dist/runtime/assets/CustomMap/CustomMap.tsx:335-385 | every raster action that runs leaves the rule showing exactly the ticked rasters |
| MapLists.ToggleRasterTwice | widgets/prod/SpaceView/dist/runtime/assets/CustomMap/CustomMap.tsx:335-355 | toggling a raster twice restores the list and the rule |
| MapLists.ShowAllShowsEveryRaster | widgets/prod/SpaceView/dist/runtime/assets/CustomMap/CustomMap.tsx:371-384 | show-all puts every raster in the rule |
| MapDrawing.Click | widgets/prod/SpaceView/dist/runtime/assets/CustomMap/CustomMap.tsx:620-721 | a click adds the point, except with no tool and except a second point for a one-point tool |
| MapDrawing.RectangleRing | widgets/prod/SpaceView/dist/runtime/assets/CustomMap/CustomMap.tsx:556-562 | the ring is the first corner, its two axis-aligned neighbours and the opposite corner |
| MapDrawing.RectangleFromOppositeCorner | widgets/prod/SpaceView/dist/runtime/assets/CustomMap/CustomMap.tsx:556-562 | dragging from the other corner gives the same rectangle, rotated by two vertices |
| MapDrawing.DoubleClick | widgets/prod/SpaceView/dist/runtime/assets/CustomMap/CustomMap.tsx:523-592 | a polygon needs more than one point, so its ring has at least three; a rectangle or circle needs exactly one |
| MapDrawing.AddShape | widgets/prod/SpaceView/dist/runtime/assets/CustomMap/CustomMap.tsx:609-616 | a finished shape joins the list ticked, and no shape leaves the list unchanged |
| MapDrawing.OnePointTools | widgets/prod/SpaceView/dist/runtime/assets/CustomMap/CustomMap.tsx:620-721 | rectangle and circle never collect more than one point |
| MapDrawing.PolygonRingIsClicks | widgets/prod/SpaceView/dist/runtime/assets/CustomMap/CustomMap.tsx:529-530 | a polygon's ring is its clicked points in order, then the double-clicked point |
| MapDrawing.ImportedName | widgets/prod/SpaceView/dist/runtime/assets/CustomMap/CustomMap.tsx:143 | an absent or empty name falls back to "FilePolygon" |
| MapDrawing.AddImported | widgets/prod/SpaceView/dist/runtime/assets/CustomMap/CustomMap.tsx:138-162 | the drawn areas are kept as a prefix and the added ones are ticked; names, areas and order through AddImportedAppend and AddImportedOne |
| MapDrawing.ImportedArea | widgets/prod/SpaceView/dist/runtime/assets/CustomMap/CustomMap.tsx:139-157 | a polygon becomes a ticked area named by its name or "FilePolygon", with its area text |
| MapDrawing.AddImportedAppend | widgets/prod/SpaceView/dist/runtime/assets/CustomMap/CustomMap.tsx:138-162 | the file is read item by item in order |
| MapDrawing.AddImportedOne | widgets/prod/SpaceView/dist/runtime/assets/CustomMap/CustomMap.tsx:138-162 | a polygon appends its area at the end; any other item adds nothing |
| MapDrawing.ImportCountsPolygons | widgets/prod/SpaceView/dist/runtime/assets/CustomMap/CustomMap.tsx:138-162 | one area is added per polygon of the file |
| LeftPanel.PopupType | widgets/prod/SpaceView/dist/runtime/assets/CustomMap/LeftArea/LeftArea.tsx:58-84 | info on the shown raster closes; on another it opens; filter toggles between -2 and none; anything else closes |
| LeftPanel.InfoTwiceCloses | widgets/prod/SpaceView/dist/runtime/assets/CustomMap/LeftArea/LeftArea.tsx:60-69 | clicking a raster twice opens its information, then closes it |
| LeftPanel.FilterTwiceCloses | widgets/prod/SpaceView/dist/runtime/assets/CustomMap/LeftArea/LeftArea.tsx:71-78 | the filter button pressed twice closes the popup |
| LeftPanel.InfoReplacesFilter | widgets/prod/SpaceView/dist/runtime/assets/CustomMap/LeftArea/LeftArea.tsx:60-69 | opening a raster's information replaces the filter popup |
| LeftPanel.Shown | widgets/prod/SpaceView/dist/runtime/assets/CustomMap/LeftArea/LeftArea.tsx:199-212 | exactly the ticked areas; with ShownAppend and ShownOne, in list order and with their multiplicity |
| LeftPanel.ShownAppend | widgets/prod/SpaceView/dist/runtime/assets/CustomMap/LeftArea/LeftArea.tsx:199-212 | the filter distributes over concatenation |
| LeftPanel.ShownOne | widgets/prod/SpaceView/dist/runtime/assets/CustomMap/LeftArea/LeftArea.tsx:199-212 | one area is counted exactly when ticked |
| LeftPanel.Counter | widgets/prod/SpaceView/dist/runtime/assets/CustomMap/LeftArea/LeftArea.tsx:199-212 | count is the active list's length and select its ticked items, so select ≤ count |
| LeftPanel.HideAllButton | widgets/prod/SpaceView/dist/runtime/assets/CustomMap/LeftArea/LeftArea.tsx:252-260 | hide-all is offered exactly when something is ticked, for the active tab's list |
| LeftPanel.ShowAllButton | widgets/prod/SpaceView/dist/runtime/assets/CustomMap/LeftArea/LeftArea.tsx:261-268 | show-all is offered exactly when something is unticked, for the active tab's list |
| LeftPanel.BulkButtonsSettle | widgets/prod/SpaceView/dist/runtime/assets/CustomMap/LeftArea/LeftArea.tsx:252-268 | after hide-all, hide-all is no longer offered; after show-all, show-all is no longer offered |
| LeftPanel.ImagesContent | widgets/prod/SpaceView/dist/runtime/assets/CustomMap/LeftArea/LeftArea.tsx:126-155 | loading until ready, then "no images" or the list |
| RightPanel.UpdateType | widgets/prod/SpaceView/dist/runtime/assets/CustomMap/RightArea/RightArea.tsx:85-99 | "Import" is forwarded without changing the tool; the current tool deselects; another tool is selected |
| RightPanel.PressTwiceDeselects | widgets/prod/SpaceView/dist/runtime/assets/CustomMap/RightArea/RightArea.tsx:91-98 | pressing a tool twice leaves no tool |
| RightPanel.ToolOf | widgets/prod/SpaceView/dist/runtime/assets/CustomMap/RightArea/RightArea.tsx:164-172 | each toolbar button's name selects its drawing tool |
| RightPanel.Forwarded | widgets/prod/SpaceView/dist/runtime/assets/CustomMap/CustomMap.tsx:907-919 | "Import" opens the importer; other names set the tool, with the preview shown unless "none" |
| RightPanel.MapFollowsToolbar | widgets/prod/SpaceView/dist/runtime/assets/CustomMap/RightArea/RightArea.tsx:85-99 | after a tool button, the map's tool is the toolbar's highlighted tool, or none |
| RightPanel.ZoomIn | widgets/prod/SpaceView/dist/runtime/assets/CustomMap/RightArea/RightArea.tsx:72-78 | zoom in goes to min(zoom + 1, 20) |
| RightPanel.ZoomOut | widgets/prod/SpaceView/dist/runtime/assets/CustomMap/RightArea/RightArea.tsx:72-78 | zoom out goes to max(zoom - 1, 1) |
| RightPanel.ZoomRoundTrips | widgets/prod/SpaceView/dist/runtime/assets/CustomMap/RightArea/RightArea.tsx:72-78 | away from the bounds, zoom out undoes zoom in and zoom in undoes zoom out |
| RightPanel.ChangeBasemap | widgets/prod/SpaceView/dist/runtime/assets/CustomMap/RightArea/RightArea.tsx:80-83 | choosing a basemap sets it and closes the popup |
| RightPanel.ToggleBasemaps | widgets/prod/SpaceView/dist/runtime/assets/CustomMap/RightArea/RightArea.tsx:157 | the layers button flips the popup, nothing else |
| RightPanel.ToggleOverlay | widgets/prod/SpaceView/dist/runtime/assets/CustomMap/RightArea/RightArea.tsx:144-147 | the overlay box flips the overlay, nothing else |
| RightPanel.BasemapChoiceSettles | widgets/prod/SpaceView/dist/runtime/assets/CustomMap/RightArea/RightArea.tsx:80-83 | two choices in a row equal the last choice |

## Left out

- Map host calls are left out: MapView, Graphic, GraphicsLayer and ImageryLayer; `geometryEngine` areas and buffers; `projection.project`; `mgrs`. Their results are parameters (area strings, the projected extent) or are not represented.
- Hover and zoom actions (`gHover`, `gUnhover`, `gZoom`, `rHover`, `rUnhover`, `rClicked`) only restyle graphics or move the view. The model keeps their guards and effect on the lists.
- The graphics layer that parallels the area list is not represented. Its guard "no graphic at this index" is the list-index guard.
- `fetch` is left out: the earthquake API, the settings' first-record request, the geocoder and raster thumbnails. The first record's keys are a parameter of the default settings.
- File bytes, JSZip and the shapefile converter are oracle fields of the dropped file; `None` means the call threw.
- The DOM and `DOMParser` are left out. The parsed KML is an abstract element tree, and a parser error is a `parsererror` element.
- Floating-point behaviour is left out: `haversineDistance`, `toFixed` area text and the MinMaxBar stepping. Numbers are exact reals with NaN and the infinities. There is no -0, no rounding and no overflow.
- Timing is left out: debounce timers, `setTimeout` redraws, `await` ordering and React effects. Thumbnail loading is left out too, so the final list differs from the first only by the thumbnails and `_extent`, neither of which is represented.
- Rendering is left out: CSS classes, themes, translations and JSX layout.
- The value-synchronising effects of the date pickers are left out. So are the text-input `onChange`, opening on focus and closing on an outside click.
- The popup's `updateFilter` (the range inputs) is left out. The filter record is a parameter.
- A "where" action whose payload is not a string is not modelled. The clause is a string.
- In the corrected table model the page is an integer. The as-written page is a real, because the source can store a fraction.
- The minimum zoom of 3 set on the view is a host constraint and is not modelled; the zoom buttons are modelled with their own bounds.
- Undefined values are modelled as NaN where the code reads them as numbers. One example is a missing `lat` after `split(",")`.
- SpaceViewCalendar.LabelsNameCellDates: proved for years after 100 only, because the date constructor maps years 0 to 99 to 1900 to 1999.
- SpaceViewCalendar.PrevKeepsViewInRange: proved for view years after 101 only, for the same two-digit-year rule.
- SpaceViewCalendar.NextKeepsViewInRange: proved for view years after 101 only, for the same two-digit-year rule.
- QuakeTable.ClickNext: uses the corrected cap `NextPage` rather than the as-written `total / per_page`, because the table's page is an integer that the request string and the row numbers are built from; the as-written step is modelled by `QuakeTable.NextPageAsWritten` on its own.
- QuakeTable.TableStaysOnPages: holds for the corrected next arrow only; as written, 5 rows take the table from page 1 to page 0.5 (see `QuakeTable.NextPageAsWrittenMissesLastPage`).

### Edge behaviour

- Coordinates: only NaN is rejected, so an `Infinity` coordinate is kept.
- The SpaceView zip import falls back to KML only when the shapefile converter throws. A converter result without geometries ends in the no-geometry alert.
- The extension is taken with `split(".").pop()`. A file named just `kml`, without a dot, is therefore accepted.
- `Number("")` is 0. So the older picker reads `..` as a date: day 0 of month -1 of year 0.

## Findings

| source | as written | input that shows it | evidently intended | confidence | as-written member | corrected member |
|---|---|---|---|---|---|---|
| widgets/prod/MapViewer/dist/runtime/assets/DragAndDrop/DragAndDrop.tsx:129 | ring tuples are split on `/\s*,\s*\|/`, whose empty alternative splits every character apart | the ring text `12,34` reads as the pair (1, 2) | split on commas, giving (12, 34) | high, not executed | MapViewerKml.RingAsWritten | MapViewerKml.Ring |
| widgets/src/Zilzila/src/runtime/widget.tsx:286 | the next page is capped at `total / per_page`, which is a fraction or below 1 | 15 rows on page 1 go to page 1.5; 5 rows go to page 0.5 | cap at the last page, `ceil(total / per_page)`, never below 1 | high, not executed | QuakeTable.NextPageAsWritten | QuakeTable.NextPage |
| widgets/prod/SpaceView/dist/runtime/assets/CustomMap/CustomMap.tsx:391-397 | the user's where clause is stored on a "where" action, but area actions recollect without it | a ticked filter, then toggling an area: the query is the exclusion alone | recollect with the stored clause | medium, not executed | MapLists.GeometryClauseAsWritten | MapLists.GeometryClause |

=== FILE: civil_date.dfy ===
/**
 * The calendar arithmetic behind `new Date(y, m, d)`, `getDate()` and
 * `getDay()` as the date pickers use them: proleptic Gregorian dates
 * counted as whole days from 1970-01-01 in local time. The constructor
 * adds 1900 to a year in 0..99 and carries a month outside 0..11 into
 * the year; a day outside the month runs over into the neighbouring
 * months.
 */
module CivilDate {

  predicate IsLeap(y: int) {
    y % 4 == 0 && (y % 100 != 0 || y % 400 == 0)
  }

  function YearLength(y: int): int {
    if IsLeap(y) then 366 else 365
  }

  /** The number of days of month `m` (0 = January) of year `y`. */
  function DaysInMonth(y: int, m: int): (n: int)
    requires 0 <= m < 12
    ensures 28 <= n <= 31
  {
    if m == 1 then (if IsLeap(y) then 29 else 28)
    else if m == 3 || m == 5 || m == 8 || m == 10 then 30
    else 31
  }

  /** The days of year `y` before month `m`; `m == 12` counts the whole year. */
  function DaysBeforeMonth(y: int, m: int): int
    requires 0 <= m <= 12
  {
    if m == 0 then 0 else DaysBeforeMonth(y, m - 1) + DaysInMonth(y, m - 1)
  }

  /** Days from 0000-01-01 to `y`-01-01 (negative before year 0). */
  function DaysBeforeYear(y: int): int {
    365 * y + (y + 3) / 4 - (y + 99) / 100 + (y + 399) / 400
  }

  /** The constructor's two-digit-year rule. */
  function FullYear(y: int): int {
    if 0 <= y <= 99 then 1900 + y else y
  }

  /** `new Date(y, m, d)` as a day number, 0 being 1970-01-01. */
  function DayNumber(y: int, m: int, d: int): int {
    var year := FullYear(y) + m / 12;
    DaysBeforeYear(year) - DaysBeforeYear(1970) + DaysBeforeMonth(year, m % 12) + d - 1
  }

  /** `getDay()` of a day number: 0 is Sunday; 1970-01-01 was a Thursday. */
  function WeekDay(day: int): (w: int)
    ensures 0 <= w < 7
  {
    (day + 4) % 7
  }

  /** `(getDay() + 6) % 7`: the column of a day in a grid whose weeks start on Monday. */
  function MondayColumn(day: int): (c: int)
    ensures 0 <= c < 7
  {
    (WeekDay(day) + 6) % 7
  }

  /** `new Date(y, m + 1, 0).getDate()`: the length of month `m` of year `y` after carrying. */
  function MonthLength(y: int, m: int): (n: int)
    ensures 28 <= n <= 31
  {
    DaysInMonth(FullYear(y) + m / 12, m % 12)
  }

  // ---------------------------------------------------------------------
  // Properties
  // ---------------------------------------------------------------------

  lemma {:induction false} DaysBeforeMonthBounds(y: int, m: int)
    requires 0 <= m <= 12
    ensures 28 * m <= DaysBeforeMonth(y, m) <= 31 * m
  {
    if m > 0 {
      DaysBeforeMonthBounds(y, m - 1);
    }
  }

  /** The twelve months make up the year. */
  lemma MonthsMakeYear(y: int)
    ensures DaysBeforeMonth(y, 12) == YearLength(y)
  {
    var feb := DaysInMonth(y, 1);
    assert DaysBeforeMonth(y, 1) == 31;
    assert DaysBeforeMonth(y, 2) == 31 + feb;
    assert DaysBeforeMonth(y, 3) == 62 + feb;
    assert DaysBeforeMonth(y, 4) == 92 + feb;
    assert DaysBeforeMonth(y, 5) == 123 + feb;
    assert DaysBeforeMonth(y, 6) == 153 + feb;
    assert DaysBeforeMonth(y, 7) == 184 + feb;
    assert DaysBeforeMonth(y, 8) == 215 + feb;
    assert DaysBeforeMonth(y, 9) == 245 + feb;
    assert DaysBeforeMonth(y, 10) == 276 + feb;
    assert DaysBeforeMonth(y, 11) == 306 + feb;
  }

  lemma Step4(y: int)
    ensures (y + 4) / 4 == (y + 3) / 4 + (if y % 4 == 0 then 1 else 0)
  {
    var q, r := y / 4, y % 4;
    assert y + 4 == 4 * (q + 1) + r;
    if r == 0 {
      assert y + 3 == 4 * q + 3;
    } else {
      assert y + 3 == 4 * (q + 1) + (r - 1);
    }
  }

  lemma Step100(y: int)
    ensures (y + 100) / 100 == (y + 99) / 100 + (if y % 100 == 0 then 1 else 0)
  {
    var q, r := y / 100, y % 100;
    assert y + 100 == 100 * (q + 1) + r;
    if r == 0 {
      assert y + 99 == 100 * q + 99;
    } else {
      assert y + 99 == 100 * (q + 1) + (r - 1);
    }
  }

  lemma Step400(y: int)
    ensures (y + 400) / 400 == (y + 399) / 400 + (if y % 400 == 0 then 1 else 0)
  {
    var q, r := y / 400, y % 400;
    assert y + 400 == 400 * (q + 1) + r;
    if r == 0 {
      assert y + 399 == 400 * q + 399;
    } else {
      assert y + 399 == 400 * (q + 1) + (r - 1);
    }
  }

  /** A multiple of 400 is a multiple of 100, and a multiple of 100 one of 4. */
  lemma Multiples(y: int)
    ensures y % 400 == 0 ==> y % 100 == 0
    ensures y % 100 == 0 ==> y % 4 == 0
  {
    var q400, q100, q4 := y / 400, y / 100, y / 4;
    assert y == 400 * q400 + y % 400;
    assert y == 100 * q100 + y % 100;
    assert y == 4 * q4 + y % 4;
    if y % 400 == 0 {
      assert y % 100 == 100 * (4 * q400 - q100);
    }
    if y % 100 == 0 {
      assert y % 4 == 4 * (25 * q100 - q4);
    }
  }

  /** Consecutive new years are a year length apart. */
  lemma YearStep(y: int)
    ensures DaysBeforeYear(y + 1) - DaysBeforeYear(y) == YearLength(y)
  {
    Step4(y);
    Step100(y);
    Step400(y);
    Multiples(y);
    assert (y + 1) + 3 == y + 4 && (y + 1) + 99 == y + 100 && (y + 1) + 399 == y + 400;
  }

  /** The next day of the month is the next day number. */
  lemma NextDay(y: int, m: int, d: int)
    ensures DayNumber(y, m, d + 1) == DayNumber(y, m, d) + 1
  {
  }

  /** Day 0 of the month after `m` is the last day of `m`: this is what `new Date(y, m + 1, 0).getDate()` reads. */
  lemma DayZeroIsLastDay(y: int, m: int)
    ensures DayNumber(y, m + 1, 0) == DayNumber(y, m, MonthLength(y, m))
  {
    var base := FullYear(y) + m / 12;
    assert m == 12 * (m / 12) + m % 12;
    if m % 12 < 11 {
      assert (m + 1) / 12 == m / 12 && (m + 1) % 12 == m % 12 + 1;
    } else {
      assert (m + 1) / 12 == m / 12 + 1 && (m + 1) % 12 == 0;
      MonthsMakeYear(base);
      YearStep(base);
    }
  }

  /** Day 1 of a month follows the last day of the month before it. */
  lemma FirstDayFollowsLastDay(y: int, m: int)
    ensures DayNumber(y, m, 1) == DayNumber(y, m - 1, MonthLength(y, m - 1)) + 1
  {
    DayZeroIsLastDay(y, m - 1);
  }

  /** The month carry: month 12 is January of the next year, month -1 December of the year before. */
  lemma MonthCarry(y: int, m: int, d: int)
    requires FullYear(y) == y && FullYear(y + 1) == y + 1 && FullYear(y - 1) == y - 1
    ensures DayNumber(y, 12, d) == DayNumber(y + 1, 0, d)
    ensures DayNumber(y, -1, d) == DayNumber(y - 1, 11, d)
  {
  }

  /** Successive days move one column to the right in a Monday-first week, wrapping after Sunday. */
  lemma ColumnStep(day: int)
    ensures MondayColumn(day + 1) == (MondayColumn(day) + 1) % 7
  {
    var q, w := (day + 4) / 7, (day + 4) % 7;
    assert day + 4 == 7 * q + w;
    if w < 6 {
      assert WeekDay(day + 1) == w + 1;
    } else {
      assert day + 5 == 7 * (q + 1);
      assert WeekDay(day + 1) == 0;
    }
  }
}

=== FILE: field_settings.dfy ===
/**
 * The earthquake table's settings panel: the list of column settings
 * (one object per attribute of the earthquake records), its default
 * construction, reordering by typed position, and per-column updates.
 * A column setting is a JavaScript object, modelled as a map from
 * property names to values.
 */
module FieldSettings {
  import opened Wrappers
  import opened JsText
  import opened JsNumber

  datatype Value = Text(s: string) | Flag(b: bool) | Number(n: JsNum) | Undefined

  type Field = map<string, Value>

  const PosIndex := "posIndex"

  /** The default setting of the attribute `key`, the `index`-th key of the first record. */
  function DefaultField(key: string, index: nat): (f: Field)
    ensures PosIndex in f && "name" in f && "title" in f && "use" in f
    ensures f[PosIndex] == Number(FromInt(index))
    ensures f["name"] == Text(key) && f["title"] == Text(key) && f["use"] == Flag(true)
  {
    map[
      PosIndex := Number(FromInt(index)),
      "name" := Text(key),
      "title" := Text(key),
      "use" := Flag(true),
      "size" := Text("100"),
      "fieldColor" := Text("#ffffff"),
      "fieldFill" := Text("#7382f8"),
      "fieldPos" := Text("center"),
      "valueColorOdd" := Text("#001cff"),
      "valueFillOdd" := Text("#ffffff"),
      "valueColorEven" := Text("#001cff"),
      "valueFillEven" := Text("#ffffff"),
      "valuePos" := Text("center"),
      "separateFill" := Flag(true),
      "separateColor" := Flag(true)
    ]
  }

  /** The default settings, one per key of the first record, in key order. */
  function DefaultFields(keys: seq<string>): (fs: seq<Field>)
    ensures |fs| == |keys|
    ensures forall i :: 0 <= i < |keys| ==> fs[i] == DefaultField(keys[i], i)
  {
    seq(|keys|, i requires 0 <= i < |keys| => DefaultField(keys[i], i))
  }

  /** `newPos` after the two bounds checks of `moveItem`. */
  function Clamp(newPos: int, length: nat): (p: int)
    ensures length > 0 ==> 0 <= p < length
    ensures 0 <= newPos < length ==> p == newPos
    ensures length > 0 && newPos < 0 ==> p == 0
    ensures length > 0 && newPos >= length ==> p == length - 1
  {
    var p := if newPos < 0 then 0 else newPos;
    if p >= length then length - 1 else p
  }

  function Remove<T>(s: seq<T>, i: nat): (r: seq<T>)
    requires i < |s|
    ensures |r| == |s| - 1
  {
    s[..i] + s[i + 1..]
  }

  function Insert<T>(s: seq<T>, p: nat, x: T): (r: seq<T>)
    requires p <= |s|
    ensures |r| == |s| + 1 && r[p] == x
  {
    s[..p] + [x] + s[p..]
  }

  /** Every field's `posIndex` set to its position. */
  function Renumber(fs: seq<Field>): (r: seq<Field>)
    ensures |r| == |fs|
    ensures forall i :: 0 <= i < |fs| ==> r[i] == fs[i][PosIndex := Number(FromInt(i))]
  {
    seq(|fs|, i requires 0 <= i < |fs| => fs[i][PosIndex := Number(FromInt(i))])
  }

  /** `moveItem(index, newPos)`: take field `index` out, put it back at the clamped position, renumber. */
  function MoveItem(fs: seq<Field>, index: nat, newPos: int): (r: seq<Field>)
    requires index < |fs|
    ensures |r| == |fs|
    ensures forall i :: 0 <= i < |r| ==> PosIndex in r[i] && r[i][PosIndex] == Number(FromInt(i))
  {
    Renumber(Insert(Remove(fs, index), Clamp(newPos, |fs|), fs[index]))
  }

  /** `onEnter`: on the Enter key with a text `parseInt` reads, move the field; otherwise nothing (None). */
  function OnEnter(fs: seq<Field>, key: string, text: string, index: nat): (r: Option<seq<Field>>)
    requires index < |fs|
    ensures r.Some? <==> key == "Enter" && !ParseInt(text).NaN?
    ensures r.Some? ==> r.value == MoveItem(fs, index, ParseInt(text).v.Floor)
  {
    var n := ParseInt(text);
    if key == "Enter" && n.Num? then Some(MoveItem(fs, index, n.v.Floor)) else None
  }

  /** `handlePosChange`: the typed position stored as a number, without moving anything. */
  function HandlePosChange(fs: seq<Field>, index: nat, text: string): (r: seq<Field>)
    requires index < |fs|
    ensures |r| == |fs| && r[index] == fs[index][PosIndex := Number(ToNumber(text))]
    ensures forall i :: 0 <= i < |fs| && i != index ==> r[i] == fs[i]
  {
    fs[index := fs[index][PosIndex := Number(ToNumber(text))]]
  }

  /** `values[i]`, or `undefined` past the end of the list. */
  function ValueAt(values: seq<Value>, i: nat): Value {
    if i < |values| then values[i] else Undefined
  }

  /** Setting `names[i]` to `values[i]` for each `i` in turn: all but the last assignment, then the last. */
  function Assign(f: Field, names: seq<string>, values: seq<Value>): Field
    decreases |names|
  {
    if names == [] then f
    else
      var last := |names| - 1;
      Assign(f, names[..last], values)[names[last] := ValueAt(values, last)]
  }

  /**
   * `updateData(values, names, index)`: field `index` gets each listed name
   * set to its paired value, the last assignment to a name winning; the
   * other fields are untouched.
   */
  function UpdateData(fs: seq<Field>, values: seq<Value>, names: seq<string>, index: nat): (r: seq<Field>)
    requires index < |fs|
    ensures |r| == |fs|
    ensures forall i :: 0 <= i < |fs| && i != index ==> r[i] == fs[i]
    ensures r[index] == Assign(fs[index], names, values)
    ensures r[index].Keys == fs[index].Keys + set n | n in names
    ensures forall k :: k in fs[index] && k !in names ==> r[index][k] == fs[index][k]
    ensures forall i :: 0 <= i < |names| && (forall j :: i < j < |names| ==> names[j] != names[i]) ==>
      r[index][names[i]] == ValueAt(values, i)
  {
    AssignLastWins(fs[index], names, values);
    fs[index := Assign(fs[index], names, values)]
  }

  // ---------------------------------------------------------------------
  // Properties
  // ---------------------------------------------------------------------

  /** A field without its position: what a move must keep. */
  function Strip(f: Field): Field {
    f - {PosIndex}
  }

  function Strips(fs: seq<Field>): (r: seq<Field>)
    ensures |r| == |fs|
    ensures forall i :: 0 <= i < |fs| ==> r[i] == Strip(fs[i])
  {
    seq(|fs|, i requires 0 <= i < |fs| => Strip(fs[i]))
  }

  lemma {:induction false} AssignKeys(f: Field, names: seq<string>, values: seq<Value>)
    ensures Assign(f, names, values).Keys == f.Keys + set n | n in names
    decreases |names|
  {
    if names != [] {
      var last := |names| - 1;
      var init := names[..last];
      AssignKeys(f, init, values);
      assert names == init + [names[last]];
      assert (set n | n in names) == (set n | n in init) + {names[last]};
    }
  }

  lemma {:induction false} AssignKeeps(f: Field, names: seq<string>, values: seq<Value>)
    ensures forall k :: k in f && k !in names ==> k in Assign(f, names, values) && Assign(f, names, values)[k] == f[k]
    decreases |names|
  {
    if names != [] {
      var last := |names| - 1;
      var init := names[..last];
      AssignKeys(f, init, values);
      AssignKeeps(f, init, values);
      forall k | k in f && k !in names
        ensures k in Assign(f, names, values) && Assign(f, names, values)[k] == f[k]
      {
        assert k !in init && k != names[last];
      }
    }
  }

  lemma {:induction false} AssignLast(f: Field, names: seq<string>, values: seq<Value>)
    ensures forall i :: 0 <= i < |names| && (forall j :: i < j < |names| ==> names[j] != names[i]) ==>
      names[i] in Assign(f, names, values) && Assign(f, names, values)[names[i]] == ValueAt(values, i)
    decreases |names|
  {
    if names != [] {
      var last := |names| - 1;
      var init := names[..last];
      AssignKeys(f, init, values);
      AssignLast(f, init, values);
      forall i | 0 <= i < |names| && (forall j :: i < j < |names| ==> names[j] != names[i])
        ensures names[i] in Assign(f, names, values) && Assign(f, names, values)[names[i]] == ValueAt(values, i)
      {
        if i < last {
          assert names[last] != names[i];
          assert init[i] == names[i];
          assert forall j :: i < j < |init| ==> init[j] != init[i];
          assert names[i] in init;
        }
      }
    }
  }

  /** The last assignment to a name wins, names not assigned keep their values, and no other property appears. */
  lemma AssignLastWins(f: Field, names: seq<string>, values: seq<Value>)
    ensures Assign(f, names, values).Keys == f.Keys + set n | n in names
    ensures forall k :: k in f && k !in names ==> Assign(f, names, values)[k] == f[k]
    ensures forall i :: 0 <= i < |names| && (forall j :: i < j < |names| ==> names[j] != names[i]) ==>
      Assign(f, names, values)[names[i]] == ValueAt(values, i)
  {
    AssignKeys(f, names, values);
    AssignKeeps(f, names, values);
    AssignLast(f, names, values);
  }

  /** Renumbering looks only at what the fields hold besides their positions. */
  lemma RenumberIgnoresPositions(a: seq<Field>, b: seq<Field>)
    requires Strips(a) == Strips(b)
    ensures Renumber(a) == Renumber(b)
  {
    forall i | 0 <= i < |a|
      ensures a[i][PosIndex := Number(FromInt(i))] == b[i][PosIndex := Number(FromInt(i))]
    {
      assert Strip(a[i]) == Strip(b[i]);
      var x, y := a[i][PosIndex := Number(FromInt(i))], b[i][PosIndex := Number(FromInt(i))];
      assert forall k :: k in x <==> k in y by {
        forall k ensures k in x <==> k in y {
          if k != PosIndex {
            assert k in a[i] <==> k in Strip(a[i]);
            assert k in b[i] <==> k in Strip(b[i]);
          }
        }
      }
      forall k | k in x ensures x[k] == y[k] {
        if k != PosIndex {
          assert Strip(a[i])[k] == Strip(b[i])[k];
        }
      }
    }
  }

  lemma StripOfRenumber(fs: seq<Field>)
    ensures Strips(Renumber(fs)) == Strips(fs)
  {
    forall i | 0 <= i < |fs| ensures Strip(Renumber(fs)[i]) == Strip(fs[i]) {
      assert Strip(fs[i][PosIndex := Number(FromInt(i))]) == Strip(fs[i]);
    }
  }

  /** Where element k of a moved sequence comes from: the moved element at p, the others shifted past the gap. */
  function Source(i: nat, p: nat, k: nat): nat {
    if k == p then i
    else
      var j := if k < p then k else k - 1;
      if j < i then j else j + 1
  }

  lemma MovedAt<T>(s: seq<T>, i: nat, p: nat, k: nat)
    requires i < |s| && p < |s| && k < |s|
    ensures Source(i, p, k) < |s|
    ensures Insert(Remove(s, i), p, s[i])[k] == s[Source(i, p, k)]
  {
    var rest := Remove(s, i);
    if k != p {
      var j := if k < p then k else k - 1;
      assert Insert(rest, p, s[i])[k] == rest[j];
      if j < i {
        assert rest[j] == s[j];
      } else {
        assert rest[j] == s[j + 1];
      }
    }
  }

  lemma StripsOfMove(s: seq<Field>, i: nat, p: nat)
    requires i < |s| && p < |s|
    ensures Strips(Insert(Remove(s, i), p, s[i])) == Insert(Remove(Strips(s), i), p, Strips(s)[i])
  {
    var u := Insert(Remove(s, i), p, s[i]);
    var v := Insert(Remove(Strips(s), i), p, Strips(s)[i]);
    forall k | 0 <= k < |s|
      ensures Strips(u)[k] == v[k]
    {
      MovedAt(s, i, p, k);
      MovedAt(Strips(s), i, p, k);
    }
  }

  lemma RemoveInsert<T>(s: seq<T>, p: nat, x: T)
    requires p <= |s|
    ensures Remove(Insert(s, p, x), p) == s
  {
  }

  lemma InsertRemove<T>(s: seq<T>, i: nat)
    requires i < |s|
    ensures Insert(Remove(s, i), i, s[i]) == s
  {
  }

  /** Field k after a move is, apart from its position, the field it came from. */
  lemma MovedStrip(fs: seq<Field>, index: nat, newPos: int, k: nat)
    requires index < |fs| && k < |fs|
    ensures Source(index, Clamp(newPos, |fs|), k) < |fs|
    ensures Strip(MoveItem(fs, index, newPos)[k]) == Strip(fs[Source(index, Clamp(newPos, |fs|), k)])
  {
    var p := Clamp(newPos, |fs|);
    var u := Insert(Remove(fs, index), p, fs[index]);
    StripOfRenumber(u);
    MovedAt(fs, index, p, k);
    assert Strips(Renumber(u))[k] == Strips(u)[k];
  }

  /** The moved field lands on the clamped position; the fields in between shift by one; the rest keep their places. */
  lemma MoveItemPlaces(fs: seq<Field>, index: nat, newPos: int)
    requires index < |fs|
    ensures var r, p := MoveItem(fs, index, newPos), Clamp(newPos, |fs|);
      Strip(r[p]) == Strip(fs[index])
      && (forall i :: 0 <= i < |fs| && i < index && i < p ==> Strip(r[i]) == Strip(fs[i]))
      && (forall i :: 0 <= i < |fs| && i > index && i > p ==> Strip(r[i]) == Strip(fs[i]))
      && (forall i :: index <= i < p ==> Strip(r[i]) == Strip(fs[i + 1]))
      && (forall i :: p < i <= index ==> Strip(r[i]) == Strip(fs[i - 1]))
  {
    var r, p := MoveItem(fs, index, newPos), Clamp(newPos, |fs|);
    MovedStrip(fs, index, newPos, p);
    forall i | 0 <= i < |fs| && i < index && i < p
      ensures Strip(r[i]) == Strip(fs[i])
    {
      MovedStrip(fs, index, newPos, i);
    }
    forall i | 0 <= i < |fs| && i > index && i > p
      ensures Strip(r[i]) == Strip(fs[i])
    {
      MovedStrip(fs, index, newPos, i);
    }
    forall i | index <= i < p
      ensures Strip(r[i]) == Strip(fs[i + 1])
    {
      MovedStrip(fs, index, newPos, i);
    }
    forall i | p < i <= index
      ensures Strip(r[i]) == Strip(fs[i - 1])
    {
      MovedStrip(fs, index, newPos, i);
    }
  }

  lemma MultisetOfMove<T>(s: seq<T>, i: nat, p: nat)
    requires i < |s| && p < |s|
    ensures multiset(Insert(Remove(s, i), p, s[i])) == multiset(s)
  {
    var rest := Remove(s, i);
    assert s == s[..i] + [s[i]] + s[i + 1..];
    assert multiset(s) == multiset(s[..i]) + multiset{s[i]} + multiset(s[i + 1..]);
    assert multiset(rest) == multiset(s[..i]) + multiset(s[i + 1..]);
    assert rest == rest[..p] + rest[p..];
    assert multiset(rest) == multiset(rest[..p]) + multiset(rest[p..]);
    assert Insert(rest, p, s[i]) == rest[..p] + [s[i]] + rest[p..];
    calc {
      multiset(Insert(rest, p, s[i]));
      multiset(rest[..p]) + multiset{s[i]} + multiset(rest[p..]);
      multiset(rest) + multiset{s[i]};
      multiset(s[..i]) + multiset(s[i + 1..]) + multiset{s[i]};
      multiset(s);
    }
  }

  /** A move is a permutation: the same fields, apart from their positions, each as often as before. */
  lemma MoveItemPermutes(fs: seq<Field>, index: nat, newPos: int)
    requires index < |fs|
    ensures multiset(Strips(MoveItem(fs, index, newPos))) == multiset(Strips(fs))
  {
    var p := Clamp(newPos, |fs|);
    var u := Insert(Remove(fs, index), p, fs[index]);
    StripOfRenumber(u);
    StripsOfMove(fs, index, p);
    MultisetOfMove(Strips(fs), index, p);
  }

  /** Moving the field back from its new position to its old one restores the list, renumbered. */
  lemma MoveBack(fs: seq<Field>, index: nat, newPos: int)
    requires index < |fs|
    ensures var p := Clamp(newPos, |fs|);
      MoveItem(MoveItem(fs, index, newPos), p, index) == Renumber(fs)
  {
    var p := Clamp(newPos, |fs|);
    var u := Insert(Remove(fs, index), p, fs[index]);
    var r := Renumber(u);
    assert Clamp(index, |fs|) == index;
    StripOfRenumber(u);
    StripsOfMove(r, p, index);
    StripsOfMove(u, p, index);
    RemoveInsert(Remove(fs, index), p, fs[index]);
    InsertRemove(fs, index);
    RenumberIgnoresPositions(Insert(Remove(r, p), index, r[p]), Insert(Remove(u, p), index, u[p]));
  }

  /** The defaults are numbered by position, so a move of a default list keeps every field's name and title equal. */
  lemma DefaultsNumbered(keys: seq<string>)
    ensures forall i :: 0 <= i < |keys| ==> DefaultFields(keys)[i][PosIndex] == Number(FromInt(i))
    ensures Renumber(DefaultFields(keys)) == DefaultFields(keys)
  {
    var fs := DefaultFields(keys);
    forall i | 0 <= i < |keys| ensures fs[i][PosIndex := Number(FromInt(i))] == fs[i] {
      assert PosIndex in fs[i];
    }
  }

  /** Enter with a text `parseInt` cannot read changes nothing. */
  lemma EnterNeedsNumber(fs: seq<Field>, text: string, index: nat)
    requires index < |fs| && ParseInt(text).NaN?
    ensures OnEnter(fs, "Enter", text, index) == None
  {
  }
}

=== FILE: file_guard.dfy ===
/**
 * The checks both importers run before reading a dropped file: the size
 * limit of 15 MiB and the extension allow-list, the extension being the
 * lower-cased text after the last '.' of the file name.
 */
module FileGuard {
  import opened JsText

  const MaxSize: nat := 15 * 1024 * 1024

  const AllowedExtensions: seq<string> := ["kml", "kmz", "zip", "geojson"]

  /** `name.split(".").pop().toLowerCase()`. */
  function Extension(name: string): (ext: string)
    ensures '.' !in ext
    ensures |ext| <= |name|
  {
    var piece := LastPiece(name, '.');
    LastPieceIsSuffix(name, '.');
    ToLower(piece)
  }

  /** Whether the extension passes the guard: non-empty and on the allow-list. */
  predicate Allowed(ext: string) {
    ext != [] && ext in AllowedExtensions
  }

  /** The last piece of a split is a separator-free suffix of the string. */
  lemma {:induction false} LastPieceIsSuffix(s: string, sep: char)
    ensures EndsWith(s, LastPiece(s, sep))
    ensures sep !in LastPiece(s, sep)
  {
    if s != [] {
      LastPieceIsSuffix(s[1..], sep);
      var rest := Split(s[1..], sep);
      if s[0] != sep && |rest| == 1 {
        JoinSplit(s[1..], sep);
        assert rest[0] == s[1..];
        assert LastPiece(s, sep) == s;
        assert s[|s| - |s|..] == s;
      } else if s[0] == sep {
        assert Split(s, sep) == [[]] + rest;
        assert LastPiece(s, sep) == LastPiece(s[1..], sep);
      } else {
        assert LastPiece(s, sep) == LastPiece(s[1..], sep);
      }
    }
  }

  /** Lower-casing leaves a lower-case ASCII word unchanged. */
  lemma LowerCaseFixed(w: string)
    requires forall i :: 0 <= i < |w| ==> 'a' <= w[i] <= 'z'
    ensures ToLower(w) == w
  {
  }

  /** A name without a dot is its own extension: a file called just `kml` passes the guard. */
  lemma ExtensionOfDotlessName(name: string)
    requires '.' !in name
    ensures Extension(name) == ToLower(name)
  {
    SplitNoSep(name, '.');
  }

  /** `base.ext` has extension `ext` lower-cased, whatever dots `base` holds. */
  lemma {:induction false} ExtensionOfName(base: string, ext: string)
    requires '.' !in ext
    ensures Extension(base + "." + ext) == ToLower(ext)
  {
    LastPieceAfterSep(base, '.', ext);
  }

  lemma {:induction false} SplitHasTwo(t: string, sep: char)
    requires sep in t
    ensures |Split(t, sep)| >= 2
  {
    if t[0] != sep {
      assert sep in t[1..];
      SplitHasTwo(t[1..], sep);
    }
  }

  lemma {:induction false} LastPieceAfterSep(a: string, sep: char, b: string)
    requires sep !in b
    ensures LastPiece(a + [sep] + b, sep) == b
    decreases |a|
  {
    var s := a + [sep] + b;
    if a == [] {
      assert s == [sep] + b;
      assert s[1..] == b;
      SplitNoSep(b, sep);
    } else {
      assert s[1..] == a[1..] + [sep] + b;
      LastPieceAfterSep(a[1..], sep, b);
      assert sep in s[1..] by { assert s[1..][|a| - 1] == sep; }
      SplitHasTwo(s[1..], sep);
      assert LastPiece(s, sep) == LastPiece(s[1..], sep);
    }
  }
}

=== FILE: geo.dfy ===
/** The geometries the file importers hand to the map: GeoJSON-shaped points, lines and polygons. */
module Geo {
  import opened JsNumber

  /** A `[lon, lat]` pair. */
  datatype Coord = Coord(lon: JsNum, lat: JsNum)

  datatype Geometry =
    | Point(at: Coord)
    | LineString(path: seq<Coord>)
    | Polygon(rings: seq<seq<Coord>>)  // ring 0 is the outer boundary, the others are holes

  /** Both numbers of the pair survived `isNaN`. */
  predicate Readable(c: Coord) {
    !c.lon.IsNaN() && !c.lat.IsNaN()
  }

  predicate AllReadable(cs: seq<Coord>) {
    forall i :: 0 <= i < |cs| ==> Readable(cs[i])
  }

  /** The pair of integers `(a, b)` as numbers. */
  function IntCoord(p: (int, int)): Coord {
    Coord(FromInt(p.0), FromInt(p.1))
  }
}

=== FILE: geojson.dfy ===
/**
 * Reducing a GeoJSON object (RFC 7946) to a flat list of geometries, as
 * the newer (SpaceView) importer does for `.geojson` files and for the
 * shapefile converter's result: a FeatureCollection (section 3.3) gives
 * its features' geometries, a bare geometry object (section 3.1) gives
 * itself, and anything else gives nothing.
 */
module GeoJson {
  import opened Wrappers
  import opened JsonValue

  /** `json.features.map(f => f.geometry).filter(g => g)` for a features value. */
  function FeatureGeometries(features: Option<Json>): (r: Result<seq<Json>>)
    ensures r.Success? ==> features.Some? && features.value.JArray?
    ensures r.Success? ==> |r.value| <= |features.value.items|
    ensures r.Success? ==> forall i :: 0 <= i < |r.value| ==> Truthy(r.value[i])
  {
    if features.Some? && features.value.JArray? then GeometriesOf(features.value.items)
    else Failure("features.map is not a function")
  }

  /** The truthy `geometry` members of a list of features, in order; a `null` feature throws. */
  function GeometriesOf(fs: seq<Json>): (r: Result<seq<Json>>)
    ensures r.Success? <==> forall i :: 0 <= i < |fs| ==> !fs[i].JNull?
    ensures r.Success? ==> |r.value| <= |fs|
    ensures r.Success? ==> forall i :: 0 <= i < |r.value| ==> Truthy(r.value[i])
  {
    if fs == [] then Success([])
    else
      match (Get(fs[0], "geometry"), GeometriesOf(fs[1..]))
      case (Failure(e), _) => Failure(e)
      case (_, Failure(e)) => Failure(e)
      case (Success(g), Success(rest)) => Success(if Present(g) then [g.value] + rest else rest)
  }

  /** The normalised geometry list of a parsed GeoJSON value; reading `type` of `null` throws. */
  function Normalise(json: Json): (r: Result<seq<Json>>)
    ensures json.JNull? ==> r.Failure?
    ensures r.Success? ==> forall i :: 0 <= i < |r.value| ==> Truthy(r.value[i])
  {
    match Get(json, "type")
    case Failure(e) => Failure(e)
    case Success(t) =>
      if IsString(t, "FeatureCollection") then FeatureGeometries(Get(json, "features").value)
      else if Present(t) && Present(Get(json, "coordinates").value) then Success([json])
      else Success([])
  }

  // ---------------------------------------------------------------------
  // Writing GeoJSON, and reading it back
  // ---------------------------------------------------------------------

  /** Reading the two members of an object written as `{k1: v1, k2: v2}`. */
  lemma LookupTwo(k1: string, v1: Json, k2: string, v2: Json)
    requires k1 != k2
    ensures Lookup([(k1, v1), (k2, v2)], k1) == Some(v1)
    ensures Lookup([(k1, v1), (k2, v2)], k2) == Some(v2)
  {
    assert [(k1, v1), (k2, v2)][..1] == [(k1, v1)];
  }

  /** A Feature whose geometry is `g`, or `null` when absent. */
  function Feature(g: Option<Json>): Json {
    JObject([("type", JString("Feature")), ("geometry", if g.Some? then g.value else JNull)])
  }

  function Features(gs: seq<Option<Json>>): (fs: seq<Json>)
    ensures |fs| == |gs|
    ensures forall i :: 0 <= i < |gs| ==> fs[i] == Feature(gs[i])
  {
    if gs == [] then [] else [Feature(gs[0])] + Features(gs[1..])
  }

  function FeatureCollection(gs: seq<Option<Json>>): Json {
    JObject([("type", JString("FeatureCollection")), ("features", JArray(Features(gs)))])
  }

  /** The present, truthy geometries among `gs`, in order. */
  function PresentGeometries(gs: seq<Option<Json>>): seq<Json> {
    if gs == [] then []
    else if gs[0].Some? && Truthy(gs[0].value) then [gs[0].value] + PresentGeometries(gs[1..])
    else PresentGeometries(gs[1..])
  }

  lemma {:induction false} GeometriesOfFeatures(gs: seq<Option<Json>>)
    ensures GeometriesOf(Features(gs)) == Success(PresentGeometries(gs))
  {
    if gs != [] {
      assert Features(gs)[1..] == Features(gs[1..]);
      GeometriesOfFeatures(gs[1..]);
    }
  }

  /** A FeatureCollection reads back as its features' geometries, with the null ones dropped, in order. */
  lemma NormaliseFeatureCollection(gs: seq<Option<Json>>)
    ensures Normalise(FeatureCollection(gs)) == Success(PresentGeometries(gs))
  {
    LookupTwo("type", JString("FeatureCollection"), "features", JArray(Features(gs)));
    GeometriesOfFeatures(gs);
  }

  /** A bare geometry object `{type, coordinates}` reads back as a one-element list. */
  lemma NormaliseBareGeometry(kind: string, coordinates: Json)
    requires kind != [] && kind != "FeatureCollection" && Truthy(coordinates)
    ensures var g := JObject([("type", JString(kind)), ("coordinates", coordinates)]);
            Normalise(g) == Success([g])
  {
    LookupTwo("type", JString(kind), "coordinates", coordinates);
    assert Lookup([("type", JString(kind)), ("coordinates", coordinates)], "features") == None;
  }

  /** A FeatureCollection whose `features` is not an array throws. */
  lemma NormaliseMalformedCollection(features: Json)
    requires !features.JArray?
    ensures Normalise(JObject([("type", JString("FeatureCollection")), ("features", features)])).Failure?
  {
    LookupTwo("type", JString("FeatureCollection"), "features", features);
  }
}

=== FILE: imagery_filter.dfy ===
/**
 * The imagery filter popup: the check lists of information types and
 * satellites, and the SQL `WHERE` clause built from the filter's date,
 * cloud-cover and resolution bounds and the checked list items.
 *
 * The clause is built in two steps: `Conditions` chooses the conditions
 * (as a small syntax tree) and `Render` writes each one out; the where
 * clause is their rendering joined with " AND ".
 */
module ImageryFilter {
  import opened Wrappers
  import opened JsText

  /** One row of a check list. */
  datatype CheckItem = CheckItem(title: string, state: bool)

  /** The text bounds of the filter form; "" means "not set". */
  datatype Filter = Filter(
    dateFrom: string, dateTo: string,
    cloudFrom: string, cloudTo: string,
    resolutionFrom: string, resolutionTo: string)

  /** The layer attributes the filter constrains, in the order their conditions appear. */
  datatype Column = Sana | BulutQop | Aniqligi | Tur | Sensor {
    function Name(): string {
      match this
      case Sana => "Sana"
      case BulutQop => "Bulut_qop"
      case Aniqligi => "Aniqligi"
      case Tur => "Tur"
      case Sensor => "Sensor"
    }

    function Rank(): nat {
      match this
      case Sana => 0
      case BulutQop => 1
      case Aniqligi => 2
      case Tur => 3
      case Sensor => 4
    }
  }

  /** One condition of the where clause. */
  datatype Condition =
    | Between(column: Column, low: string, high: string)
    | AtLeast(column: Column, bound: string)
    | AtMost(column: Column, bound: string)
    | InList(column: Column, values: seq<string>)

  const EmptyFilter := Filter("", "", "", "", "", "")

  const InformationTypes: seq<CheckItem> := [
    CheckItem("Optik", false),
    CheckItem("Radiolokatsion", false),
    CheckItem("Relyefning raqamli modellari (DSM/DTM)", false)
  ]

  const SatelliteTypes: seq<CheckItem> := [
    CheckItem("WorldView-2", false),
    CheckItem("WorldView-3", false),
    CheckItem("Pleiades", false),
    CheckItem("Neo", false)
  ]

  /** Piece `i` of a destructured split, `undefined` when the split is shorter. */
  function Piece(parts: seq<string>, i: nat): string {
    if i < |parts| then parts[i] else "undefined"
  }

  /** `toSqlDate(d, endOfDay)`: a `D.M.Y` date as a SQL timestamp at the start or the end of the day. */
  function SqlDate(d: string, endOfDay: bool): string {
    var parts := Split(d, '.');
    var time := if endOfDay then "23:59:59" else "00:00:00";
    "TIMESTAMP '" + Piece(parts, 2) + "-" + Piece(parts, 1) + "-" + Piece(parts, 0) + " " + time + "'"
  }

  /** The three-way rule: both bounds, only the lower, only the upper, or no condition. */
  function Range(column: Column, from: string, to: string, low: string, high: string): (r: Option<Condition>)
    ensures r.None? <==> from == "" && to == ""
    ensures r.Some? ==> r.value.column == column && !r.value.InList?
    ensures r.Some? && r.value.Between? ==> from != "" && to != "" && r.value.low == low && r.value.high == high
    ensures r.Some? && r.value.AtLeast? ==> from != "" && to == "" && r.value.bound == low
    ensures r.Some? && r.value.AtMost? ==> from == "" && to != "" && r.value.bound == high
  {
    if from != "" && to != "" then Some(Between(column, low, high))
    else if from != "" then Some(AtLeast(column, low))
    else if to != "" then Some(AtMost(column, high))
    else None
  }

  /** The titles of the checked items, in list order. */
  function Checked(items: seq<CheckItem>): (ts: seq<string>)
    ensures |ts| <= |items|
    ensures forall t :: t in ts <==> exists i :: 0 <= i < |items| && items[i].state && items[i].title == t
  {
    if items == [] then []
    else
      var rest := Checked(items[1..]);
      assert forall i :: 1 <= i < |items| ==> items[i] == items[1..][i - 1];
      if items[0].state then [items[0].title] + rest else rest
  }

  /** `IN` over the checked titles, or no condition when none is checked. */
  function Membership(column: Column, items: seq<CheckItem>): (r: Option<Condition>)
    ensures r.None? <==> Checked(items) == []
    ensures r.Some? ==> r == Some(InList(column, Checked(items)))
  {
    var ts := Checked(items);
    if ts == [] then None else Some(InList(column, ts))
  }

  function Present(c: Option<Condition>): seq<Condition> {
    if c.Some? then [c.value] else []
  }

  /** The conditions of the where clause, in the fixed order date, cloud, resolution, type, sensor. */
  function Conditions(f: Filter, info: seq<CheckItem>, sensors: seq<CheckItem>): seq<Condition> {
    Present(Range(Sana, f.dateFrom, f.dateTo, SqlDate(f.dateFrom, false), SqlDate(f.dateTo, true)))
    + Present(Range(BulutQop, f.cloudFrom, f.cloudTo, f.cloudFrom, f.cloudTo))
    + Present(Range(Aniqligi, f.resolutionFrom, f.resolutionTo, f.resolutionFrom, f.resolutionTo))
    + Present(Membership(Tur, info))
    + Present(Membership(Sensor, sensors))
  }

  function Quote(t: string): string {
    "'" + t + "'"
  }

  function QuoteAll(ts: seq<string>): (r: seq<string>)
    ensures |r| == |ts|
    ensures forall i :: 0 <= i < |ts| ==> r[i] == Quote(ts[i])
  {
    if ts == [] then [] else [Quote(ts[0])] + QuoteAll(ts[1..])
  }

  /** A condition as SQL text: the column name, then the operator and its operands. */
  function Render(c: Condition): (s: string)
    ensures StartsWith(s, c.column.Name()) && |s| > |c.column.Name()|
    ensures c.Between? ==> s == c.column.Name() + " BETWEEN " + c.low + " AND " + c.high
    ensures c.AtLeast? ==> s == c.column.Name() + " >= " + c.bound
    ensures c.AtMost? ==> s == c.column.Name() + " <= " + c.bound
    ensures c.InList? ==> s == c.column.Name() + " IN (" + Join(QuoteAll(c.values), ", ") + ")"
  {
    var col := c.column.Name();
    match c
    case Between(_, lo, hi) => col + " BETWEEN " + lo + " AND " + hi
    case AtLeast(_, b) => col + " >= " + b
    case AtMost(_, b) => col + " <= " + b
    case InList(_, vs) => col + " IN (" + Join(QuoteAll(vs), ", ") + ")"
  }

  function RenderAll(cs: seq<Condition>): (r: seq<string>)
    ensures |r| == |cs|
    ensures forall i :: 0 <= i < |cs| ==> r[i] == Render(cs[i])
  {
    if cs == [] then [] else [Render(cs[0])] + RenderAll(cs[1..])
  }

  /** `buildFilterQuery`: the where clause handed to the imagery layer. */
  function BuildFilterQuery(f: Filter, info: seq<CheckItem>, sensors: seq<CheckItem>): string {
    Join(RenderAll(Conditions(f, info, sensors)), " AND ")
  }

  /** A click on check box `i`: flip that item's state. */
  function Toggle(items: seq<CheckItem>, i: nat): (r: seq<CheckItem>)
    requires i < |items|
    ensures |r| == |items|
    ensures r[i] == items[i].(state := !items[i].state)
    ensures forall j :: 0 <= j < |items| && j != i ==> r[j] == items[j]
  {
    items[i := items[i].(state := !items[i].state)]
  }

  // ---------------------------------------------------------------------
  // Properties
  // ---------------------------------------------------------------------

  predicate Ordered(cs: seq<Condition>) {
    forall i, j :: 0 <= i < j < |cs| ==> cs[i].column.Rank() < cs[j].column.Rank()
  }

  predicate RanksBelow(cs: seq<Condition>, k: nat) {
    forall i :: 0 <= i < |cs| ==> cs[i].column.Rank() < k
  }

  lemma OrderedAppend(cs: seq<Condition>, c: Option<Condition>, k: nat)
    requires Ordered(cs) && RanksBelow(cs, k) && |cs| <= k
    requires c.Some? ==> c.value.column.Rank() == k
    ensures Ordered(cs + Present(c)) && RanksBelow(cs + Present(c), k + 1) && |cs + Present(c)| <= k + 1
  {
  }

  /** The conditions follow the fixed column order date, cloud, resolution, type, sensor, each column at most once. */
  lemma ConditionsOrdered(f: Filter, info: seq<CheckItem>, sensors: seq<CheckItem>)
    ensures var cs := Conditions(f, info, sensors);
      |cs| <= 5 && Ordered(cs)
  {
    var c0 := Range(Sana, f.dateFrom, f.dateTo, SqlDate(f.dateFrom, false), SqlDate(f.dateTo, true));
    var c1 := Range(BulutQop, f.cloudFrom, f.cloudTo, f.cloudFrom, f.cloudTo);
    var c2 := Range(Aniqligi, f.resolutionFrom, f.resolutionTo, f.resolutionFrom, f.resolutionTo);
    var c3 := Membership(Tur, info);
    var c4 := Membership(Sensor, sensors);
    OrderedAppend([], c0, 0);
    OrderedAppend(Present(c0), c1, 1);
    OrderedAppend(Present(c0) + Present(c1), c2, 2);
    OrderedAppend(Present(c0) + Present(c1) + Present(c2), c3, 3);
    OrderedAppend(Present(c0) + Present(c1) + Present(c2) + Present(c3), c4, 4);
    var cs := Conditions(f, info, sensors);
    assert cs == Present(c0) + Present(c1) + Present(c2) + Present(c3) + Present(c4);
  }

  /** A date written as `D.M.Y` (without further dots) becomes the timestamp `Y-M-D`. */
  lemma SqlDateOfDotted(day: string, month: string, year: string, endOfDay: bool)
    requires '.' !in day && '.' !in month && '.' !in year
    ensures SqlDate(day + "." + month + "." + year, endOfDay)
      == "TIMESTAMP '" + year + "-" + month + "-" + day + " " + (if endOfDay then "23:59:59" else "00:00:00") + "'"
  {
    SplitThree(day, month, year, '.');
  }

  lemma JoinEmptyIffNone(parts: seq<string>, sep: string)
    requires forall i :: 0 <= i < |parts| ==> parts[i] != []
    ensures Join(parts, sep) == [] <==> parts == []
  {
    if |parts| > 1 {
      assert |Join(parts, sep)| >= |parts[0]|;
    }
  }

  /** The where clause is empty exactly when no bound is set and nothing is checked. */
  lemma EmptyQuery(f: Filter, info: seq<CheckItem>, sensors: seq<CheckItem>)
    ensures BuildFilterQuery(f, info, sensors) == ""
      <==> f == EmptyFilter && Checked(info) == [] && Checked(sensors) == []
  {
    var rs := RenderAll(Conditions(f, info, sensors));
    forall i | 0 <= i < |rs| ensures rs[i] != [] {
    }
    JoinEmptyIffNone(rs, " AND ");
  }

  /** The initial form yields no condition. */
  lemma InitialQuery()
    ensures BuildFilterQuery(EmptyFilter, InformationTypes, SatelliteTypes) == ""
  {
    assert Checked(InformationTypes) == [];
    assert Checked(SatelliteTypes) == [];
    EmptyQuery(EmptyFilter, InformationTypes, SatelliteTypes);
  }

  /** Clicking the same box twice restores the list. */
  lemma ToggleTwice(items: seq<CheckItem>, i: nat)
    requires i < |items|
    ensures Toggle(Toggle(items, i), i) == items
  {
  }

  lemma {:induction false} CheckedOfUpdate(items: seq<CheckItem>, i: nat)
    requires i < |items|
    ensures var r := Toggle(items, i);
      |Checked(r)| == if items[i].state then |Checked(items)| - 1 else |Checked(items)| + 1
  {
    var r := Toggle(items, i);
    assert r[1..] == if i == 0 then items[1..] else Toggle(items[1..], i - 1);
    if i > 0 {
      CheckedOfUpdate(items[1..], i - 1);
    }
  }

  /** Checking an item adds one value to its `IN` list, unchecking removes one, and the title is listed exactly when checked. */
  lemma ToggleMembership(items: seq<CheckItem>, i: nat)
    requires i < |items|
    requires forall j :: 0 <= j < |items| && j != i ==> items[j].title != items[i].title
    ensures var r := Toggle(items, i);
      (|Checked(r)| == if items[i].state then |Checked(items)| - 1 else |Checked(items)| + 1)
      && (items[i].title in Checked(r) <==> !items[i].state)
  {
    CheckedOfUpdate(items, i);
  }

  /** The checked titles keep list order: `Checked` distributes over concatenation. */
  lemma {:induction false} CheckedAppend(a: seq<CheckItem>, b: seq<CheckItem>)
    ensures Checked(a + b) == Checked(a) + Checked(b)
  {
    if a == [] {
      assert a + b == b;
    } else {
      assert (a + b)[0] == a[0];
      assert (a + b)[1..] == a[1..] + b;
      CheckedAppend(a[1..], b);
    }
  }

  /** One item's title is listed exactly when the item is checked. */
  lemma CheckedOne(it: CheckItem)
    ensures Checked([it]) == if it.state then [it.title] else []
  {
  }

  /** With only the two dates set, the where clause is the date range, from the start of the first day to the end of the last. */
  lemma DateOnlyQuery(f: Filter, info: seq<CheckItem>, sensors: seq<CheckItem>)
    requires f.dateFrom != "" && f.dateTo != ""
    requires f.cloudFrom == "" && f.cloudTo == "" && f.resolutionFrom == "" && f.resolutionTo == ""
    requires Checked(info) == [] && Checked(sensors) == []
    ensures BuildFilterQuery(f, info, sensors)
      == "Sana BETWEEN " + SqlDate(f.dateFrom, false) + " AND " + SqlDate(f.dateTo, true)
  {
    var c := Between(Sana, SqlDate(f.dateFrom, false), SqlDate(f.dateTo, true));
    DateOnlyConditions(f, info, sensors);
    RenderDateRange(SqlDate(f.dateFrom, false), SqlDate(f.dateTo, true));
    assert RenderAll([c]) == [Render(c)];
  }

  lemma DateOnlyConditions(f: Filter, info: seq<CheckItem>, sensors: seq<CheckItem>)
    requires f.dateFrom != "" && f.dateTo != ""
    requires f.cloudFrom == "" && f.cloudTo == "" && f.resolutionFrom == "" && f.resolutionTo == ""
    requires Checked(info) == [] && Checked(sensors) == []
    ensures Conditions(f, info, sensors) == [Between(Sana, SqlDate(f.dateFrom, false), SqlDate(f.dateTo, true))]
  {
    var lo, hi := SqlDate(f.dateFrom, false), SqlDate(f.dateTo, true);
    assert Present(Range(Sana, f.dateFrom, f.dateTo, lo, hi)) == [Between(Sana, lo, hi)];
    assert Present(Range(BulutQop, f.cloudFrom, f.cloudTo, f.cloudFrom, f.cloudTo)) == [];
    assert Present(Range(Aniqligi, f.resolutionFrom, f.resolutionTo, f.resolutionFrom, f.resolutionTo)) == [];
    assert Present(Membership(Tur, info)) == [] && Present(Membership(Sensor, sensors)) == [];
  }

  lemma RenderDateRange(lo: string, hi: string)
    ensures Render(Between(Sana, lo, hi)) == "Sana BETWEEN " + lo + " AND " + hi
  {
    assert "Sana" + " BETWEEN " == "Sana BETWEEN ";
  }

  /**
   * With only the lower cloud bound set and some information types
   * checked, the where clause is two conditions joined by " AND ": the
   * bound, then the quoted titles in list order.
   */
  lemma CloudAndTypesQuery(f: Filter, info: seq<CheckItem>, sensors: seq<CheckItem>)
    requires f.dateFrom == "" && f.dateTo == ""
    requires f.cloudFrom != "" && f.cloudTo == "" && f.resolutionFrom == "" && f.resolutionTo == ""
    requires Checked(info) != [] && Checked(sensors) == []
    ensures BuildFilterQuery(f, info, sensors)
      == "Bulut_qop >= " + f.cloudFrom + " AND " + ("Tur IN (" + Join(QuoteAll(Checked(info)), ", ") + ")")
  {
    var c1 := AtLeast(BulutQop, f.cloudFrom);
    var c3 := InList(Tur, Checked(info));
    assert Render(c1) == "Bulut_qop >= " + f.cloudFrom by {
      assert "Bulut_qop" + " >= " == "Bulut_qop >= ";
    }
    assert Render(c3) == "Tur IN (" + Join(QuoteAll(Checked(info)), ", ") + ")" by {
      assert "Tur" + " IN (" == "Tur IN (";
    }
    assert Conditions(f, info, sensors) == [c1, c3] by {
      assert Present(Range(Sana, f.dateFrom, f.dateTo, SqlDate(f.dateFrom, false), SqlDate(f.dateTo, true))) == [];
      assert Present(Range(BulutQop, f.cloudFrom, f.cloudTo, f.cloudFrom, f.cloudTo)) == [c1];
      assert Present(Range(Aniqligi, f.resolutionFrom, f.resolutionTo, f.resolutionFrom, f.resolutionTo)) == [];
      assert Present(Membership(Tur, info)) == [c3] && Present(Membership(Sensor, sensors)) == [];
    }
    var rs := [Render(c1), Render(c3)];
    assert RenderAll([c1, c3]) == rs;
    assert Join(rs, " AND ") == Render(c1) + " AND " + Join(rs[1..], " AND ");
    assert rs[1..] == [Render(c3)];
  }
}

=== FILE: import_outcome.dfy ===
/** What handling a dropped file ends in: nothing, an alert, or geometries passed to `onChange`. */
module ImportOutcome {
  import opened Wrappers
  import opened JsonValue
  import opened Geo
  import opened XmlTree

  /** A geometry handed to the map: read from KML, or a GeoJSON geometry object. */
  datatype Imported = FromKml(g: Geometry) | FromJson(j: Json)

  datatype Alert =
    | FileTooLarge
    | UnsupportedFormat
    | InvalidGeoJson          // the older importer only
    | NoValidGeometry         // the older importer, zip/kmz result of an unknown shape
    | NoGeoJsonGeometry       // the older importer, GeoJSON of an unknown shape
    | NoKmlGeometry           // the older importer, KML without geometries
    | NoGeometry
    | ReadError

  datatype Outcome = NoFile | Alerted(alert: Alert) | Changed(geometries: seq<Imported>)

  /** An archive entry: its name and its text as parsed by `DOMParser`. */
  datatype ZipEntry = ZipEntry(name: string, doc: Located)

  /**
   * A dropped file: its name and size, and what the foreign calls make of
   * its bytes — `JSON.parse` of its text (None: a syntax error),
   * `DOMParser` of its text, `JSZip.loadAsync` (None: not an archive) and
   * the shapefile converter `shp` (None: it threw).
   */
  datatype DroppedFile = DroppedFile(
    name: string,
    size: nat,
    json: Option<Json>,
    kml: Located,
    archive: Option<seq<ZipEntry>>,
    shapes: Option<Json>)
}

=== FILE: js_number.dfy ===
/**
 * JavaScript numbers and the three string-to-number conversions the
 * widgets use: `parseFloat`, `parseInt` (no radix) and `Number`.
 * Numbers are exact reals plus NaN and the two infinities.
 */
module JsNumber {
  import opened Wrappers
  import opened JsText

  datatype JsNum = Num(v: real) | NaN | PosInf | NegInf {

    /** `isNaN(x)`. */
    predicate IsNaN() { NaN? }

    /** `isFinite(x)`. */
    predicate IsFinite() { Num? }
  }

  function FromInt(n: int): JsNum {
    Num(n as real)
  }

  function Negate(x: JsNum): JsNum {
    match x
    case Num(v) => Num(-v)
    case NaN => NaN
    case PosInf => NegInf
    case NegInf => PosInf
  }

  /** `x - 1`. */
  function Decrement(x: JsNum): JsNum {
    if x.Num? then Num(x.v - 1.0) else x
  }

  /** `a < b`: false whenever either side is NaN. */
  predicate Less(a: JsNum, b: JsNum) {
    match (a, b)
    case (NaN, _) => false
    case (_, NaN) => false
    case (Num(x), Num(y)) => x < y
    case (NegInf, _) => !b.NegInf?
    case (_, PosInf) => !a.PosInf?
    case _ => false
  }

  // ---------------------------------------------------------------------
  // Digits
  // ---------------------------------------------------------------------

  /** The value of `c` as a digit in bases up to 36, or 36 when it is no digit. */
  function DigitOf(c: char): (d: nat)
    ensures d <= 36
  {
    if '0' <= c <= '9' then c as int - '0' as int
    else if 'a' <= c <= 'z' then c as int - 'a' as int + 10
    else if 'A' <= c <= 'Z' then c as int - 'A' as int + 10
    else 36
  }

  predicate IsDigitIn(c: char, base: nat) {
    DigitOf(c) < base
  }

  /** The length of the longest prefix of `s` made of digits of `base`. */
  function DigitRun(s: string, base: nat): (n: nat)
    ensures n <= |s|
    ensures forall i :: 0 <= i < n ==> IsDigitIn(s[i], base)
    ensures n == |s| || !IsDigitIn(s[n], base)
  {
    if s == [] || !IsDigitIn(s[0], base) then 0 else 1 + DigitRun(s[1..], base)
  }

  /** The value of a digit string, most significant digit first. */
  function DigitsValue(ds: string, base: nat): nat {
    if ds == [] then 0
    else DigitsValue(ds[..|ds| - 1], base) * base + DigitOf(ds[|ds| - 1])
  }

  function Pow10(e: int): (r: real)
    ensures r > 0.0
    decreases if e < 0 then -e else e
  {
    if e == 0 then 1.0
    else if e > 0 then 10.0 * Pow10(e - 1)
    else Pow10(e + 1) / 10.0
  }

  // ---------------------------------------------------------------------
  // Literal grammar
  // ---------------------------------------------------------------------

  /** A leading `+` or `-`: whether it negates, and how many characters it takes. */
  function Sign(s: string): (bool, nat) {
    if s != [] && s[0] == '-' then (true, 1)
    else if s != [] && s[0] == '+' then (false, 1)
    else (false, 0)
  }

  /** An exponent part `e[+-]digits` at the start of `s`: its value and length, or (0, 0). */
  function ExponentPart(s: string): (r: (int, nat))
    ensures r.1 <= |s|
  {
    if s != [] && (s[0] == 'e' || s[0] == 'E') then
      var signLen := if |s| > 1 && (s[1] == '+' || s[1] == '-') then 1 else 0;
      var d := DigitRun(s[1 + signLen..], 10);
      if d == 0 then (0, 0)
      else
        var v := DigitsValue(s[1 + signLen..1 + signLen + d], 10);
        (if signLen == 1 && s[1] == '-' then -(v as int) else v as int, 1 + signLen + d)
    else (0, 0)
  }

  /** The mantissa `digits[.digits]` or `.digits` at the start of `s`: its value and length. */
  function MantissaPrefix(s: string): (r: Option<(real, nat)>)
    ensures r.Some? ==> 0 < r.value.1 <= |s|
  {
    var i := DigitRun(s, 10);
    var hasDot := i < |s| && s[i] == '.';
    var f := if hasDot then DigitRun(s[i + 1..], 10) else 0;
    if i + f == 0 then None
    else if hasDot then
      Some((DigitsValue(s[..i], 10) as real + DigitsValue(s[i + 1..i + 1 + f], 10) as real / Pow10(f), i + 1 + f))
    else
      Some((DigitsValue(s[..i], 10) as real, i))
  }

  /** `m` times ten to the power `e`. */
  function Scale(m: real, e: int): real {
    if e == 0 then m else m * Pow10(e)
  }

  /**
   * The longest prefix of `s` that is an unsigned decimal literal
   * (`digits[.digits][e[+-]digits]` or `.digits[e[+-]digits]`):
   * its value and its length.
   */
  function DecimalPrefix(s: string): (r: Option<(real, nat)>)
    ensures r.Some? ==> 0 < r.value.1 <= |s|
  {
    match MantissaPrefix(s)
    case None => None
    case Some((m, len)) =>
      var exp := ExponentPart(s[len..]);
      Some((Scale(m, exp.0), len + exp.1))
  }

  function Signed(neg: bool, v: real): JsNum {
    Num(if neg then -v else v)
  }

  /** `parseFloat(s)`: the longest numeric prefix after leading white space. */
  function ParseFloat(s: string): JsNum {
    var t := TrimStart(s);
    var (neg, k) := Sign(t);
    var rest := t[k..];
    if StartsWith(rest, "Infinity") then (if neg then NegInf else PosInf)
    else
      match DecimalPrefix(rest)
      case None => NaN
      case Some((v, _)) => Signed(neg, v)
  }

  /** `parseInt(s)` with no radix: a `0x` prefix selects base 16, otherwise base 10. */
  function ParseInt(s: string): JsNum {
    var t := TrimStart(s);
    var (neg, k) := Sign(t);
    var rest := t[k..];
    var hex := StartsWith(rest, "0x") || StartsWith(rest, "0X");
    var base := if hex then 16 else 10;
    var digits := if hex then rest[2..] else rest;
    var n := DigitRun(digits, base);
    if n == 0 then NaN else Signed(neg, DigitsValue(digits[..n], base) as real)
  }

  /** The base selected by a `0x`, `0o` or `0b` prefix, or 0. */
  function PrefixBase(t: string): nat {
    if |t| < 2 || t[0] != '0' then 0
    else if t[1] == 'x' || t[1] == 'X' then 16
    else if t[1] == 'o' || t[1] == 'O' then 8
    else if t[1] == 'b' || t[1] == 'B' then 2
    else 0
  }

  /** A whole signed decimal literal or `Infinity`, as `Number` accepts it; NaN otherwise. */
  function SignedLiteral(t: string): JsNum {
    var (neg, k) := Sign(t);
    var rest := t[k..];
    if rest == "Infinity" then (if neg then NegInf else PosInf)
    else
      match DecimalPrefix(rest)
      case Some((v, len)) => if len == |rest| then Signed(neg, v) else NaN
      case None => NaN
  }

  /** `Number(s)`: the whole trimmed string must be a numeric literal; empty means 0. */
  function ToNumber(s: string): JsNum {
    var t := Trim(s);
    var base := PrefixBase(t);
    if t == [] then Num(0.0)
    else if base != 0 then
      (if |t| > 2 && DigitRun(t[2..], base) == |t| - 2 then FromInt(DigitsValue(t[2..], base)) else NaN)
    else SignedLiteral(t)
  }

  // ---------------------------------------------------------------------
  // Round trip with `String(n)` and `padStart(2, "0")`
  // ---------------------------------------------------------------------

  predicate AllDecimal(s: string) {
    forall i :: 0 <= i < |s| ==> IsDecimalDigit(s[i])
  }

  lemma DigitRunAll(s: string, base: nat)
    requires forall i :: 0 <= i < |s| ==> IsDigitIn(s[i], base)
    ensures DigitRun(s, base) == |s|
  {
  }

  lemma {:induction false} DigitsValueOfNat(n: nat)
    ensures DigitsValue(NatToString(n), 10) == n
  {
    if n >= 10 {
      var s := NatToString(n / 10) + [DigitChar(n % 10)];
      assert s[..|s| - 1] == NatToString(n / 10);
      DigitsValueOfNat(n / 10);
    }
  }

  lemma {:induction false} DigitsValueLeadingZero(s: string)
    ensures DigitsValue("0" + s, 10) == DigitsValue(s, 10)
    decreases |s|
  {
    if s != [] {
      var z := "0" + s;
      assert z[..|z| - 1] == "0" + s[..|s| - 1];
      DigitsValueLeadingZero(s[..|s| - 1]);
    } else {
      assert "0" + s == "0";
      assert "0"[..0] == [];
    }
  }

  /** An optional minus sign followed by a non-empty string of decimal digits. */
  predicate SignedDigits(s: string, neg: bool, ds: string) {
    && ds != [] && AllDecimal(ds)
    && s == (if neg then "-" else "") + ds
  }

  lemma SignOfDigits(s: string, neg: bool, ds: string)
    requires SignedDigits(s, neg, ds)
    ensures TrimStart(s) == s
    ensures Sign(s) == (neg, if neg then 1 else 0)
    ensures s[if neg then 1 else 0..] == ds
  {
    var c := s[0];
    assert c == '-' || IsDecimalDigit(c) by {
      if neg { assert s == ['-'] + ds; } else { assert s == ds; }
    }
    assert !IsWhiteSpace(c);
    if neg {
      assert s == ['-'] + ds;
      assert s[1..] == ds;
    }
  }

  lemma ParseIntOfDigits(s: string, neg: bool, ds: string)
    requires SignedDigits(s, neg, ds)
    ensures ParseInt(s) == Signed(neg, DigitsValue(ds, 10) as real)
  {
    SignOfDigits(s, neg, ds);
    assert !StartsWith(ds, "0x") && !StartsWith(ds, "0X") by {
      if |ds| >= 2 { assert IsDecimalDigit(ds[1]); }
    }
    DigitRunAll(ds, 10);
    assert ds[..|ds|] == ds;
  }

  lemma DecimalPrefixOfDigits(ds: string)
    requires ds != [] && AllDecimal(ds)
    ensures DecimalPrefix(ds) == Some((DigitsValue(ds, 10) as real, |ds|))
  {
    DigitRunAll(ds, 10);
    assert ds[..|ds|] == ds;
    assert MantissaPrefix(ds) == Some((DigitsValue(ds, 10) as real, |ds|));
    assert ds[|ds|..] == [];
    assert ExponentPart([]) == (0, 0);
  }

  lemma ParseFloatOfDigits(s: string, neg: bool, ds: string)
    requires SignedDigits(s, neg, ds)
    ensures ParseFloat(s) == Signed(neg, DigitsValue(ds, 10) as real)
  {
    SignOfDigits(s, neg, ds);
    assert !StartsWith(ds, "Infinity") by { assert IsDecimalDigit(ds[0]); }
    DecimalPrefixOfDigits(ds);
  }

  lemma SignedLiteralOfDigits(s: string, neg: bool, ds: string)
    requires SignedDigits(s, neg, ds)
    ensures SignedLiteral(s) == Signed(neg, DigitsValue(ds, 10) as real)
  {
    SignOfDigits(s, neg, ds);
    assert ds != "Infinity" by { assert IsDecimalDigit(ds[0]); }
    DecimalPrefixOfDigits(ds);
  }

  lemma DigitIsNotWhiteSpace(c: char)
    requires IsDecimalDigit(c)
    ensures !IsWhiteSpace(c)
  {
  }

  lemma TrimOfDigits(s: string, neg: bool, ds: string)
    requires SignedDigits(s, neg, ds)
    ensures Trim(s) == s
  {
    SignOfDigits(s, neg, ds);
    var last := s[|s| - 1];
    assert last == ds[|ds| - 1];
    DigitIsNotWhiteSpace(last);
  }

  lemma PrefixBaseOfDigits(s: string, neg: bool, ds: string)
    requires SignedDigits(s, neg, ds)
    ensures PrefixBase(s) == 0
  {
    if !neg && |s| >= 2 {
      assert s[1] == ds[1];
      assert IsDecimalDigit(s[1]);
    }
  }

  lemma ToNumberOfDigits(s: string, neg: bool, ds: string)
    requires SignedDigits(s, neg, ds)
    ensures ToNumber(s) == Signed(neg, DigitsValue(ds, 10) as real)
  {
    TrimOfDigits(s, neg, ds);
    PrefixBaseOfDigits(s, neg, ds);
    SignedLiteralOfDigits(s, neg, ds);
  }

  /** The string `padStart(String(n), 2, "0")` is a signed digit string worth `n`. */
  lemma PaddedIsSignedDigits(n: int)
    ensures var s := PadStart(IntToString(n), 2, '0');
            var ds := if n < 0 then s[1..] else s;
            SignedDigits(s, n < 0, ds) && DigitsValue(ds, 10) == if n < 0 then -n else n
  {
    var s := PadStart(IntToString(n), 2, '0');
    if n < 0 {
      assert s == "-" + NatToString(-n);
      assert s[1..] == NatToString(-n);
      DigitsValueOfNat(-n);
    } else if n < 10 {
      assert s == "0" + NatToString(n);
      DigitsValueLeadingZero(NatToString(n));
      DigitsValueOfNat(n);
    } else {
      assert s == NatToString(n);
      DigitsValueOfNat(n);
    }
  }

  /** `parseInt` reads back an integer written by `String(n).padStart(2, "0")`. */
  lemma ParseIntPadded(n: int)
    ensures ParseInt(PadStart(IntToString(n), 2, '0')) == FromInt(n)
  {
    PaddedIsSignedDigits(n);
    var s := PadStart(IntToString(n), 2, '0');
    ParseIntOfDigits(s, n < 0, if n < 0 then s[1..] else s);
  }

  /** `Number` reads back an integer written by `String(n).padStart(2, "0")`. */
  lemma ToNumberPadded(n: int)
    ensures ToNumber(PadStart(IntToString(n), 2, '0')) == FromInt(n)
  {
    PaddedIsSignedDigits(n);
    var s := PadStart(IntToString(n), 2, '0');
    ToNumberOfDigits(s, n < 0, if n < 0 then s[1..] else s);
  }

  /** `parseInt` reads back `String(n)`. */
  lemma ParseIntOfString(n: int)
    ensures ParseInt(IntToString(n)) == FromInt(n)
  {
    var s := IntToString(n);
    DigitsValueOfNat(if n < 0 then -n else n);
    ParseIntOfDigits(s, n < 0, if n < 0 then s[1..] else s);
  }

  /** `Number` reads back `String(n)`. */
  lemma ToNumberOfString(n: int)
    ensures ToNumber(IntToString(n)) == FromInt(n)
  {
    var s := IntToString(n);
    DigitsValueOfNat(if n < 0 then -n else n);
    ToNumberOfDigits(s, n < 0, if n < 0 then s[1..] else s);
  }

  /** `parseFloat` reads back `String(n)`. */
  lemma ParseFloatOfString(n: int)
    ensures ParseFloat(IntToString(n)) == FromInt(n)
  {
    var s := IntToString(n);
    DigitsValueOfNat(if n < 0 then -n else n);
    ParseFloatOfDigits(s, n < 0, if n < 0 then s[1..] else s);
  }
}

=== FILE: js_text.dfy ===
/**
 * The string primitives of the JavaScript runtime that the widgets call:
 * `trim`, `split` on a character or on `/\s+/`, `join`, `toLowerCase`,
 * `endsWith`, `indexOf`, `replace` with a global literal pattern,
 * `padStart` and `String(n)` for integers. Strings are sequences of
 * UTF-16 code units, as in JavaScript.
 */
module JsText {

  /** The characters matched by `\s` and removed by `trim` (white space and line terminators). */
  predicate IsWhiteSpace(c: char) {
    || c == ' ' || c == '\t' || c == '\n' || c == '\r' || c == '\U{000B}' || c == '\U{000C}'
    || c == '\U{00A0}' || c == '\U{1680}' || ('\U{2000}' <= c <= '\U{200A}')
    || c == '\U{2028}' || c == '\U{2029}' || c == '\U{202F}' || c == '\U{205F}'
    || c == '\U{3000}' || c == '\U{FEFF}'
  }

  predicate NoWhiteSpace(s: string) {
    forall i :: 0 <= i < |s| ==> !IsWhiteSpace(s[i])
  }

  /** `s.trimStart()`: the suffix left after dropping leading white space. */
  function TrimStart(s: string): (r: string)
    ensures |r| <= |s| && r == s[|s| - |r|..]
    ensures forall i :: 0 <= i < |s| - |r| ==> IsWhiteSpace(s[i])
    ensures r == [] || !IsWhiteSpace(r[0])
  {
    if s != [] && IsWhiteSpace(s[0]) then TrimStart(s[1..]) else s
  }

  /** `s.trimEnd()`: the prefix left after dropping trailing white space. */
  function TrimEnd(s: string): (r: string)
    ensures |r| <= |s| && r == s[..|r|]
    ensures forall i :: |r| <= i < |s| ==> IsWhiteSpace(s[i])
    ensures r == [] || !IsWhiteSpace(r[|r| - 1])
  {
    if s != [] && IsWhiteSpace(s[|s| - 1]) then TrimEnd(s[..|s| - 1]) else s
  }

  /** `s.trim()`. */
  function Trim(s: string): string {
    TrimEnd(TrimStart(s))
  }

  /** Length of the leading run of non-white-space characters. */
  function RunLength(s: string): (n: nat)
    ensures n <= |s|
    ensures forall i :: 0 <= i < n ==> !IsWhiteSpace(s[i])
    ensures n == |s| || IsWhiteSpace(s[n])
  {
    if s == [] || IsWhiteSpace(s[0]) then 0 else 1 + RunLength(s[1..])
  }

  /**
   * `s.trim().split(/\s+/).filter(Boolean)`: the maximal runs of
   * non-white-space characters, in order.
   */
  function Tokens(s: string): (ts: seq<string>)
    ensures forall i :: 0 <= i < |ts| ==> ts[i] != [] && NoWhiteSpace(ts[i])
    ensures |ts| <= |s|
    decreases |s|
  {
    if s == [] then []
    else if IsWhiteSpace(s[0]) then Tokens(s[1..])
    else
      var n := RunLength(s);
      [s[..n]] + Tokens(s[n..])
  }

  /** `parts.join(sep)`. */
  function Join(parts: seq<string>, sep: string): string {
    if |parts| == 0 then []
    else if |parts| == 1 then parts[0]
    else parts[0] + sep + Join(parts[1..], sep)
  }

  /** `s.split(sep)` for a one-character separator. */
  function Split(s: string, sep: char): (parts: seq<string>)
    ensures |parts| >= 1
    ensures forall i :: 0 <= i < |parts| ==> sep !in parts[i]
  {
    if s == [] then [[]]
    else
      var rest := Split(s[1..], sep);
      if s[0] == sep then [[]] + rest
      else [[s[0]] + rest[0]] + rest[1..]
  }

  /** The number of occurrences of `c` in `s`. */
  function Count(s: string, c: char): nat {
    if s == [] then 0 else (if s[0] == c then 1 else 0) + Count(s[1..], c)
  }

  /** `s.split(sep).pop()`: what follows the last separator, or all of `s`. */
  function LastPiece(s: string, sep: char): string {
    var parts := Split(s, sep);
    parts[|parts| - 1]
  }

  function LowerChar(c: char): char {
    if 'A' <= c <= 'Z' then (c as int + 32) as char
    else if c == '\U{212A}' then 'k'   // KELVIN SIGN lower-cases to an ASCII 'k'
    else c
  }

  /** `s.toLowerCase()` restricted to the mappings whose result is one ASCII letter. */
  function ToLower(s: string): (r: string)
    ensures |r| == |s|
    ensures forall i :: 0 <= i < |s| ==> r[i] == LowerChar(s[i])
  {
    seq(|s|, i requires 0 <= i < |s| => LowerChar(s[i]))
  }

  predicate StartsWith(s: string, prefix: string) {
    |prefix| <= |s| && s[..|prefix|] == prefix
  }

  predicate EndsWith(s: string, suffix: string) {
    |suffix| <= |s| && s[|s| - |suffix|..] == suffix
  }

  function DigitChar(d: int): char
    requires 0 <= d < 10
  {
    ('0' as int + d) as char
  }

  predicate IsDecimalDigit(c: char) {
    '0' <= c <= '9'
  }

  /** `String(n)` for a natural number: its decimal digits, most significant first. */
  function NatToString(n: nat): (s: string)
    ensures s != []
    ensures forall i :: 0 <= i < |s| ==> IsDecimalDigit(s[i])
    ensures n < 10 <==> |s| == 1
  {
    if n < 10 then [DigitChar(n)] else NatToString(n / 10) + [DigitChar(n % 10)]
  }

  /** `String(n)` for an integer. */
  function IntToString(n: int): string {
    if n < 0 then "-" + NatToString(-n) else NatToString(n)
  }

  /** `s.padStart(len, fill)` with a one-character fill. */
  function PadStart(s: string, len: nat, fill: char): (r: string)
    ensures |r| == if |s| >= len then |s| else len
    ensures EndsWith(r, s)
    ensures forall i :: 0 <= i < |r| - |s| ==> r[i] == fill
  {
    if |s| >= len then s else seq(len - |s|, _ => fill) + s
  }

  /** `String(n).padStart(2, "0")`: the two-digit form used in dates. */
  function Pad2(n: int): string {
    PadStart(IntToString(n), 2, '0')
  }

  /** The characters of a number written by `String(n)`: digits and a leading minus. */
  predicate NumberChars(s: string) {
    forall i :: 0 <= i < |s| ==> IsDecimalDigit(s[i]) || s[i] == '-'
  }

  /** `s.indexOf(t)`: the first position at which `t` occurs, or -1. */
  function IndexOf(s: string, t: string): (k: int)
    ensures -1 <= k <= |s|
    ensures k >= 0 ==> StartsWith(s[k..], t)
    ensures k >= 0 ==> forall j :: 0 <= j < k ==> !StartsWith(s[j..], t)
    ensures k == -1 ==> forall j :: 0 <= j <= |s| ==> !StartsWith(s[j..], t)
  {
    IndexFrom(s, t, 0)
  }

  /** The first position at which `t` occurs is what `indexOf` finds. */
  lemma FirstOccurrence(s: string, t: string, k: nat)
    requires k <= |s| && StartsWith(s[k..], t)
    requires forall j :: 0 <= j < k ==> !StartsWith(s[j..], t)
    ensures IndexOf(s, t) == k
  {
  }

  function IndexFrom(s: string, t: string, from: nat): (k: int)
    requires from <= |s|
    requires forall j :: 0 <= j < from ==> !StartsWith(s[j..], t)
    ensures -1 <= k <= |s|
    ensures k >= 0 ==> StartsWith(s[k..], t) && forall j :: 0 <= j < k ==> !StartsWith(s[j..], t)
    ensures k == -1 ==> forall j :: 0 <= j <= |s| ==> !StartsWith(s[j..], t)
    decreases |s| - from
  {
    if StartsWith(s[from..], t) then from
    else if from == |s| then -1
    else IndexFrom(s, t, from + 1)
  }

  /** `s.replace(/pat/g, rep)` for a literal, non-empty pattern without special replacement tokens. */
  function ReplaceAll(s: string, pat: string, rep: string): string
    requires pat != []
  {
    if s == [] then []
    else if StartsWith(s, pat) then rep + ReplaceAll(s[|pat|..], pat, rep)
    else [s[0]] + ReplaceAll(s[1..], pat, rep)
  }

  // ---------------------------------------------------------------------
  // Partners: split and join are inverse; tokens of a space-joined list.
  // ---------------------------------------------------------------------

  /** Joining the pieces of a split with the separator gives the string back. */
  lemma {:induction false} JoinSplit(s: string, sep: char)
    ensures Join(Split(s, sep), [sep]) == s
  {
    if s != [] {
      var rest := Split(s[1..], sep);
      JoinSplit(s[1..], sep);
      if s[0] == sep {
        assert Split(s, sep) == [[]] + rest;
        if |rest| == 1 {
          assert Join([[]] + rest, [sep]) == [] + [sep] + rest[0];
        } else {
          assert ([[]] + rest)[1..] == rest;
        }
      } else {
        var parts := [[s[0]] + rest[0]] + rest[1..];
        assert Split(s, sep) == parts;
        if |rest| == 1 {
          assert Join(parts, [sep]) == [s[0]] + rest[0];
        } else {
          assert parts[1..] == rest[1..];
          assert Join(rest, [sep]) == rest[0] + [sep] + Join(rest[1..], [sep]);
          assert Join(parts, [sep]) == [s[0]] + rest[0] + [sep] + Join(rest[1..], [sep]);
        }
      }
    }
  }

  lemma {:induction false} SplitNoSep(s: string, sep: char)
    requires sep !in s
    ensures Split(s, sep) == [s]
  {
    if s != [] {
      SplitNoSep(s[1..], sep);
      assert [s[0]] + s[1..] == s;
    }
  }

  lemma {:induction false} SplitAppendSep(a: string, sep: char, b: string)
    requires sep !in a
    ensures Split(a + [sep] + b, sep) == [a] + Split(b, sep)
    decreases |a|
  {
    if a == [] {
      assert a + [sep] + b == [sep] + b;
      assert ([sep] + b)[1..] == b;
    } else {
      var s := a + [sep] + b;
      assert s[1..] == a[1..] + [sep] + b;
      SplitAppendSep(a[1..], sep, b);
      assert [a[0]] + a[1..] == a;
    }
  }

  /** Splitting a join of separator-free pieces gives the pieces back. */
  lemma {:induction false} SplitJoin(parts: seq<string>, sep: char)
    requires |parts| >= 1
    requires forall i :: 0 <= i < |parts| ==> sep !in parts[i]
    ensures Split(Join(parts, [sep]), sep) == parts
  {
    if |parts| == 1 {
      SplitNoSep(parts[0], sep);
    } else {
      SplitJoin(parts[1..], sep);
      SplitAppendSep(parts[0], sep, Join(parts[1..], [sep]));
      assert [parts[0]] + parts[1..] == parts;
    }
  }

  /** Splitting three separator-free pieces joined by the separator gives the three pieces. */
  lemma SplitThree(a: string, b: string, c: string, sep: char)
    requires sep !in a && sep !in b && sep !in c
    ensures Split(a + [sep] + b + [sep] + c, sep) == [a, b, c]
  {
    var parts := [a, b, c];
    assert Join(parts, [sep]) == a + [sep] + b + [sep] + c by {
      assert parts[1..][1..] == [c];
      assert Join(parts[1..], [sep]) == b + [sep] + c;
    }
    SplitJoin(parts, sep);
  }

  lemma IntToStringChars(n: int)
    ensures NumberChars(IntToString(n))
  {
  }

  lemma Pad2Chars(n: int)
    ensures NumberChars(Pad2(n))
  {
    IntToStringChars(n);
  }

  lemma NumberCharsNoDot(s: string)
    requires NumberChars(s)
    ensures '.' !in s
  {
  }

  /** Trimming leaves a string without white space unchanged. */
  lemma TrimNoWhiteSpace(s: string)
    requires NoWhiteSpace(s)
    ensures Trim(s) == s
  {
    assert TrimStart(s) == s;
  }

  lemma RunLengthOfPrefix(t: string, rest: string)
    requires NoWhiteSpace(t)
    requires rest == [] || IsWhiteSpace(rest[0])
    ensures RunLength(t + rest) == |t|
    decreases |t|
  {
    if t != [] {
      assert (t + rest)[1..] == t[1..] + rest;
      RunLengthOfPrefix(t[1..], rest);
    } else {
      assert t + rest == rest;
    }
  }

  /** Tokenising a space-joined list of non-empty, space-free tokens gives the list back. */
  lemma {:induction false} TokensOfJoin(ts: seq<string>)
    requires forall i :: 0 <= i < |ts| ==> ts[i] != [] && NoWhiteSpace(ts[i])
    ensures Tokens(Join(ts, " ")) == ts
  {
    if |ts| == 1 {
      RunLengthOfPrefix(ts[0], []);
      assert ts[0] + [] == ts[0];
      assert ts[0][|ts[0]|..] == [];
    } else if |ts| > 1 {
      var rest := Join(ts[1..], " ");
      var s := ts[0] + " " + rest;
      assert s == ts[0] + (" " + rest);
      RunLengthOfPrefix(ts[0], " " + rest);
      assert s[..|ts[0]|] == ts[0];
      assert s[|ts[0]|..] == " " + rest;
      assert (" " + rest)[1..] == rest;
      TokensOfJoin(ts[1..]);
      assert [ts[0]] + ts[1..] == ts;
    }
  }
}

=== FILE: json.dfy ===
/**
 * Values produced by `JSON.parse` (and by the shapefile converter), with
 * the two JavaScript operations the importers apply to them: property
 * access and truthiness.
 */
module JsonValue {
  import opened Wrappers
  import opened JsNumber

  datatype Json =
    | JNull
    | JBool(b: bool)
    | JNumber(n: JsNum)
    | JString(s: string)
    | JArray(items: seq<Json>)
    | JObject(members: seq<(string, Json)>)

  /** The value of `key` among `members`; the last duplicate wins, as in `JSON.parse`. */
  function Lookup(members: seq<(string, Json)>, key: string): (r: Option<Json>)
    ensures r.Some? <==> exists i :: 0 <= i < |members| && members[i].0 == key
    ensures r.Some? ==> exists i :: 0 <= i < |members| && members[i] == (key, r.value)
  {
    if members == [] then None
    else if members[|members| - 1].0 == key then Some(members[|members| - 1].1)
    else Lookup(members[..|members| - 1], key)
  }

  /**
   * `v[key]` for a property name that no primitive carries: it throws on
   * `null`, and is `undefined` (None) on anything but an object without it.
   */
  function Get(v: Json, key: string): (r: Result<Option<Json>>)
    ensures r.Failure? <==> v.JNull?
    ensures r.Success? && r.value.Some? ==> v.JObject?
  {
    match v
    case JNull => Failure("Cannot read properties of null")
    case JObject(ms) => Success(Lookup(ms, key))
    case _ => Success(None)
  }

  /** Whether `v` counts as true in a JavaScript condition. */
  predicate Truthy(v: Json) {
    match v
    case JNull => false
    case JBool(b) => b
    case JNumber(n) => (n.Num? && n.v != 0.0) || n.PosInf? || n.NegInf?
    case JString(s) => s != []
    case JArray(_) => true
    case JObject(_) => true
  }

  /** Truthiness of a possibly `undefined` property value. */
  predicate Present(v: Option<Json>) {
    v.Some? && Truthy(v.value)
  }

  /** `v === s` for a string `s` (undefined is never equal). */
  predicate IsString(v: Option<Json>, s: string) {
    v == Some(JString(s))
  }
}

=== FILE: kml_coordinates.dfy ===
/**
 * The coordinate-text reader of the newer (SpaceView) importer: a KML
 * `<coordinates>` text is a white-space separated list of tuples
 * `lon,lat[,alt]`, and each tuple whose first two fields parse is kept.
 */
module KmlCoordinates {
  import opened Wrappers
  import opened JsText
  import opened JsNumber
  import opened Geo

  /** `[parseFloat(f0), parseFloat(f1)]` from a tuple's fields, when there are two and neither is NaN. */
  function PairOf(fields: seq<string>): (r: Option<Coord>)
    ensures r.Some? ==> Readable(r.value)
    ensures r.Some? <==> |fields| >= 2 && !ParseFloat(fields[0]).IsNaN() && !ParseFloat(fields[1]).IsNaN()
  {
    if |fields| >= 2 && !ParseFloat(fields[0]).IsNaN() && !ParseFloat(fields[1]).IsNaN() then
      Some(Coord(ParseFloat(fields[0]), ParseFloat(fields[1])))
    else None
  }

  /** One tuple `lon,lat[,alt]`, split on commas. */
  function TupleCoord(tuple: string): (r: Option<Coord>)
    ensures r.Some? ==> Readable(r.value)
  {
    PairOf(Split(tuple, ','))
  }

  /** The readable tuples of `ts`, in order. */
  function CoordsOfTuples(ts: seq<string>): (r: seq<Coord>)
    ensures |r| <= |ts|
    ensures AllReadable(r)
  {
    if ts == [] then []
    else
      var c := TupleCoord(ts[0]);
      if c.Some? then [c.value] + CoordsOfTuples(ts[1..]) else CoordsOfTuples(ts[1..])
  }

  /** `parseCoordinatesString`: null, undefined and "" give no pairs. */
  function ParseCoordinates(text: Option<string>): (r: seq<Coord>)
    ensures text.None? || text == Some("") ==> r == []
    ensures text.Some? ==> |r| <= |Tokens(text.value)|
    ensures AllReadable(r)
  {
    if text.None? || text.value == [] then [] else CoordsOfTuples(Tokens(text.value))
  }

  // ---------------------------------------------------------------------
  // Properties
  // ---------------------------------------------------------------------

  /** Tuples are read independently: the pairs of a concatenation are the concatenation of the pairs. */
  lemma {:induction false} CoordsOfTuplesAppend(a: seq<string>, b: seq<string>)
    ensures CoordsOfTuples(a + b) == CoordsOfTuples(a) + CoordsOfTuples(b)
  {
    if a != [] {
      assert (a + b)[1..] == a[1..] + b;
      CoordsOfTuplesAppend(a[1..], b);
    } else {
      assert a + b == b;
    }
  }

  /** A tuple without a comma has a single field and is dropped. */
  lemma TupleWithoutComma(tuple: string)
    requires ',' !in tuple
    ensures TupleCoord(tuple) == None
  {
    SplitNoSep(tuple, ',');
  }

  /** The text of a tuple of integers `lon,lat` followed by any extra comma-free fields. */
  function TupleText(p: (int, int), extra: seq<string>): string {
    Join([IntToString(p.0), IntToString(p.1)] + extra, ",")
  }

  lemma IntToStringNoComma(n: int)
    ensures ',' !in IntToString(n) && IntToString(n) != []
    ensures NoWhiteSpace(IntToString(n))
  {
    var s := IntToString(n);
    var ds := NatToString(if n < 0 then -n else n);
    assert forall i :: 0 <= i < |ds| ==> IsDecimalDigit(ds[i]);
    if n < 0 {
      assert s == "-" + ds;
      assert forall i :: 1 <= i < |s| ==> s[i] == ds[i - 1];
    }
  }

  /** A tuple of two integers reads back as that pair, whatever further fields (altitude) follow. */
  lemma TupleCoordOfInts(p: (int, int), extra: seq<string>)
    requires forall i :: 0 <= i < |extra| ==> ',' !in extra[i]
    ensures TupleCoord(TupleText(p, extra)) == Some(IntCoord(p))
  {
    var fields := [IntToString(p.0), IntToString(p.1)] + extra;
    IntToStringNoComma(p.0);
    IntToStringNoComma(p.1);
    forall i | 0 <= i < |fields|
      ensures ',' !in fields[i]
    {
      if i >= 2 {
        assert fields[i] == extra[i - 2];
      }
    }
    SplitJoin(fields, ',');
    assert Split(TupleText(p, extra), ',') == fields;
    ParseFloatOfString(p.0);
    ParseFloatOfString(p.1);
    assert fields[0] == IntToString(p.0) && fields[1] == IntToString(p.1);
  }

  /** KML's own coordinate text for integer pairs: `lon,lat` tuples separated by single spaces. */
  function CoordinatesText(ps: seq<(int, int)>): string {
    Join(TuplesText(ps), " ")
  }

  function TuplesText(ps: seq<(int, int)>): (ts: seq<string>)
    ensures |ts| == |ps|
    ensures forall i :: 0 <= i < |ps| ==> ts[i] == TupleText(ps[i], [])
  {
    if ps == [] then [] else [TupleText(ps[0], [])] + TuplesText(ps[1..])
  }

  function IntCoords(ps: seq<(int, int)>): (cs: seq<Coord>)
    ensures |cs| == |ps|
    ensures forall i :: 0 <= i < |ps| ==> cs[i] == IntCoord(ps[i])
  {
    if ps == [] then [] else [IntCoord(ps[0])] + IntCoords(ps[1..])
  }

  lemma TupleTextOfPair(p: (int, int))
    ensures TupleText(p, []) == IntToString(p.0) + "," + IntToString(p.1)
  {
    var fields := [IntToString(p.0), IntToString(p.1)] + [];
    assert fields == [IntToString(p.0), IntToString(p.1)];
    assert fields[1..] == [IntToString(p.1)];
    assert Join(fields[1..], ",") == IntToString(p.1);
    assert Join(fields, ",") == IntToString(p.0) + "," + Join(fields[1..], ",");
  }

  lemma TupleTextIsToken(p: (int, int))
    ensures TupleText(p, []) != [] && NoWhiteSpace(TupleText(p, []))
  {
    IntToStringNoComma(p.0);
    IntToStringNoComma(p.1);
    TupleTextOfPair(p);
  }

  lemma {:induction false} CoordsOfTuplesText(ps: seq<(int, int)>)
    ensures CoordsOfTuples(TuplesText(ps)) == IntCoords(ps)
  {
    if ps != [] {
      TupleCoordOfInts(ps[0], []);
      assert TuplesText(ps)[1..] == TuplesText(ps[1..]);
      CoordsOfTuplesText(ps[1..]);
    }
  }

  /** Reading the coordinate text written for integer pairs gives those pairs back, in order. */
  lemma ParseCoordinatesRoundTrip(ps: seq<(int, int)>)
    ensures ParseCoordinates(Some(CoordinatesText(ps))) == IntCoords(ps)
  {
    var ts := TuplesText(ps);
    forall i | 0 <= i < |ts|
      ensures ts[i] != [] && NoWhiteSpace(ts[i])
    {
      TupleTextIsToken(ps[i]);
    }
    if ps == [] {
    } else {
      TokensOfJoin(ts);
      CoordsOfTuplesText(ps);
      assert CoordinatesText(ps) != [] by {
        assert |ts[0]| <= |Join(ts, " ")| by { JoinLength(ts); }
      }
    }
  }

  lemma JoinLength(ts: seq<string>)
    requires ts != []
    ensures |ts[0]| <= |Join(ts, " ")|
  {
  }
}

=== FILE: kml_reader.dfy ===
/**
 * The KML reader of the newer (SpaceView) importer: `parseKML` walks the
 * Placemarks of a parsed document and `extractGeometries` reads the
 * polygons (with holes), line strings and points of one container.
 */
module KmlReader {
  import opened Wrappers
  import opened JsText
  import opened Geo
  import opened XmlTree
  import opened KmlCoordinates
  import opened JsNumber

  const OuterRing := ["outerBoundaryIs", "LinearRing", "coordinates"]
  const InnerRing := ["innerBoundaryIs", "LinearRing", "coordinates"]

  /** What the reader guarantees of every geometry it emits. */
  predicate WellFormed(g: Geometry) {
    match g
    case Point(c) => Readable(c)
    case LineString(cs) => |cs| >= 2 && AllReadable(cs)
    case Polygon(rings) => |rings| >= 1 && forall i :: 0 <= i < |rings| ==> |rings[i]| >= 3 && AllReadable(rings[i])
  }

  predicate AllWellFormed(gs: seq<Geometry>) {
    forall i :: 0 <= i < |gs| ==> WellFormed(gs[i])
  }

  /** The position of a geometry kind in the output of one container. */
  function Rank(g: Geometry): nat {
    match g
    case Polygon(_) => 0
    case LineString(_) => 1
    case Point(_) => 2
  }

  /** Every geometry is well formed and of the given kind. */
  predicate OfKind(gs: seq<Geometry>, kind: nat) {
    forall i :: 0 <= i < |gs| ==> Rank(gs[i]) == kind && WellFormed(gs[i])
  }

  lemma OfKindCons(g: Geometry, rest: seq<Geometry>, kind: nat)
    requires Rank(g) == kind && WellFormed(g) && OfKind(rest, kind)
    ensures OfKind([g] + rest, kind)
  {
    var r := [g] + rest;
    forall i | 0 <= i < |r|
      ensures Rank(r[i]) == kind && WellFormed(r[i])
    {
      if i > 0 {
        assert r[i] == rest[i - 1];
      }
    }
  }

  /** Polygons first, then line strings, then points. */
  predicate KindOrdered(gs: seq<Geometry>) {
    forall i, j :: 0 <= i < j < |gs| ==> Rank(gs[i]) <= Rank(gs[j])
  }

  /** `x?.textContent`. */
  function TextOf(x: Option<Located>): Option<string> {
    if x.Some? then Some(x.value.el.text) else None
  }

  /** The pairs of the first outer-boundary ring of a polygon. */
  function OuterCoords(poly: Located): seq<Coord> {
    ParseCoordinates(TextOf(QueryFirst(poly, OuterRing)))
  }

  /** The pairs of one `<coordinates>` element. */
  function CoordsOf(x: Located): seq<Coord> {
    ParseCoordinates(Some(x.el.text))
  }

  /** The inner rings that have at least three pairs, in document order. */
  function Holes(rings: seq<Located>): (r: seq<seq<Coord>>)
    ensures |r| <= |rings|
    ensures forall i :: 0 <= i < |r| ==> |r[i]| >= 3 && AllReadable(r[i])
  {
    if rings == [] then []
    else
      var cs := CoordsOf(rings[0]);
      if |cs| >= 3 then [cs] + Holes(rings[1..]) else Holes(rings[1..])
  }

  /** One `<Polygon>`: nothing unless its outer ring has three pairs; the kept holes follow the outer ring. */
  function PolygonOf(poly: Located): (r: Option<Geometry>)
    ensures r.Some? <==> |OuterCoords(poly)| >= 3
    ensures r.Some? ==> r.value.Polygon? && WellFormed(r.value) && r.value.rings[0] == OuterCoords(poly)
    ensures r.Some? ==> r.value.rings[1..] == Holes(QueryAll(poly, InnerRing))
  {
    var outer := OuterCoords(poly);
    if |outer| < 3 then None
    else Some(Polygon([outer] + Holes(QueryAll(poly, InnerRing))))
  }

  /** The polygons of the `<Polygon>` elements, in document order. */
  function Polygons(polys: seq<Located>): (r: seq<Geometry>)
    ensures |r| <= |polys|
    ensures OfKind(r, 0)
  {
    if polys == [] then []
    else
      var g := PolygonOf(polys[0]);
      var rest := Polygons(polys[1..]);
      if g.Some? then OfKindCons(g.value, rest, 0); [g.value] + rest else rest
  }

  /** The `<LineString> <coordinates>` elements with at least two pairs. */
  function Lines(xs: seq<Located>): (r: seq<Geometry>)
    ensures |r| <= |xs|
    ensures OfKind(r, 1)
  {
    if xs == [] then []
    else
      var cs := CoordsOf(xs[0]);
      var rest := Lines(xs[1..]);
      if |cs| >= 2 then OfKindCons(LineString(cs), rest, 1); [LineString(cs)] + rest else rest
  }

  /** One `<Point> <coordinates>`: the trimmed text split on commas, first two fields. */
  function PointOf(x: Located): (r: Option<Geometry>)
    ensures r.Some? ==> r.value.Point? && WellFormed(r.value)
    ensures var fs := Split(Trim(x.el.text), ',');
      r.Some? <==> Trim(x.el.text) != [] && |fs| >= 2 && !ParseFloat(fs[0]).IsNaN() && !ParseFloat(fs[1]).IsNaN()
    ensures var fs := Split(Trim(x.el.text), ',');
      r.Some? ==> |fs| >= 2 && r.value.at == Coord(ParseFloat(fs[0]), ParseFloat(fs[1]))
  {
    var t := Trim(x.el.text);
    if t == [] then None
    else
      match TupleCoord(t)
      case Some(c) => Some(Point(c))
      case None => None
  }

  function Points(xs: seq<Located>): (r: seq<Geometry>)
    ensures |r| <= |xs|
    ensures OfKind(r, 2)
  {
    if xs == [] then []
    else
      var g := PointOf(xs[0]);
      var rest := Points(xs[1..]);
      if g.Some? then OfKindCons(g.value, rest, 2); [g.value] + rest else rest
  }

  /** The geometries of rank `kind`, in order. */
  function OfRank(gs: seq<Geometry>, kind: nat): (r: seq<Geometry>)
    ensures |r| <= |gs|
  {
    if gs == [] then []
    else if Rank(gs[0]) == kind then [gs[0]] + OfRank(gs[1..], kind)
    else OfRank(gs[1..], kind)
  }

  lemma {:induction false} OfRankAppend(a: seq<Geometry>, b: seq<Geometry>, kind: nat)
    ensures OfRank(a + b, kind) == OfRank(a, kind) + OfRank(b, kind)
  {
    if a == [] {
      assert a + b == b;
    } else {
      assert (a + b)[1..] == a[1..] + b;
      OfRankAppend(a[1..], b, kind);
    }
  }

  lemma {:induction false} OfRankOfKind(gs: seq<Geometry>, kind: nat, other: nat)
    requires OfKind(gs, kind) && other != kind
    ensures OfRank(gs, kind) == gs && OfRank(gs, other) == []
  {
    if gs != [] {
      assert OfKind(gs[1..], kind) by {
        forall i | 0 <= i < |gs[1..]| ensures Rank(gs[1..][i]) == kind && WellFormed(gs[1..][i]) {
          assert gs[1..][i] == gs[i + 1];
        }
      }
      OfRankOfKind(gs[1..], kind, other);
    }
  }

  /**
   * `extractGeometries(container)`: the polygons, line strings and points
   * of the output are exactly what the three readers return for the
   * container's `<Polygon>`, `LineString coordinates` and `Point
   * coordinates` elements, and they come in that order.
   */
  function ExtractGeometries(c: Located): (r: seq<Geometry>)
    ensures AllWellFormed(r)
    ensures KindOrdered(r)
    ensures OfRank(r, 0) == Polygons(QueryAll(c, ["Polygon"]))
    ensures OfRank(r, 1) == Lines(QueryAll(c, ["LineString", "coordinates"]))
    ensures OfRank(r, 2) == Points(QueryAll(c, ["Point", "coordinates"]))
  {
    var polygons := Polygons(QueryAll(c, ["Polygon"]));
    var lines := Lines(QueryAll(c, ["LineString", "coordinates"]));
    var points := Points(QueryAll(c, ["Point", "coordinates"]));
    KindOrderedConcat(polygons, lines, points);
    Sections(polygons, lines, points);
    polygons + lines + points
  }

  lemma Sections(a: seq<Geometry>, b: seq<Geometry>, c: seq<Geometry>)
    requires OfKind(a, 0) && OfKind(b, 1) && OfKind(c, 2)
    ensures OfRank(a + b + c, 0) == a && OfRank(a + b + c, 1) == b && OfRank(a + b + c, 2) == c
  {
    forall k | 0 <= k < 3
      ensures OfRank(a + b + c, k) == OfRank(a, k) + OfRank(b, k) + OfRank(c, k)
    {
      OfRankAppend(a + b, c, k);
      OfRankAppend(a, b, k);
    }
    OfRankOfKind(a, 0, 1);
    OfRankOfKind(a, 0, 2);
    OfRankOfKind(b, 1, 0);
    OfRankOfKind(b, 1, 2);
    OfRankOfKind(c, 2, 0);
    OfRankOfKind(c, 2, 1);
  }

  /** Polygons, then line strings, then points, all well formed: kind-ordered and well formed together. */
  lemma KindOrderedConcat(a: seq<Geometry>, b: seq<Geometry>, c: seq<Geometry>)
    requires OfKind(a, 0) && OfKind(b, 1) && OfKind(c, 2)
    ensures KindOrdered(a + b + c)
    ensures AllWellFormed(a + b + c)
  {
    var r := a + b + c;
    forall i | 0 <= i < |r|
      ensures Rank(r[i]) == (if i < |a| then 0 else if i < |a| + |b| then 1 else 2) && WellFormed(r[i])
    {
      if i < |a| {
        assert r[i] == a[i];
      } else if i < |a| + |b| {
        assert r[i] == b[i - |a|];
      } else {
        assert r[i] == c[i - |a| - |b|];
      }
    }
  }

  /** The geometries of several containers, one after the other. */
  function ExtractAll(cs: seq<Located>): (r: seq<Geometry>)
    ensures AllWellFormed(r)
  {
    if cs == [] then [] else ExtractGeometries(cs[0]) + ExtractAll(cs[1..])
  }

  /**
   * One Placemark: when it has MultiGeometry descendants, the geometries of
   * each of them in document order, and nothing read from the Placemark
   * outside them; otherwise the Placemark's own geometries.
   */
  function PlacemarkGeometries(p: Located): (r: seq<Geometry>)
    ensures AllWellFormed(r)
    ensures QueryAll(p, ["MultiGeometry"]) != [] ==> r == ExtractAll(QueryAll(p, ["MultiGeometry"]))
    ensures QueryAll(p, ["MultiGeometry"]) == [] ==> r == ExtractGeometries(p)
  {
    var multi := QueryAll(p, ["MultiGeometry"]);
    if multi != [] then ExtractAll(multi) else ExtractGeometries(p)
  }

  function PlacemarksGeometries(ps: seq<Located>): (r: seq<Geometry>)
    ensures AllWellFormed(r)
  {
    if ps == [] then [] else PlacemarkGeometries(ps[0]) + PlacemarksGeometries(ps[1..])
  }

  /** `parseKML`: a document with a `parsererror` element throws; otherwise the geometries of every Placemark, in document order. */
  function ParseKml(doc: Located): (r: Result<seq<Geometry>>)
    ensures r.Failure? <==> QueryAll(doc, ["parsererror"]) != []
    ensures r.Success? ==> AllWellFormed(r.value)
    ensures r.Success? ==> r.value == PlacemarksGeometries(QueryAll(doc, ["Placemark"]))
  {
    if QueryAll(doc, ["parsererror"]) != [] then Failure("KML parse error")
    else Success(PlacemarksGeometries(QueryAll(doc, ["Placemark"])))
  }

  // ---------------------------------------------------------------------
  // What the readers keep: each list of elements is read one element at a
  // time, in order. An append lemma and a one-element lemma together fix
  // each reader's output.
  // ---------------------------------------------------------------------

  lemma {:induction false} HolesAppend(a: seq<Located>, b: seq<Located>)
    ensures Holes(a + b) == Holes(a) + Holes(b)
  {
    if a == [] {
      assert a + b == b;
    } else {
      assert (a + b)[1..] == a[1..] + b;
      HolesAppend(a[1..], b);
    }
  }

  /** An inner ring is kept exactly when it has at least three pairs. */
  lemma HolesOne(x: Located)
    ensures Holes([x]) == if |CoordsOf(x)| >= 3 then [CoordsOf(x)] else []
  {
  }

  /** Every inner ring with at least three pairs is kept, after the kept rings before it. */
  lemma HoleKept(p: seq<Located>, x: Located, q: seq<Located>)
    requires |CoordsOf(x)| >= 3
    ensures Holes(p + [x] + q) == Holes(p) + [CoordsOf(x)] + Holes(q)
  {
    HolesAppend(p + [x], q);
    HolesAppend(p, [x]);
    HolesOne(x);
  }

  /** An inner ring with fewer than three pairs is dropped, and the polygon is kept. */
  lemma ShortHoleDropped(poly: Located, p: seq<Located>, x: Located, q: seq<Located>)
    requires |OuterCoords(poly)| >= 3
    requires QueryAll(poly, InnerRing) == p + [x] + q && |CoordsOf(x)| < 3
    ensures PolygonOf(poly).Some?
    ensures PolygonOf(poly).value.rings[1..] == Holes(p) + Holes(q)
  {
    assert Holes(p + [x] + q) == Holes(p) + Holes(q) by {
      HolesAppend(p + [x], q);
      HolesAppend(p, [x]);
      HolesOne(x);
      assert Holes(p) + [] == Holes(p);
    }
  }

  lemma {:induction false} PolygonsAppend(a: seq<Located>, b: seq<Located>)
    ensures Polygons(a + b) == Polygons(a) + Polygons(b)
  {
    if a == [] {
      assert a + b == b;
    } else {
      assert (a + b)[0] == a[0];
      assert (a + b)[1..] == a[1..] + b;
      PolygonsAppend(a[1..], b);
      if PolygonOf(a[0]).Some? {
        ConcatAssoc([PolygonOf(a[0]).value], Polygons(a[1..]), Polygons(b));
      }
    }
  }

  /** A `<Polygon>` gives one polygon exactly when its outer ring has three pairs. */
  lemma PolygonsOne(x: Located)
    ensures Polygons([x]) == if PolygonOf(x).Some? then [PolygonOf(x).value] else []
  {
  }

  lemma {:induction false} LinesAppend(a: seq<Located>, b: seq<Located>)
    ensures Lines(a + b) == Lines(a) + Lines(b)
  {
    if a == [] {
      assert a + b == b;
    } else {
      assert (a + b)[1..] == a[1..] + b;
      LinesAppend(a[1..], b);
    }
  }

  /** A line's `<coordinates>` gives a line string exactly when it has at least two pairs. */
  lemma LinesOne(x: Located)
    ensures Lines([x]) == if |CoordsOf(x)| >= 2 then [LineString(CoordsOf(x))] else []
  {
  }

  lemma {:induction false} PointsAppend(a: seq<Located>, b: seq<Located>)
    ensures Points(a + b) == Points(a) + Points(b)
  {
    if a == [] {
      assert a + b == b;
    } else {
      assert (a + b)[0] == a[0];
      assert (a + b)[1..] == a[1..] + b;
      PointsAppend(a[1..], b);
      if PointOf(a[0]).Some? {
        ConcatAssoc([PointOf(a[0]).value], Points(a[1..]), Points(b));
      }
    }
  }

  /** A point's `<coordinates>` gives a point exactly when its first two fields are numbers. */
  lemma PointsOne(x: Located)
    ensures Points([x]) == if PointOf(x).Some? then [PointOf(x).value] else []
  {
  }

  /** Grouping of concatenations, proved where no facts about the elements are in scope. */
  lemma ConcatAssoc<T>(x: seq<T>, p: seq<T>, q: seq<T>)
    ensures x + (p + q) == (x + p) + q
  {
  }

  lemma ExtractAllCons(a: seq<Located>, b: seq<Located>)
    requires a != []
    ensures ExtractAll(a + b) == ExtractGeometries(a[0]) + ExtractAll(a[1..] + b)
  {
    assert (a + b)[0] == a[0];
    assert (a + b)[1..] == a[1..] + b;
  }

  /** Containers are read one after the other: each MultiGeometry's geometries, in document order. */
  lemma {:induction false} ExtractAllAppend(a: seq<Located>, b: seq<Located>)
    ensures ExtractAll(a + b) == ExtractAll(a) + ExtractAll(b)
  {
    if a == [] {
      assert a + b == b;
    } else {
      ExtractAllCons(a, b);
      ExtractAllAppend(a[1..], b);
      assert ExtractAll(a) == ExtractGeometries(a[0]) + ExtractAll(a[1..]);
      ConcatAssoc(ExtractGeometries(a[0]), ExtractAll(a[1..]), ExtractAll(b));
    }
  }

  lemma ExtractAllOne(c: Located)
    ensures ExtractAll([c]) == ExtractGeometries(c)
  {
  }

  lemma PlacemarksCons(a: seq<Located>, b: seq<Located>)
    requires a != []
    ensures PlacemarksGeometries(a + b) == PlacemarkGeometries(a[0]) + PlacemarksGeometries(a[1..] + b)
  {
    assert (a + b)[0] == a[0];
    assert (a + b)[1..] == a[1..] + b;
  }

  /** Placemarks are read one after the other, in document order. */
  lemma {:induction false} PlacemarksAppend(a: seq<Located>, b: seq<Located>)
    ensures PlacemarksGeometries(a + b) == PlacemarksGeometries(a) + PlacemarksGeometries(b)
  {
    if a == [] {
      assert a + b == b;
    } else {
      PlacemarksCons(a, b);
      PlacemarksAppend(a[1..], b);
      assert PlacemarksGeometries(a) == PlacemarkGeometries(a[0]) + PlacemarksGeometries(a[1..]);
      ConcatAssoc(PlacemarkGeometries(a[0]), PlacemarksGeometries(a[1..]), PlacemarksGeometries(b));
    }
  }

  lemma PlacemarksOne(p: Located)
    ensures PlacemarksGeometries([p]) == PlacemarkGeometries(p)
  {
  }
}

=== FILE: left_panel.dfy ===
/**
 * The imagery viewer's side panel: the popup it shows (a raster's
 * information, the filter, or none), the selected/total counter of the
 * active tab, and the guarded show-all and hide-all buttons, which send
 * list actions to the map (see MapLists).
 */
module LeftPanel {
  import opened Wrappers
  import opened RasterCollect
  import opened MapLists

  /** The two tabs: drawn areas ("Hududlar") and found rasters ("Tasvirlar"). */
  datatype Tab = Areas | Images

  datatype PopupKind = NoPopup | InfoPopup | FilterPopup

  /**
   * The popup state: its kind and the index it is keyed on (the OBJECTID
   * of the raster shown, -2 for the filter, -1 for none). The raster
   * attributes the information popup displays are not represented.
   */
  datatype Popup = Popup(kind: PopupKind, index: int)

  const Closed := Popup(NoPopup, -1)

  /** A request from the panel to `popupType`. */
  datatype Request =
    | Info(objectId: int, id: int, listIndex: int)
    | Filter
    | Other

  /**
   * `popupType`: the new popup, and the action sent to the map (the
   * clicked raster's outline is shown, or hidden with -1).
   */
  function PopupType(p: Popup, req: Request): (r: (Popup, Option<Action>))
    ensures req.Info? && req.objectId == p.index ==> r == (Closed, Some(ListAction("rClicked", -1)))
    ensures req.Info? && req.objectId != p.index ==> r == (Popup(InfoPopup, req.id), Some(ListAction("rClicked", req.listIndex)))
    ensures req.Filter? ==> r.1.None? && (p.kind == FilterPopup <==> r.0 == Closed)
    ensures req.Filter? && p.kind != FilterPopup ==> r.0 == Popup(FilterPopup, -2)
    ensures req.Other? ==> r == (Closed, None)
  {
    match req
    case Info(objectId, id, listIndex) =>
      if objectId != p.index then (Popup(InfoPopup, id), Some(ListAction("rClicked", listIndex)))
      else (Closed, Some(ListAction("rClicked", -1)))
    case Filter =>
      if p.kind != FilterPopup then (Popup(FilterPopup, -2), None) else (Closed, None)
    case Other => (Closed, None)
  }

  /** A raster row is highlighted when its OBJECTID is the popup's index. */
  predicate Highlighted(p: Popup, objectId: int) {
    p.index == objectId
  }

  /** Clicking a raster twice opens and then closes its information, when its id is its OBJECTID. */
  lemma InfoTwiceCloses(p: Popup, objectId: int, listIndex: int)
    requires objectId != p.index
    ensures var shown := PopupType(p, Info(objectId, objectId, listIndex)).0;
      shown.kind == InfoPopup && Highlighted(shown, objectId)
      && PopupType(shown, Info(objectId, objectId, listIndex)).0 == Closed
  {
  }

  /** The filter button toggles: twice from a state without the filter gives no popup. */
  lemma FilterTwiceCloses(p: Popup)
    requires p.kind != FilterPopup
    ensures PopupType(PopupType(p, Filter).0, Filter).0 == Closed
  {
  }

  /** Opening a raster's information replaces the filter popup. */
  lemma InfoReplacesFilter(objectId: int, listIndex: int)
    requires objectId != -2
    ensures PopupType(Popup(FilterPopup, -2), Info(objectId, objectId, listIndex)).0 == Popup(InfoPopup, objectId)
  {
  }

  // ---------------------------------------------------------------------
  // Counter and bulk buttons
  // ---------------------------------------------------------------------

  /** The ticked areas, in list order. */
  function Shown(gs: seq<GeoItem>): (r: seq<GeoItem>)
    ensures |r| <= |gs|
    ensures forall g :: g in r <==> g in gs && g.visible
  {
    if gs == [] then [] else (if gs[0].visible then [gs[0]] else []) + Shown(gs[1..])
  }

  /** The ticked areas keep list order: the filter distributes over concatenation. */
  lemma {:induction false} ShownAppend(a: seq<GeoItem>, b: seq<GeoItem>)
    ensures Shown(a + b) == Shown(a) + Shown(b)
  {
    if a == [] {
      assert a + b == b;
    } else {
      assert (a + b)[1..] == a[1..] + b;
      ShownAppend(a[1..], b);
    }
  }

  /** One area is counted exactly when it is ticked. */
  lemma ShownOne(g: GeoItem)
    ensures Shown([g]) == if g.visible then [g] else []
  {
  }

  datatype SelectCount = SelectCount(count: nat, select: nat)

  /** The counter of the active tab: list length and number of ticked items. */
  function Counter(tab: Tab, gs: seq<GeoItem>, rs: seq<RasterItem>): (c: SelectCount)
    ensures c.select <= c.count
    ensures tab == Areas ==> c.count == |gs| && c.select == |Shown(gs)|
    ensures tab == Images ==> c.count == |rs| && c.select == |Ticked(rs)|
  {
    match tab
    case Areas => SelectCount(|gs|, |Shown(gs)|)
    case Images => SelectCount(|rs|, |Ticked(rs)|)
  }

  /** "Cancel": hide every item of the tab, offered only when something is ticked. */
  function HideAllButton(tab: Tab, c: SelectCount): (a: Option<Action>)
    ensures a.Some? <==> c.select > 0
    ensures a.Some? ==> a.value.ListAction? && a.value.index == -1 && TargetsGeometries(a.value.kind) == (tab == Areas)
  {
    if c.select > 0 then Some(ListAction(if tab == Areas then "gHideAll" else "rHideAll", -1)) else None
  }

  /** "Select all": show every item of the tab, offered only when something is unticked. */
  function ShowAllButton(tab: Tab, c: SelectCount): (a: Option<Action>)
    ensures a.Some? <==> c.select < c.count
    ensures a.Some? ==> a.value.ListAction? && a.value.index == -1 && TargetsGeometries(a.value.kind) == (tab == Areas)
  {
    if c.select < c.count then Some(ListAction(if tab == Areas then "gShowAll" else "rShowAll", -1)) else None
  }

  lemma {:induction false} ShownAll(gs: seq<GeoItem>)
    requires forall j :: 0 <= j < |gs| ==> gs[j].visible
    ensures Shown(gs) == gs
  {
    if gs != [] {
      ShownAll(gs[1..]);
    }
  }

  lemma {:induction false} ShownNone(gs: seq<GeoItem>)
    requires forall j :: 0 <= j < |gs| ==> !gs[j].visible
    ensures Shown(gs) == []
  {
    if gs != [] {
      ShownNone(gs[1..]);
    }
  }

  /**
   * The bulk buttons switch themselves off: after hide-all nothing is
   * ticked, so hide-all is no longer offered; after show-all everything
   * is, so show-all is no longer offered.
   */
  lemma BulkButtonsSettle(s: Lists)
    ensures var hidden := Reduce(s, ListAction("gHideAll", -1)).value.0;
      HideAllButton(Areas, Counter(Areas, hidden.geometries, hidden.rasters)).None?
    ensures var shown := Reduce(s, ListAction("gShowAll", -1)).value.0;
      ShowAllButton(Areas, Counter(Areas, shown.geometries, shown.rasters)).None?
  {
    HideAllSettles(s);
    ShowAllSettles(s);
  }

  lemma HideAllSettles(s: Lists)
    ensures var hidden := Reduce(s, ListAction("gHideAll", -1)).value.0;
      HideAllButton(Areas, Counter(Areas, hidden.geometries, hidden.rasters)).None?
  {
    var hidden := Reduce(s, ListAction("gHideAll", -1)).value.0;
    assert hidden.geometries == SetAllGeometries(s.geometries, false);
    ShownNone(hidden.geometries);
  }

  lemma ShowAllSettles(s: Lists)
    ensures var shown := Reduce(s, ListAction("gShowAll", -1)).value.0;
      ShowAllButton(Areas, Counter(Areas, shown.geometries, shown.rasters)).None?
  {
    var shown := Reduce(s, ListAction("gShowAll", -1)).value.0;
    assert shown.geometries == SetAllGeometries(s.geometries, true);
    ShownAll(shown.geometries);
  }

  /** What the rasters tab shows. */
  datatype ImagesView = Loading | NoImages | Listed(items: seq<RasterItem>)

  function ImagesContent(ready: bool, rs: seq<RasterItem>): (v: ImagesView)
    ensures !ready ==> v == Loading
    ensures ready && rs == [] ==> v == NoImages
    ensures v.Listed? ==> ready && v.items == rs && rs != []
  {
    if !ready then Loading else if |rs| == 0 then NoImages else Listed(rs)
  }
}

=== FILE: map_drawing.dfy ===
/**
 * Drawing areas on the imagery viewer's map: clicks collect points for
 * the selected tool, a double click turns them into a polygon, a
 * rectangle or a circle, and the new shape joins the list of drawn areas.
 * Areas imported from a file join the same list. Geodesic areas and
 * circle buffers come from the map SDK and are parameters here.
 */
module MapDrawing {
  import opened Wrappers
  import opened MapLists

  /** The drawing tools; `Name` is the tool's identifier as the toolbar sends it. */
  datatype Tool = NoTool | Address | Ruler | Measure | Rectangle | Circle | Polygon {
    function Name(): string {
      match this
      case NoTool => "none"
      case Address => "address"
      case Ruler => "line"
      case Measure => "area"
      case Rectangle => "Reactangle"
      case Circle => "Circle"
      case Polygon => "Polygon"
    }
  }

  datatype LonLat = LonLat(lon: real, lat: real)

  /** A finished shape: a polygon ring, a rectangle ring, or a circle from its centre through a point. */
  datatype Shape =
    | PolygonShape(ring: seq<LonLat>)
    | RectangleShape(ring: seq<LonLat>)
    | CircleShape(center: LonLat, through: LonLat)
  {
    /** The name the new list item gets. */
    function Name(): string {
      match this
      case PolygonShape(_) => "Polygon"
      case RectangleShape(_) => "Rectangle"
      case CircleShape(_, _) => "Circle"
    }
  }

  /** A click adds a point, except with no tool, and except a second point for a one-point tool. */
  function Click(tool: Tool, points: seq<LonLat>, p: LonLat): (r: seq<LonLat>)
    ensures r == points || r == points + [p]
    ensures tool == NoTool || tool == Address ==> r == points
    ensures (tool == Rectangle || tool == Circle) && |points| <= 1 ==> |r| <= 1
    ensures (tool == Polygon || tool == Ruler || tool == Measure) ==> r == points + [p]
  {
    if tool == NoTool || tool == Address then points
    else if tool != Polygon && tool != Ruler && tool != Measure && |points| == 1 then points
    else points + [p]
  }

  /** The rectangle from the first corner `a` to the opposite corner `p`. */
  function RectangleRing(a: LonLat, p: LonLat): (ring: seq<LonLat>)
    ensures |ring| == 4 && ring[0] == a && ring[2] == p
    ensures ring[0].lon == ring[1].lon && ring[1].lat == ring[2].lat
    ensures ring[2].lon == ring[3].lon && ring[3].lat == ring[0].lat
  {
    [a, LonLat(a.lon, p.lat), p, LonLat(p.lon, a.lat)]
  }

  /** Dragging from the other corner gives the same rectangle, started two vertices later. */
  lemma RectangleFromOppositeCorner(a: LonLat, p: LonLat)
    ensures RectangleRing(p, a) == RectangleRing(a, p)[2..] + RectangleRing(a, p)[..2]
  {
  }

  /**
   * A double click at `p`: the shape it completes, if any. Every double
   * click also clears the collected points.
   */
  function DoubleClick(tool: Tool, points: seq<LonLat>, p: LonLat): (s: Option<Shape>)
    ensures s.Some? && s.value.PolygonShape? ==> tool == Polygon && |s.value.ring| >= 3 && s.value.ring == points + [p]
    ensures s.Some? && s.value.RectangleShape? ==> tool == Rectangle && |points| == 1 && s.value.ring == RectangleRing(points[0], p)
    ensures s.Some? && s.value.CircleShape? ==> tool == Circle && |points| == 1 && s.value == CircleShape(points[0], p)
    ensures tool == Polygon && |points| > 1 ==> s.Some?
    ensures (tool == Rectangle || tool == Circle) && |points| == 1 ==> s.Some?
  {
    if tool == Polygon && |points| > 1 then Some(PolygonShape(points + [p]))
    else if tool == Circle && |points| == 1 then Some(CircleShape(points[0], p))
    else if tool == Rectangle && |points| == 1 then Some(RectangleShape(RectangleRing(points[0], p)))
    else None
  }

  /** A finished shape joins the list ticked, with the area the SDK measured. */
  function AddShape(gs: seq<GeoItem>, s: Option<Shape>, area: string): (r: seq<GeoItem>)
    ensures s.None? ==> r == gs
    ensures s.Some? ==> r == gs + [GeoItem(s.value.Name(), true, area)]
  {
    if s.Some? then gs + [GeoItem(s.value.Name(), true, area)] else gs
  }

  /** With a one-point tool, any run of clicks from no points leaves at most one point. */
  lemma {:induction false} OnePointTools(tool: Tool, clicks: seq<LonLat>, points: seq<LonLat>)
    requires tool == Rectangle || tool == Circle
    requires |points| <= 1
    ensures |Clicks(tool, points, clicks)| <= 1
    ensures |points| == 1 ==> Clicks(tool, points, clicks) == points
  {
    if clicks != [] {
      OnePointTools(tool, clicks[1..], Click(tool, points, clicks[0]));
    }
  }

  /** The points after a run of clicks. */
  function Clicks(tool: Tool, points: seq<LonLat>, clicks: seq<LonLat>): seq<LonLat>
    decreases |clicks|
  {
    if clicks == [] then points else Clicks(tool, Click(tool, points, clicks[0]), clicks[1..])
  }

  /** A polygon's ring is its clicked points in order, then the double-clicked point. */
  lemma {:induction false} PolygonRingIsClicks(clicks: seq<LonLat>, p: LonLat)
    requires |clicks| >= 2
    ensures DoubleClick(Polygon, Clicks(Polygon, [], clicks), p) == Some(PolygonShape(clicks + [p]))
  {
    PolygonClicksAppend([], clicks);
    assert [] + clicks == clicks;
  }

  lemma {:induction false} PolygonClicksAppend(points: seq<LonLat>, clicks: seq<LonLat>)
    ensures Clicks(Polygon, points, clicks) == points + clicks
    decreases |clicks|
  {
    if clicks != [] {
      PolygonClicksAppend(points + [clicks[0]], clicks[1..]);
      assert points + [clicks[0]] + clicks[1..] == points + clicks;
    }
  }

  /** An item of an imported file; only polygons become areas. */
  datatype Imported = Imported(kind: string, name: Option<string>, area: string)

  /** `name || "FilePolygon"`: an absent or empty name falls back. */
  function ImportedName(name: Option<string>): (n: string)
    ensures n != []
    ensures name.Some? && name.value != [] ==> n == name.value
  {
    if name.Some? && name.value != [] then name.value else "FilePolygon"
  }

  /** The imported polygons appended to the list, ticked, in file order. */
  function AddImported(gs: seq<GeoItem>, items: seq<Imported>): (r: seq<GeoItem>)
    ensures |gs| <= |r| <= |gs| + |items|
    ensures r[..|gs|] == gs
    ensures forall j :: |gs| <= j < |r| ==> r[j].visible
    decreases |items|
  {
    if items == [] then gs
    else if items[0].kind == "Polygon" then
      AddImported(gs + [ImportedArea(items[0])], items[1..])
    else AddImported(gs, items[1..])
  }

  /** The area a polygon of the file becomes: named, ticked, with its area text. */
  function ImportedArea(it: Imported): (g: GeoItem)
    ensures g.visible && g.area == it.area
    ensures g.name == ImportedName(it.name)
  {
    GeoItem(ImportedName(it.name), true, it.area)
  }

  /** Importing is a left fold over the file: the items of `a + b` are those of `a`, then those of `b`. */
  lemma {:induction false} AddImportedAppend(gs: seq<GeoItem>, a: seq<Imported>, b: seq<Imported>)
    ensures AddImported(gs, a + b) == AddImported(AddImported(gs, a), b)
    decreases |a|
  {
    if a == [] {
      assert a + b == b;
    } else {
      assert (a + b)[0] == a[0];
      assert (a + b)[1..] == a[1..] + b;
      if a[0].kind == "Polygon" {
        AddImportedAppend(gs + [ImportedArea(a[0])], a[1..], b);
      } else {
        AddImportedAppend(gs, a[1..], b);
      }
    }
  }

  /** One item of the file adds its named, ticked area at the end exactly when it is a polygon. */
  lemma AddImportedOne(gs: seq<GeoItem>, it: Imported)
    ensures AddImported(gs, [it]) == if it.kind == "Polygon" then gs + [ImportedArea(it)] else gs
  {
    assert [it][1..] == [];
  }

  /** Importing keeps the drawn areas and adds one area per polygon of the file. */
  lemma {:induction false} ImportCountsPolygons(gs: seq<GeoItem>, items: seq<Imported>)
    ensures |AddImported(gs, items)| == |gs| + PolygonCount(items)
    decreases |items|
  {
    if items != [] {
      if items[0].kind == "Polygon" {
        ImportCountsPolygons(gs + [ImportedArea(items[0])], items[1..]);
      } else {
        ImportCountsPolygons(gs, items[1..]);
      }
    }
  }

  function PolygonCount(items: seq<Imported>): nat {
    if items == [] then 0 else (if items[0].kind == "Polygon" then 1 else 0) + PolygonCount(items[1..])
  }
}

=== FILE: map_lists.dfy ===
/**
 * The two lists of the imagery viewer and the actions the side panel
 * sends to them: the drawn areas ("g" actions) and the rasters found in
 * them ("r" actions), with the mosaic rule that shows the ticked rasters.
 * The graphics layer holds one graphic per drawn area, in list order,
 * whose visibility follows the list; hover and zoom only restyle or move
 * the map, which is not modelled.
 */
module MapLists {
  import opened Wrappers
  import opened JsText
  import opened JsNumber
  import opened RasterCollect

  /** A drawn or imported area: its name, whether it is ticked, and its area text. */
  datatype GeoItem = GeoItem(name: string, visible: bool, area: string)

  /** The action last sent by the side panel. */
  datatype Action =
    | NoAction
    | Where(clause: string)
    | ListAction(kind: string, index: int)

  /**
   * The lists, the mosaic rule's where clause, the filter clause last sent
   * by the filter popup, and whether the mosaic layer exists.
   */
  datatype Lists = Lists(geometries: seq<GeoItem>, rasters: seq<RasterItem>, rule: string, where: string, hasMosaic: bool)

  /** A follow-up collection of rasters, with the filter clause it runs with. */
  datatype Effect = Idle | Recollect(clause: Option<string>)

  /** An action type starting with 'g' acts on the drawn areas; any other on the rasters. */
  predicate TargetsGeometries(kind: string) {
    |kind| > 0 && kind[0] == 'g'
  }

  predicate TargetsRasters(kind: string) {
    |kind| > 0 && kind[0] == 'r'
  }

  // ---------------------------------------------------------------------
  // Item updates
  // ---------------------------------------------------------------------

  /** Flip the tick of area `i` only. */
  function ToggleGeometry(gs: seq<GeoItem>, i: nat): (r: seq<GeoItem>)
    requires i < |gs|
    ensures |r| == |gs|
    ensures r[i] == gs[i].(visible := !gs[i].visible)
    ensures forall j :: 0 <= j < |gs| && j != i ==> r[j] == gs[j]
  {
    gs[i := gs[i].(visible := !gs[i].visible)]
  }

  /** Remove area `i`, keeping the others in order. */
  function DeleteGeometry(gs: seq<GeoItem>, i: nat): (r: seq<GeoItem>)
    requires i < |gs|
    ensures |r| == |gs| - 1
    ensures forall j :: 0 <= j < i ==> r[j] == gs[j]
    ensures forall j :: i <= j < |r| ==> r[j] == gs[j + 1]
  {
    gs[..i] + gs[i + 1..]
  }

  /** Tick or untick every area. */
  function SetAllGeometries(gs: seq<GeoItem>, v: bool): (r: seq<GeoItem>)
    ensures |r| == |gs|
    ensures forall j :: 0 <= j < |gs| ==> r[j] == gs[j].(visible := v)
  {
    seq(|gs|, j requires 0 <= j < |gs| => gs[j].(visible := v))
  }

  function ToggleRaster(rs: seq<RasterItem>, i: nat): (r: seq<RasterItem>)
    requires i < |rs|
    ensures |r| == |rs|
    ensures r[i] == rs[i].(visible := !rs[i].visible)
    ensures forall j :: 0 <= j < |rs| && j != i ==> r[j] == rs[j]
  {
    rs[i := rs[i].(visible := !rs[i].visible)]
  }

  function SetAllRasters(rs: seq<RasterItem>, v: bool): (r: seq<RasterItem>)
    ensures |r| == |rs|
    ensures forall j :: 0 <= j < |rs| ==> r[j] == rs[j].(visible := v)
  {
    seq(|rs|, j requires 0 <= j < |rs| => rs[j].(visible := v))
  }

  /** The ticked rasters, in list order. */
  function Ticked(rs: seq<RasterItem>): (r: seq<RasterItem>)
    ensures forall it :: it in r <==> it in rs && it.visible
    ensures |r| <= |rs|
  {
    if rs == [] then [] else (if rs[0].visible then [rs[0]] else []) + Ticked(rs[1..])
  }

  /** The mosaic where clause that shows exactly the ticked rasters. */
  function RuleOf(rs: seq<RasterItem>): (w: string)
    ensures Ticked(rs) == [] ==> w == NothingShown
    ensures Ticked(rs) != [] ==> w == MosaicWhere(Ids(Ticked(rs)))
  {
    var ids := Ids(Ticked(rs));
    if |ids| > 0 then MosaicWhere(ids) else NothingShown
  }

  // ---------------------------------------------------------------------
  // The reducer
  // ---------------------------------------------------------------------

  /**
   * The filter clause a collection after a "g" action evidently should run
   * with: the clause last sent by the filter popup, which is kept for this
   * purpose. The reducer as written passes none (GeometryClauseAsWritten).
   */
  function GeometryClause(s: Lists): (c: Option<string>)
    ensures c == Some(s.where)
  {
    Some(s.where)
  }

  /** The filter clause the collection after a "g" action runs with, as written: none. */
  function GeometryClauseAsWritten(s: Lists): (c: Option<string>)
    ensures c.None?
  {
    None
  }

  /** The collection after a drawn-area action ignores the filter as written; with the clause it honours it. */
  lemma GeometryClauseDropsFilter(s: Lists)
    requires s.where != []
    ensures QueryWhere(GeometryClauseAsWritten(s)) == Exclusion
    ensures QueryWhere(GeometryClause(s)) != Exclusion
    ensures StartsWith(QueryWhere(GeometryClause(s)), s.where + " AND ")
  {
  }

  /**
   * A "g" action on the drawn areas; an index without a graphic stops the
   * action. The collection that follows runs without the filter clause.
   */
  function GeometryAction(s: Lists, kind: string, index: int): (r: (Lists, Effect))
    ensures r.0.rasters == s.rasters && r.0.rule == s.rule && r.0.where == s.where
    ensures r.1.Idle? ==> r.0 == s
    ensures r.1.Recollect? ==> r.1 == Recollect(GeometryClauseAsWritten(s))
    ensures kind == "gToggel" && 0 <= index < |s.geometries| ==>
      r.0.geometries == ToggleGeometry(s.geometries, index) && r.1.Recollect?
    ensures kind == "gDelete" && 0 <= index < |s.geometries| ==>
      r.0.geometries == DeleteGeometry(s.geometries, index) && r.1.Recollect?
    ensures (kind == "gToggel" || kind == "gDelete") && !(0 <= index < |s.geometries|) ==> r == (s, Idle)
    ensures kind == "gShowAll" ==> r.0.geometries == SetAllGeometries(s.geometries, true) && r.1.Recollect?
    ensures kind == "gHideAll" ==> r.0.geometries == SetAllGeometries(s.geometries, false) && r.1.Recollect?
    ensures kind != "gToggel" && kind != "gDelete" && kind != "gShowAll" && kind != "gHideAll" ==> r.0 == s
    ensures kind == "gZoom" || kind == "gHover" || (kind == "gUnhover" && index != -1) ==>
      (r.1.Recollect? <==> 0 <= index < |s.geometries|)
    ensures (kind != "gToggel" && kind != "gDelete" && kind != "gShowAll" && kind != "gHideAll"
             && kind != "gZoom" && kind != "gHover" && !(kind == "gUnhover" && index != -1)) ==> r.1.Recollect?
  {
    var inRange := 0 <= index < |s.geometries|;
    if kind == "gToggel" then
      if inRange then (s.(geometries := ToggleGeometry(s.geometries, index)), Recollect(GeometryClauseAsWritten(s)))
      else (s, Idle)
    else if kind == "gDelete" then
      if inRange then (s.(geometries := DeleteGeometry(s.geometries, index)), Recollect(GeometryClauseAsWritten(s)))
      else (s, Idle)
    else if kind == "gShowAll" then (s.(geometries := SetAllGeometries(s.geometries, true)), Recollect(GeometryClauseAsWritten(s)))
    else if kind == "gHideAll" then (s.(geometries := SetAllGeometries(s.geometries, false)), Recollect(GeometryClauseAsWritten(s)))
    else if kind == "gZoom" || kind == "gHover" || (kind == "gUnhover" && index != -1) then
      if inRange then (s, Recollect(GeometryClauseAsWritten(s))) else (s, Idle)
    else (s, Recollect(GeometryClauseAsWritten(s)))
  }

  /** An "r" action (or any other type) on the rasters; a raster action needs the mosaic layer and a non-empty list. */
  function RasterAction(s: Lists, kind: string, index: int): (r: Option<Lists>)
    ensures r.Some? ==> r.value.geometries == s.geometries && r.value.where == s.where
    ensures kind == "rToggel" && s.hasMosaic && |s.rasters| > 0 && 0 <= index < |s.rasters| ==>
      r == Some(s.(rasters := ToggleRaster(s.rasters, index), rule := RuleOf(ToggleRaster(s.rasters, index))))
    ensures kind == "rToggel" && s.hasMosaic && |s.rasters| > 0 && !(0 <= index < |s.rasters|) ==> r.None?
    ensures kind == "rHideAll" && s.hasMosaic && |s.rasters| > 0 ==>
      r == Some(s.(rasters := SetAllRasters(s.rasters, false), rule := NothingShown))
    ensures kind == "rShowAll" && s.hasMosaic && |s.rasters| > 0 ==>
      r == Some(s.(rasters := SetAllRasters(s.rasters, true), rule := MosaicWhere(Ids(s.rasters))))
    ensures !s.hasMosaic || |s.rasters| == 0 ==> r == Some(s)
    ensures kind != "rToggel" && kind != "rHideAll" && kind != "rShowAll" ==> r == Some(s)
  {
    if kind == "rToggel" then
      if !s.hasMosaic || |s.rasters| == 0 then Some(s)
      else if 0 <= index < |s.rasters| then
        var rs := ToggleRaster(s.rasters, index);
        Some(s.(rasters := rs, rule := RuleOf(rs)))
      else None
    else if kind == "rHideAll" then
      if !s.hasMosaic || |s.rasters| == 0 then Some(s)
      else Some(s.(rasters := SetAllRasters(s.rasters, false), rule := NothingShown))
    else if kind == "rShowAll" then
      if !s.hasMosaic || |s.rasters| == 0 then Some(s)
      else
        var rs := SetAllRasters(s.rasters, true);
        AllTicked(rs);
        assert Ids(rs) == Ids(s.rasters);
        Some(s.(rasters := rs, rule := MosaicWhere(Ids(Ticked(rs)))))
    else Some(s)
  }

  /**
   * The effect of an action. None stands for an action that throws (a
   * raster toggle at an index past the list), which changes nothing.
   */
  function Reduce(s: Lists, a: Action): (r: Option<(Lists, Effect)>)
    ensures a.NoAction? ==> r == Some((s, Idle))
    ensures a.Where? ==> r == Some((s.(where := a.clause), Recollect(Some(a.clause))))
    ensures a.ListAction? && TargetsGeometries(a.kind) ==> r.Some? && r.value.0.rasters == s.rasters
    ensures a.ListAction? && TargetsGeometries(a.kind) && r.value.1.Recollect? ==> r.value.1.clause.None?
    ensures a.ListAction? && !TargetsGeometries(a.kind) && r.Some? ==> r.value.0.geometries == s.geometries && r.value.1.Idle?
  {
    match a
    case NoAction => Some((s, Idle))
    case Where(clause) => Some((s.(where := clause), Recollect(Some(clause))))
    case ListAction(kind, index) =>
      if TargetsGeometries(kind) then Some(GeometryAction(s, kind, index))
      else match RasterAction(s, kind, index)
        case None => None
        case Some(t) => Some((t, Idle))
  }

  // ---------------------------------------------------------------------
  // Properties
  // ---------------------------------------------------------------------

  /** Toggling an area twice restores the list. */
  lemma ToggleGeometryTwice(gs: seq<GeoItem>, i: nat)
    requires i < |gs|
    ensures ToggleGeometry(ToggleGeometry(gs, i), i) == gs
  {
  }

  /** Showing all ticks every area and hiding all unticks every area, names and areas kept. */
  lemma ShowHideAll(gs: seq<GeoItem>)
    ensures forall j :: 0 <= j < |gs| ==> SetAllGeometries(gs, true)[j].visible && !SetAllGeometries(gs, false)[j].visible
    ensures SetAllGeometries(SetAllGeometries(gs, false), true) == SetAllGeometries(gs, true)
  {
  }

  /** Deleting an area and putting it back restores the list. */
  lemma DeleteThenInsert(gs: seq<GeoItem>, i: nat)
    requires i < |gs|
    ensures DeleteGeometry(gs, i)[..i] + [gs[i]] + DeleteGeometry(gs, i)[i..] == gs
  {
    var r := DeleteGeometry(gs, i);
    assert r[..i] == gs[..i];
    assert r[i..] == gs[i + 1..];
    assert gs[..i] + [gs[i]] + gs[i + 1..] == gs;
  }

  /** The mosaic rule shows the ticked rasters: their ids read back from it, in list order. */
  lemma RuleReadsBack(rs: seq<RasterItem>)
    requires Ticked(rs) != []
    ensures var parts := Split(IdsInside(RuleOf(rs)), ',');
      var ids := Ids(Ticked(rs));
      |parts| == |ids| && forall i :: 0 <= i < |ids| ==> ParseInt(parts[i]) == FromInt(ids[i])
  {
    MosaicWhereReadsBack(Ids(Ticked(rs)));
  }

  /** Every raster action that runs leaves the rule showing exactly the ticked rasters. */
  lemma RasterActionsKeepRule(s: Lists, kind: string, index: int)
    requires kind == "rToggel" || kind == "rHideAll" || kind == "rShowAll"
    requires s.hasMosaic && |s.rasters| > 0
    requires RasterAction(s, kind, index).Some?
    ensures RasterAction(s, kind, index).value.rule == RuleOf(RasterAction(s, kind, index).value.rasters)
  {
    if kind == "rShowAll" {
      var rs := SetAllRasters(s.rasters, true);
      assert rs[0] in Ticked(rs);
    }
  }

  /** Toggling a raster twice restores the list and the rule. */
  lemma ToggleRasterTwice(s: Lists, index: int)
    requires s.hasMosaic && 0 <= index < |s.rasters|
    ensures var once := RasterAction(s, "rToggel", index).value;
      RasterAction(once, "rToggel", index) == Some(s.(rule := RuleOf(s.rasters)))
  {
    var once := RasterAction(s, "rToggel", index).value;
    assert ToggleRaster(once.rasters, index) == s.rasters;
  }

  /** Showing all lists every raster in the rule. */
  lemma ShowAllShowsEveryRaster(s: Lists)
    requires s.hasMosaic && |s.rasters| > 0
    ensures RasterAction(s, "rShowAll", -1).value.rule == MosaicWhere(Ids(s.rasters))
  {
    var rs := SetAllRasters(s.rasters, true);
    AllTicked(rs);
    assert Ids(rs) == Ids(s.rasters);
  }

  /** The ticked rasters keep list order: ticking distributes over concatenation. */
  lemma {:induction false} TickedAppend(a: seq<RasterItem>, b: seq<RasterItem>)
    ensures Ticked(a + b) == Ticked(a) + Ticked(b)
  {
    if a == [] {
      assert a + b == b;
    } else {
      assert (a + b)[1..] == a[1..] + b;
      TickedAppend(a[1..], b);
    }
  }

  /** One raster is in the ticked list exactly when it is ticked. */
  lemma TickedOne(it: RasterItem)
    ensures Ticked([it]) == if it.visible then [it] else []
  {
  }

  lemma {:induction false} AllTicked(rs: seq<RasterItem>)
    requires forall j :: 0 <= j < |rs| ==> rs[j].visible
    ensures Ticked(rs) == rs
  {
    if rs != [] {
      AllTicked(rs[1..]);
    }
  }
}

=== FILE: mapviewer_import.dfy ===
/**
 * `handleFiles` of the older (MapViewer) drag-and-drop importer: the same
 * guards as the newer one, `.zip` and `.kmz` both through the shapefile
 * converter, a separate alert for unparsable GeoJSON, and an alert (rather
 * than an empty list) for a result of an unknown shape.
 */
module MapViewerImport {
  import opened Wrappers
  import opened JsonValue
  import opened GeoJson
  import opened FileGuard
  import opened ImportOutcome
  import opened Geo
  import MapViewerKml
  import SpaceViewImport

  /** A FeatureCollection: `type` is the string "FeatureCollection" and `features` is truthy. */
  predicate IsCollection(json: Json) {
    !json.JNull? && IsString(Get(json, "type").value, "FeatureCollection") && Present(Get(json, "features").value)
  }

  /** Not a FeatureCollection, but both `type` and `coordinates` are truthy. */
  predicate IsBareGeometry(json: Json) {
    !json.JNull? && !IsCollection(json) && Present(Get(json, "type").value) && Present(Get(json, "coordinates").value)
  }

  /**
   * A FeatureCollection with truthy `features` gives the features' truthy
   * geometries; a bare `{type, coordinates}` gives itself; anything else
   * is not recognised (None). Reading `type` of `null`, a `null` feature
   * and non-array features throw.
   */
  function Recognise(json: Json): (r: Result<Option<seq<Json>>>)
    ensures json.JNull? ==> r.Failure?
    ensures r.Success? && r.value.Some? ==> forall i :: 0 <= i < |r.value.value| ==> Truthy(r.value.value[i])
    ensures IsCollection(json) ==> (r.Success? <==> FeatureGeometries(Get(json, "features").value).Success?)
    ensures IsCollection(json) && r.Success? ==> r.value == Some(FeatureGeometries(Get(json, "features").value).value)
    ensures IsBareGeometry(json) ==> r == Success(Some([json]))
    ensures !json.JNull? && !IsCollection(json) && !IsBareGeometry(json) ==> r == Success(None)
  {
    match Get(json, "type")
    case Failure(e) => Failure(e)
    case Success(t) =>
      var features := Get(json, "features").value;
      if IsString(t, "FeatureCollection") && Present(features) then
        match FeatureGeometries(features)
        case Success(gs) => Success(Some(gs))
        case Failure(e) => Failure(e)
      else if Present(t) && Present(Get(json, "coordinates").value) then Success(Some([json]))
      else Success(None)
  }

  /** The last check before `onChange`: an empty list is refused. */
  function Deliver(gs: seq<Imported>): (r: Outcome)
    ensures r.Changed? <==> gs != []
    ensures r.Changed? ==> r.geometries == gs
  {
    if gs == [] then Alerted(NoGeometry) else Changed(gs)
  }

  /** A recognised JSON result delivered, or `unknown` raised, or the read error of a throw. */
  function DeliverJson(read: Result<Option<seq<Json>>>, unknown: Alert): (r: Outcome)
    ensures read.Failure? ==> r == Alerted(ReadError)
    ensures read == Success(None) ==> r == Alerted(unknown)
    ensures read.Success? && read.value.Some? ==> (r.Changed? <==> read.value.value != [])
    ensures r.Changed? ==> r.geometries == SpaceViewImport.FromJsonAll(read.value.value)
  {
    match read
    case Failure(_) => Alerted(ReadError)
    case Success(None) => Alerted(unknown)
    case Success(Some(gs)) => Deliver(SpaceViewImport.FromJsonAll(gs))
  }

  /** The `.kml` branch: no geometries raise the KML alert, any others go to `onChange`. */
  function DeliverKml(gs: seq<Geometry>): (r: Outcome)
    ensures r == Alerted(NoKmlGeometry) <==> gs == []
    ensures r.Changed? <==> gs != []
    ensures r.Changed? ==> r.geometries == SpaceViewImport.FromKmlAll(gs)
  {
    if gs == [] then Alerted(NoKmlGeometry) else Deliver(SpaceViewImport.FromKmlAll(gs))
  }

  /**
   * `handleFiles(files)`: only the first file is read; the size guard
   * comes before the extension guard; `.zip` and `.kmz` go through the
   * shapefile converter, `.geojson` through `JSON.parse` and `.kml`
   * through the KML reader.
   */
  function HandleFiles(files: seq<DroppedFile>): (r: Outcome)
    ensures files == [] <==> r == NoFile
    ensures files != [] && files[0].size > MaxSize ==> r == Alerted(FileTooLarge)
    ensures files != [] && files[0].size <= MaxSize && !Allowed(Extension(files[0].name)) ==> r == Alerted(UnsupportedFormat)
    ensures files != [] && files[0].size <= MaxSize && Extension(files[0].name) in {"zip", "kmz"} ==>
              r == (if files[0].shapes.None? then Alerted(ReadError)
                    else DeliverJson(Recognise(files[0].shapes.value), NoValidGeometry))
    ensures files != [] && files[0].size <= MaxSize && Extension(files[0].name) == "geojson" ==>
              r == (if files[0].json.None? then Alerted(InvalidGeoJson)
                    else DeliverJson(Recognise(files[0].json.value), NoGeoJsonGeometry))
    ensures files != [] && files[0].size <= MaxSize && Extension(files[0].name) == "kml" ==>
              r == DeliverKml(MapViewerKml.ParseKml(files[0].kml))
    ensures r.Changed? ==> files[0].size <= MaxSize && Allowed(Extension(files[0].name)) && r.geometries != []
  {
    if files == [] then NoFile
    else
      var f := files[0];
      if f.size > MaxSize then Alerted(FileTooLarge)
      else
        var ext := Extension(f.name);
        if !Allowed(ext) then Alerted(UnsupportedFormat)
        else if ext == "zip" || ext == "kmz" then
          (if f.shapes.None? then Alerted(ReadError) else DeliverJson(Recognise(f.shapes.value), NoValidGeometry))
        else if ext == "geojson" then
          (if f.json.None? then Alerted(InvalidGeoJson) else DeliverJson(Recognise(f.json.value), NoGeoJsonGeometry))
        else
          DeliverKml(MapViewerKml.ParseKml(f.kml))
  }

  // ---------------------------------------------------------------------
  // Properties
  // ---------------------------------------------------------------------

  /** On a FeatureCollection, recognition gives the non-null geometries in order, like the newer importer. */
  lemma RecogniseFeatureCollection(gs: seq<Option<Json>>)
    ensures Recognise(FeatureCollection(gs)) == Success(Some(PresentGeometries(gs)))
  {
    var features := Some(JArray(Features(gs)));
    assert FeatureGeometries(features) == Success(PresentGeometries(gs)) by {
      GeometriesOfFeatures(gs);
    }
    FeatureCollectionMembers(gs);
    assert IsCollection(FeatureCollection(gs));
  }

  lemma FeatureCollectionMembers(gs: seq<Option<Json>>)
    ensures Get(FeatureCollection(gs), "type") == Success(Some(JString("FeatureCollection")))
    ensures Get(FeatureCollection(gs), "features") == Success(Some(JArray(Features(gs))))
  {
    LookupTwo("type", JString("FeatureCollection"), "features", JArray(Features(gs)));
  }

  /** A GeoJSON text that does not parse raises its own alert. */
  lemma InvalidGeoJsonAlert(f: DroppedFile)
    requires f.size <= MaxSize && Extension(f.name) == "geojson" && f.json.None?
    ensures HandleFiles([f]) == Alerted(InvalidGeoJson)
  {
  }

  /** A value that is neither a FeatureCollection nor a geometry raises the unknown-shape alert. */
  lemma UnknownShapeAlert(f: DroppedFile)
    requires f.size <= MaxSize && Extension(f.name) == "geojson"
    requires f.json == Some(JObject([]))
    ensures HandleFiles([f]) == Alerted(NoGeoJsonGeometry)
  {
  }

  /** Both importers treat a `.geojson` FeatureCollection file alike. */
  lemma ImportersAgreeOnFeatureCollections(f: DroppedFile, gs: seq<Option<Json>>)
    requires Extension(f.name) == "geojson"
    requires f.json == Some(FeatureCollection(gs))
    ensures HandleFiles([f]) == SpaceViewImport.HandleFiles([f])
  {
    RecogniseFeatureCollection(gs);
    NormaliseFeatureCollection(gs);
  }

  /** A `.kmz` file is read through the shapefile converter; if that throws, the read-error alert follows. */
  lemma KmzThroughConverter(f: DroppedFile)
    requires f.size <= MaxSize && Extension(f.name) == "kmz" && f.shapes.None?
    ensures HandleFiles([f]) == Alerted(ReadError)
  {
  }

  /** A `.kml` document with a `parsererror` raises the KML alert (the reader itself does not throw). */
  lemma BrokenKmlAlert(f: DroppedFile)
    requires f.size <= MaxSize && Extension(f.name) == "kml"
    requires XmlTree.QueryAll(f.kml, ["parsererror"]) != []
    ensures HandleFiles([f]) == Alerted(NoKmlGeometry)
  {
  }
}

=== FILE: mapviewer_kml.dfy ===
/**
 * The KML reader of the older (MapViewer) importer. It walks the
 * Placemarks with `getElementsByTagName` and reads, per Placemark, its
 * polygons (outer ring only), line strings and points from the first
 * `<coordinates>` element below each.
 *
 * Its polygon reader cuts the coordinate text into tuples at newlines or
 * runs of two or more spaces, and each tuple into fields with the
 * expression `\s*,\s*|`. The empty alternative makes that split cut
 * between every two characters, so `12,34` becomes the fields 1, 2, 3, 4
 * and reads as (1, 2). The reader uses `RingAsWritten`, which keeps that
 * behaviour; `Ring` splits fields at commas only, as evidently intended.
 */
module MapViewerKml {
  import opened Wrappers
  import opened JsText
  import opened JsNumber
  import opened Geo
  import opened XmlTree
  import opened RegexSplit
  import opened KmlCoordinates
  import opened KmlReader

  /** `x.getElementsByTagName("coordinates")[0]?.textContent?.trim()`. */
  function FirstCoordinatesText(x: Located): (r: Option<string>)
    ensures r.None? <==> QueryAll(x, ["coordinates"]) == []
    ensures r.Some? ==> QueryAll(x, ["coordinates"]) != [] && r.value == Trim(QueryAll(x, ["coordinates"])[0].el.text)
  {
    match QueryFirst(x, ["coordinates"])
    case None => None
    case Some(c) => Some(Trim(c.el.text))
  }

  // ---------------------------------------------------------------------
  // Polygon rings
  // ---------------------------------------------------------------------

  /** The pairs read from tuples whose fields `fieldBreak` cuts out. */
  function RingPairs(tuples: seq<string>, fieldBreak: Pattern): (r: seq<Coord>)
    ensures |r| <= |tuples|
    ensures AllReadable(r)
  {
    if tuples == [] then []
    else
      var c := PairOf(SplitBy(fieldBreak, Trim(tuples[0])));
      if c.Some? then [c.value] + RingPairs(tuples[1..], fieldBreak) else RingPairs(tuples[1..], fieldBreak)
  }

  /** The tuples of a ring's coordinate text: cut at newlines and at runs of two or more spaces. */
  function RingTuples(text: string): (ts: seq<string>)
    ensures forall i :: 0 <= i < |ts| ==> ts[i] != []
  {
    NonEmpty(SplitBy(TupleBreak, text))
  }

  /** The ring as the source reads it, fields cut by `\s*,\s*|`. */
  function RingAsWritten(text: string): (r: seq<Coord>)
    ensures AllReadable(r)
    ensures |r| <= |RingTuples(text)|
  {
    RingPairs(RingTuples(text), FieldBreakOrEmpty)
  }

  /** The ring with fields cut at commas (and the white space around them). */
  function Ring(text: string): (r: seq<Coord>)
    ensures AllReadable(r)
    ensures |r| <= |RingTuples(text)|
  {
    RingPairs(RingTuples(text), FieldBreak)
  }

  /** One `<Polygon>`: a single-ring polygon when the ring, read as written, has at least three pairs. */
  function PolygonOf(poly: Located): (r: Option<Geometry>)
    ensures r.Some? ==> r.value.Polygon? && |r.value.rings| == 1 && |r.value.rings[0]| >= 3 && WellFormed(r.value)
    ensures r.Some? <==> FirstCoordinatesText(poly).Some? && FirstCoordinatesText(poly).value != []
                         && |RingAsWritten(FirstCoordinatesText(poly).value)| >= 3
    ensures r.Some? ==> r.value.rings[0] == RingAsWritten(FirstCoordinatesText(poly).value)
  {
    match FirstCoordinatesText(poly)
    case None => None
    case Some(t) => if t != [] && |RingAsWritten(t)| >= 3 then Some(Polygon([RingAsWritten(t)])) else None
  }

  // ---------------------------------------------------------------------
  // Line strings and points: `split(",").map(Number)`, `[lon, lat]`
  // ---------------------------------------------------------------------

  /** `const [lon, lat] = text.split(",").map(Number)`: a missing `lat` is undefined, hence NaN. */
  function NumberPair(text: string): Coord {
    var parts := Split(text, ',');
    Coord(ToNumber(parts[0]), if |parts| >= 2 then ToNumber(parts[1]) else NaN)
  }

  /** The readable pairs of the white-space separated tuples of `text`, in order. */
  function LinePairs(tokens: seq<string>): (r: seq<Coord>)
    ensures |r| <= |tokens|
    ensures AllReadable(r)
  {
    if tokens == [] then []
    else
      var c := NumberPair(tokens[0]);
      var rest := LinePairs(tokens[1..]);
      if Readable(c) then ReadableCons(c, rest); [c] + rest else rest
  }

  lemma ReadableCons(c: Coord, rest: seq<Coord>)
    requires Readable(c) && AllReadable(rest)
    ensures AllReadable([c] + rest)
  {
  }

  /** One `<LineString>`: kept with at least two readable pairs. */
  function LineOf(line: Located): (r: Option<Geometry>)
    ensures r.Some? ==> r.value.LineString? && WellFormed(r.value)
    ensures r.Some? <==> FirstCoordinatesText(line).Some? && FirstCoordinatesText(line).value != []
                         && |LinePairs(Tokens(FirstCoordinatesText(line).value))| >= 2
    ensures r.Some? ==> r.value.path == LinePairs(Tokens(FirstCoordinatesText(line).value))
  {
    match FirstCoordinatesText(line)
    case None => None
    case Some(t) =>
      var cs := LinePairs(Tokens(t));
      if t != [] && |cs| >= 2 then Some(LineString(cs)) else None
  }

  /** One `<Point>`: kept when both numbers are readable. */
  function PointOf(point: Located): (r: Option<Geometry>)
    ensures r.Some? ==> r.value.Point? && WellFormed(r.value)
    ensures r.Some? <==> FirstCoordinatesText(point).Some? && FirstCoordinatesText(point).value != []
                         && Readable(NumberPair(FirstCoordinatesText(point).value))
    ensures r.Some? ==> r.value.at == NumberPair(FirstCoordinatesText(point).value)
  {
    match FirstCoordinatesText(point)
    case None => None
    case Some(t) => if t != [] && Readable(NumberPair(t)) then Some(Point(NumberPair(t))) else None
  }

  // ---------------------------------------------------------------------
  // Document
  // ---------------------------------------------------------------------

  /** The geometry of kind 0 (polygon), 1 (line string) or 2 (point) read from one element. */
  function Read(x: Located, kind: nat): (r: Option<Geometry>)
    requires kind < 3
    ensures r.Some? ==> Rank(r.value) == kind && WellFormed(r.value)
  {
    if kind == 0 then PolygonOf(x) else if kind == 1 then LineOf(x) else PointOf(x)
  }

  /** The geometries of one kind read from each element, the absent results dropped. */
  function Collect(xs: seq<Located>, kind: nat): (r: seq<Geometry>)
    requires kind < 3
    ensures |r| <= |xs|
    ensures OfKind(r, kind)
  {
    if xs == [] then []
    else
      var g := Read(xs[0], kind);
      var rest := Collect(xs[1..], kind);
      if g.Some? then OfKindCons(g.value, rest, kind); [g.value] + rest else rest
  }

  /**
   * One Placemark: its polygons, then its line strings, then its points,
   * each kind read from every element of that tag below the Placemark.
   */
  function PlacemarkGeometries(p: Located): (r: seq<Geometry>)
    ensures AllWellFormed(r)
    ensures KindOrdered(r)
    ensures OfRank(r, 0) == Collect(QueryAll(p, ["Polygon"]), 0)
    ensures OfRank(r, 1) == Collect(QueryAll(p, ["LineString"]), 1)
    ensures OfRank(r, 2) == Collect(QueryAll(p, ["Point"]), 2)
  {
    var polygons := Collect(QueryAll(p, ["Polygon"]), 0);
    var lines := Collect(QueryAll(p, ["LineString"]), 1);
    var points := Collect(QueryAll(p, ["Point"]), 2);
    KindOrderedConcat(polygons, lines, points);
    Sections(polygons, lines, points);
    polygons + lines + points
  }

  function PlacemarksGeometries(ps: seq<Located>): (r: seq<Geometry>)
    ensures AllWellFormed(r)
  {
    if ps == [] then [] else PlacemarkGeometries(ps[0]) + PlacemarksGeometries(ps[1..])
  }

  /** `parseKML`: a document with a `parsererror` element gives no geometries (no exception). */
  function ParseKml(doc: Located): (r: seq<Geometry>)
    ensures QueryAll(doc, ["parsererror"]) != [] ==> r == []
    ensures QueryAll(doc, ["parsererror"]) == [] ==> r == PlacemarksGeometries(QueryAll(doc, ["Placemark"]))
    ensures AllWellFormed(r)
  {
    if QueryAll(doc, ["parsererror"]) != [] then []
    else PlacemarksGeometries(QueryAll(doc, ["Placemark"]))
  }

  // ---------------------------------------------------------------------
  // What the reader keeps: elements are read one at a time, in order
  // ---------------------------------------------------------------------

  lemma {:induction false} CollectAppend(a: seq<Located>, b: seq<Located>, kind: nat)
    requires kind < 3
    ensures Collect(a + b, kind) == Collect(a, kind) + Collect(b, kind)
  {
    if a != [] {
      assert (a + b)[0] == a[0];
      assert (a + b)[1..] == a[1..] + b;
      CollectAppend(a[1..], b, kind);
      if Read(a[0], kind).Some? {
        ConcatAssoc([Read(a[0], kind).value], Collect(a[1..], kind), Collect(b, kind));
      }
    } else {
      assert a + b == b;
    }
  }

  /** An element gives a geometry of its kind exactly when its reader keeps it. */
  lemma CollectOne(x: Located, kind: nat)
    requires kind < 3
    ensures Collect([x], kind) == if Read(x, kind).Some? then [Read(x, kind).value] else []
  {
  }

  /** Placemarks are read one after the other, in document order. */
  lemma {:induction false} PlacemarksAppend(a: seq<Located>, b: seq<Located>)
    ensures PlacemarksGeometries(a + b) == PlacemarksGeometries(a) + PlacemarksGeometries(b)
  {
    if a != [] {
      assert (a + b)[0] == a[0];
      assert (a + b)[1..] == a[1..] + b;
      PlacemarksAppend(a[1..], b);
      assert PlacemarksGeometries(a) == PlacemarkGeometries(a[0]) + PlacemarksGeometries(a[1..]);
      ConcatAssoc(PlacemarkGeometries(a[0]), PlacemarksGeometries(a[1..]), PlacemarksGeometries(b));
    } else {
      assert a + b == b;
    }
  }

  lemma PlacemarksOne(p: Located)
    ensures PlacemarksGeometries([p]) == PlacemarkGeometries(p)
  {
  }

  // ---------------------------------------------------------------------
  // Reading back written coordinates
  // ---------------------------------------------------------------------

  /** A ring's coordinate text for integer pairs: one `lon,lat` tuple per line. */
  function RingText(ps: seq<(int, int)>): string {
    Join(TuplesText(ps), "\n")
  }

  lemma TupleFields(p: (int, int))
    ensures SplitBy(FieldBreak, Trim(TupleText(p, []))) == Split(TupleText(p, []), ',')
  {
    var t := TupleText(p, []);
    TupleTextIsToken(p);
    TrimNoWhiteSpace(t);
    FieldBreakOnlyCommas(t);
    SplitByAsSplit(FieldBreak, t, ',');
  }

  lemma {:induction false} RingPairsOfTuples(ps: seq<(int, int)>)
    ensures RingPairs(TuplesText(ps), FieldBreak) == IntCoords(ps)
  {
    if ps != [] {
      TupleFields(ps[0]);
      TupleCoordOfInts(ps[0], []);
      assert TuplesText(ps)[1..] == TuplesText(ps[1..]);
      RingPairsOfTuples(ps[1..]);
    }
  }

  /** With fields cut at commas, a ring written one tuple per line reads back as its pairs, in order. */
  lemma RingRoundTrip(ps: seq<(int, int)>)
    ensures Ring(RingText(ps)) == IntCoords(ps)
  {
    var ts := TuplesText(ps);
    forall i | 0 <= i < |ts|
      ensures ts[i] != [] && NoWhiteSpace(ts[i]) && '\n' !in ts[i]
    {
      TupleTextIsToken(ps[i]);
    }
    RingPairsOfTuples(ps);
    if ps != [] {
      JoinedLinesShape(ts);
      TupleBreakOnlyNewlines(RingText(ps));
      SplitByAsSplit(TupleBreak, RingText(ps), '\n');
      SplitJoin(ts, '\n');
      NonEmptyKeepsAll(ts);
    }
  }

  /** The number fields of an integer tuple read back as the pair. */
  lemma NumberPairOfInts(p: (int, int))
    ensures NumberPair(TupleText(p, [])) == IntCoord(p)
  {
    var fields := [IntToString(p.0), IntToString(p.1)];
    IntToStringNoComma(p.0);
    IntToStringNoComma(p.1);
    assert fields + [] == fields;
    SplitJoin(fields, ',');
    ToNumberOfString(p.0);
    ToNumberOfString(p.1);
  }

  lemma LinePairsCons(tokens: seq<string>, c: Coord)
    requires tokens != [] && NumberPair(tokens[0]) == c && Readable(c)
    ensures LinePairs(tokens) == [c] + LinePairs(tokens[1..])
  {
  }

  lemma {:induction false} LinePairsOfTuples(ps: seq<(int, int)>)
    ensures LinePairs(TuplesText(ps)) == IntCoords(ps)
  {
    if ps != [] {
      NumberPairOfInts(ps[0]);
      LinePairsCons(TuplesText(ps), IntCoord(ps[0]));
      assert TuplesText(ps)[1..] == TuplesText(ps[1..]);
      LinePairsOfTuples(ps[1..]);
    }
  }

  /** A line's coordinate text (tuples separated by spaces) reads back as its pairs, in order. */
  lemma LineRoundTrip(ps: seq<(int, int)>)
    ensures LinePairs(Tokens(CoordinatesText(ps))) == IntCoords(ps)
  {
    var ts := TuplesText(ps);
    forall i | 0 <= i < |ts|
      ensures ts[i] != [] && NoWhiteSpace(ts[i])
    {
      TupleTextIsToken(ps[i]);
    }
    TokensOfJoin(ts);
    LinePairsOfTuples(ps);
  }

  // ---------------------------------------------------------------------
  // The field split as written
  // ---------------------------------------------------------------------

  const Sample := "12,34"

  // The steps below take any string of the sample's shape (two plain
  // characters, a comma, two plain characters) so that the verifier
  // follows the splitting loop one step at a time.

  /** Neither white space nor a comma: the field pattern only matches empty before it. */
  predicate Plain(c: char) {
    !IsWhiteSpace(c) && c != ','
  }

  predicate SampleShape(s: string) {
    |s| == 5 && s[2] == ',' && Plain(s[0]) && Plain(s[1]) && Plain(s[3]) && Plain(s[4])
  }

  lemma EmptyMatchBefore(s: string, q: nat)
    requires q < |s| && Plain(s[q])
    ensures MatchEnd(FieldBreakOrEmpty, s, q) == Some(q)
  {
    assert SpaceRun(s, q) == 0;
  }

  lemma SampleMatchAtComma(s: string)
    requires SampleShape(s)
    ensures MatchEnd(FieldBreakOrEmpty, s, 2) == Some(3)
  {
    assert SpaceRun(s, 2) == 0;
    assert SpaceRun(s, 3) == 0;
  }

  /** An empty match at the piece start, then a match ending at e: the piece is one character. */
  lemma SplitOneChar(pat: Pattern, s: string, p: nat, e: nat)
    requires p + 1 < |s|
    requires MatchEnd(pat, s, p) == Some(p) && MatchEnd(pat, s, p + 1) == Some(e)
    ensures SplitFrom(pat, s, p, p) == [s[p..p + 1]] + SplitFrom(pat, s, e, e)
  {
    SplitFromAdvance(pat, s, p, p);
    SplitFromMatch(pat, s, p, p + 1, e);
  }

  lemma SampleFieldsFrom3(s: string)
    requires SampleShape(s)
    ensures SplitFrom(FieldBreakOrEmpty, s, 3, 3) == [s[3..4], s[4..]]
  {
    EmptyMatchBefore(s, 3);
    EmptyMatchBefore(s, 4);
    SplitOneChar(FieldBreakOrEmpty, s, 3, 4);
    SplitFromAdvance(FieldBreakOrEmpty, s, 4, 4);
    SplitFromEnd(FieldBreakOrEmpty, s, 4);
  }

  lemma SampleFieldsFrom0(s: string)
    requires SampleShape(s)
    ensures SplitFrom(FieldBreakOrEmpty, s, 0, 0) == [s[0..1], s[1..2], s[3..4], s[4..]]
  {
    EmptyMatchBefore(s, 0);
    EmptyMatchBefore(s, 1);
    SampleMatchAtComma(s);
    SplitOneChar(FieldBreakOrEmpty, s, 0, 1);
    SplitOneChar(FieldBreakOrEmpty, s, 1, 3);
    SampleFieldsFrom3(s);
  }

  /** As written, the field split cuts `12,34` into single characters. */
  lemma SampleFieldsAsWritten()
    ensures SplitBy(FieldBreakOrEmpty, Sample) == ["1", "2", "3", "4"]
  {
    SampleHasShape();
    SampleFieldsFrom0(Sample);
    SampleSlices();
  }

  lemma SampleHasShape()
    ensures SampleShape(Sample)
  {
  }

  lemma SampleSlices()
    ensures Sample[0..1] == "1" && Sample[1..2] == "2" && Sample[3..4] == "3" && Sample[4..] == "4"
  {
  }

  lemma SampleIsOneTuple()
    ensures RingTuples(Sample) == [Sample]
  {
    assert NoWhiteSpace(Sample);
    assert LoneNewlines(Sample);
    TupleBreakOnlyNewlines(Sample);
    SplitByAsSplit(TupleBreak, Sample, '\n');
    SplitNoSep(Sample, '\n');
  }

  lemma SampleIsRingText()
    ensures RingText([(12, 34)]) == Sample
  {
    assert IntToString(12) == "12" && IntToString(34) == "34";
    TupleTextOfPair((12, 34));
    assert TupleText((12, 34), []) == Sample;
    var ts := TuplesText([(12, 34)]);
    assert |ts| == 1 && ts[0] == TupleText((12, 34), []);
    assert ts == [Sample];
  }

  lemma PairOfInts(fields: seq<string>, a: int, b: int)
    requires |fields| >= 2 && fields[0] == IntToString(a) && fields[1] == IntToString(b)
    ensures PairOf(fields) == Some(IntCoord((a, b)))
  {
    ParseFloatOfString(a);
    ParseFloatOfString(b);
  }

  lemma SamplePairAsWritten()
    ensures PairOf(SplitBy(FieldBreakOrEmpty, Trim(Sample))) == Some(IntCoord((1, 2)))
  {
    assert NoWhiteSpace(Sample);
    TrimNoWhiteSpace(Sample);
    var fields := SplitBy(FieldBreakOrEmpty, Sample);
    SampleFieldsAsWritten();
    assert IntToString(1) == "1" && IntToString(2) == "2";
    PairOfInts(fields, 1, 2);
  }

  lemma RingPairsOne(t: string, pat: Pattern, c: Coord)
    requires PairOf(SplitBy(pat, Trim(t))) == Some(c)
    ensures RingPairs([t], pat) == [c]
  {
  }

  lemma SampleAsWritten()
    ensures RingAsWritten(Sample) == [IntCoord((1, 2))]
  {
    SampleIsOneTuple();
    SamplePairAsWritten();
    RingPairsOne(Sample, FieldBreakOrEmpty, IntCoord((1, 2)));
  }

  /**
   * The ring written for the single pair (12, 34) reads back as (1, 2) as
   * written, and as (12, 34) with fields cut at commas.
   */
  lemma RingAsWrittenMisreads()
    ensures RingText([(12, 34)]) == Sample
    ensures RingAsWritten(Sample) == [IntCoord((1, 2))]
    ensures Ring(Sample) == [IntCoord((12, 34))]
  {
    SampleIsRingText();
    SampleAsWritten();
    RingRoundTrip([(12, 34)]);
  }
}

=== FILE: month_grid.dfy ===
/**
 * The 42-cell month grid both date pickers draw: six Monday-first weeks,
 * the tail of the previous month, the days of the month, then the head
 * of the next month. Both widgets run the same loop with a running day
 * counter; `Layout` is that loop and `CellAt` its closed form.
 */
module MonthGrid {
  import opened CivilDate

  /** The popups' three views: the day grid, the month list and the year list. */
  datatype Mode = Days | Months | Years

  /** The header click: days, months, years, and back to days. */
  function NextMode(m: Mode): (r: Mode)
    ensures r != m
  {
    match m
    case Days => Months
    case Months => Years
    case Years => Days
  }

  datatype Part = Previous | Current | Next

  /** A cell's day of month and which of the three months it belongs to. */
  datatype GridCell = GridCell(day: int, part: Part)

  const GridSize := 42

  /** `(new Date(y, m, 1).getDay() + 6) % 7`: the number of leading cells. */
  function StartColumn(y: int, m: int): (c: int)
    ensures 0 <= c < 7
  {
    MondayColumn(DayNumber(y, m, 1))
  }

  /** Cell `i` of the grid of month `m` of year `y`. */
  function CellAt(y: int, m: int, i: int): GridCell {
    var start := StartColumn(y, m);
    var n := MonthLength(y, m);
    if i < start then GridCell(MonthLength(y, m - 1) - (start - 1 - i), Previous)
    else if i - start + 1 <= n then GridCell(i - start + 1, Current)
    else GridCell(i - start + 1 - n, Next)
  }

  /** The grid as the widgets build it: one pass over the 42 positions with a day counter. */
  method Layout(y: int, m: int) returns (cells: seq<GridCell>)
    ensures |cells| == GridSize
    ensures forall i :: 0 <= i < GridSize ==> cells[i] == CellAt(y, m, i)
  {
    var start := StartColumn(y, m);
    var n := MonthLength(y, m);
    var prev := MonthLength(y, m - 1);
    var counter := 1;
    cells := [];
    for i := 0 to GridSize
      invariant |cells| == i
      invariant forall k :: 0 <= k < i ==> cells[k] == CellAt(y, m, k)
      invariant counter == if i <= start then 1 else i - start + 1
    {
      if i < start {
        cells := cells + [GridCell(prev - (start - 1 - i), Previous)];
      } else if counter <= n {
        cells := cells + [GridCell(counter, Current)];
        counter := counter + 1;
      } else {
        cells := cells + [GridCell(counter - n, Next)];
        counter := counter + 1;
      }
    }
  }

  /** The day number a cell stands for: its day within the previous, this or the next month. */
  function CellDate(y: int, m: int, c: GridCell): int {
    match c.part
    case Previous => DayNumber(y, m - 1, c.day)
    case Current => DayNumber(y, m, c.day)
    case Next => DayNumber(y, m + 1, c.day)
  }

  // ---------------------------------------------------------------------
  // Properties
  // ---------------------------------------------------------------------

  /** The days of the month fill the cells from `StartColumn` on, 1 to the month's length in order, all within the grid. */
  lemma CurrentRun(y: int, m: int)
    ensures StartColumn(y, m) + MonthLength(y, m) <= GridSize
    ensures forall i :: StartColumn(y, m) <= i < StartColumn(y, m) + MonthLength(y, m) ==>
      CellAt(y, m, i) == GridCell(i - StartColumn(y, m) + 1, Current)
    ensures forall i :: 0 <= i < GridSize && CellAt(y, m, i).part == Current ==>
      StartColumn(y, m) <= i < StartColumn(y, m) + MonthLength(y, m)
  {
  }

  /** The leading cells end with the last day of the previous month; the trailing cells count up from 1. */
  lemma Neighbours(y: int, m: int)
    ensures forall i :: 0 <= i < StartColumn(y, m) ==>
      CellAt(y, m, i).part == Previous && CellAt(y, m, i).day == MonthLength(y, m - 1) - (StartColumn(y, m) - 1 - i)
    ensures forall i :: StartColumn(y, m) + MonthLength(y, m) <= i < GridSize ==>
      CellAt(y, m, i) == GridCell(i - StartColumn(y, m) - MonthLength(y, m) + 1, Next)
  {
  }

  /** Cell `i` stands for the day `i - StartColumn` days after the first of the month. */
  lemma CellDates(y: int, m: int, i: int)
    ensures CellDate(y, m, CellAt(y, m, i)) == DayNumber(y, m, 1) - StartColumn(y, m) + i
  {
    var start := StartColumn(y, m);
    if i < start {
      FirstDayFollowsLastDay(y, m);
    } else if i - start + 1 > MonthLength(y, m) {
      DayZeroIsLastDay(y, m);
    }
  }

  lemma ColumnIsShiftedDay(x: int)
    ensures MondayColumn(x) == (x + 3) % 7
  {
    var w := (x + 4) % 7;
    assert x + 4 == 7 * ((x + 4) / 7) + w;
    assert x + 3 == 7 * ((x + 4) / 7) + (w - 1);
  }

  lemma WholeWeeks(q: int, i: int)
    ensures (7 * q + i) % 7 == i % 7
  {
    assert 7 * q + i == 7 * (q + i / 7) + i % 7;
  }

  /** The weekday column of the day cell `i` stands for is `i % 7`. */
  lemma CellColumn(y: int, m: int, i: int)
    ensures MondayColumn(CellDate(y, m, CellAt(y, m, i))) == i % 7
  {
    var first := DayNumber(y, m, 1);
    var start := StartColumn(y, m);
    ColumnIsShiftedDay(first);
    var q := (first + 3) / 7;
    assert first + 3 == 7 * q + start;
    CellDates(y, m, i);
    ColumnIsShiftedDay(first - start + i);
    assert first - start + i + 3 == 7 * q + i;
    WholeWeeks(q, i);
  }

  /** The grid is six whole weeks of consecutive days: successive cells are successive days, and each cell's weekday column is its column in the grid. */
  lemma GridIsConsecutiveWeeks(y: int, m: int)
    ensures forall i :: 0 <= i < GridSize - 1 ==>
      CellDate(y, m, CellAt(y, m, i + 1)) == CellDate(y, m, CellAt(y, m, i)) + 1
    ensures forall i :: 0 <= i < GridSize ==> MondayColumn(CellDate(y, m, CellAt(y, m, i))) == i % 7
  {
    forall i | 0 <= i < GridSize - 1
      ensures CellDate(y, m, CellAt(y, m, i + 1)) == CellDate(y, m, CellAt(y, m, i)) + 1
    {
      CellDates(y, m, i);
      CellDates(y, m, i + 1);
    }
    forall i | 0 <= i < GridSize
      ensures MondayColumn(CellDate(y, m, CellAt(y, m, i))) == i % 7
    {
      CellColumn(y, m, i);
    }
  }

  /** Three header clicks bring the mode back. */
  lemma ModeCycle(m: Mode)
    ensures NextMode(NextMode(NextMode(m))) == m
  {
  }
}

=== FILE: quake_table.dfy ===
/**
 * The earthquake table widget: the sort selector, the request URL built
 * from the filter object, the page buttons, the row numbering and row
 * striping, and the columns shown (the configured fields whose `use` is
 * set). The fetch itself and the map are outside the model: the number of
 * records the service reports is a field of the table state.
 */
module QuakeTable {
  import opened Wrappers
  import opened JsText
  import opened JsNumber
  import opened FieldSettings

  // ---------------------------------------------------------------------
  // Sorting
  // ---------------------------------------------------------------------

  datatype SortKey = DatetimeDesc | DatetimeAsc | MagnitudeDesc | MagnitudeAsc {

    /** The value sent as the `sort` query parameter. */
    function Text(): string {
      match this
      case DatetimeDesc => "datetime_desc"
      case DatetimeAsc => "datetime_asc"
      case MagnitudeDesc => "magnitude_desc"
      case MagnitudeAsc => "magnitude_asc"
    }
  }

  /** The option of the sort selector that stands for `k`. */
  function SortLabel(k: SortKey): string {
    match k
    case DatetimeDesc => "Eng yangi"
    case DatetimeAsc => "Eng eski"
    case MagnitudeDesc => "Eng kuchli"
    case MagnitudeAsc => "Eng kuchsiz"
  }

  /** The options of the sort selector, in display order. */
  const SortLabels: seq<string> := ["Eng yangi", "Eng eski", "Eng kuchli", "Eng kuchsiz"]

  /** The sort key a selected option switches to; an unknown option means newest first. */
  function SortKeyOf(option: string): (k: SortKey)
    ensures option in SortLabels ==> SortLabel(k) == option
    ensures option !in SortLabels ==> k == DatetimeDesc
  {
    if option == "Eng yangi" then DatetimeDesc
    else if option == "Eng eski" then DatetimeAsc
    else if option == "Eng kuchli" then MagnitudeDesc
    else if option == "Eng kuchsiz" then MagnitudeAsc
    else DatetimeDesc
  }

  /** Every key is reachable: selecting its option selects it. */
  lemma SortLabelRoundTrip(k: SortKey)
    ensures SortLabel(k) in SortLabels
    ensures SortKeyOf(SortLabel(k)) == k
  {
  }

  /** The four sort keys send four different query values. */
  lemma SortTextsDistinct(a: SortKey, b: SortKey)
    ensures a.Text() == b.Text() <==> a == b
  {
    if a != b {
      assert a.Text()[0] != b.Text()[0] || |a.Text()| != |b.Text()|;
    }
  }

  // ---------------------------------------------------------------------
  // Pages
  // ---------------------------------------------------------------------

  /** Records per page; the filter object never changes it. */
  const PerPage := 10

  /** The number of the page that holds the last of `total` records (1 when there are none). */
  function LastPage(total: nat): (n: int)
    ensures n >= 1
    ensures total <= n * PerPage
    ensures n == 1 || (n - 1) * PerPage < total
  {
    if total == 0 then 1 else (total + PerPage - 1) / PerPage
  }

  /** The previous-page button. */
  function PrevPage(page: int): (r: int)
    ensures r >= 1
    ensures r <= page || page < 1
    ensures page > 1 ==> r == page - 1
  {
    if page - 1 < 1 then 1 else page - 1
  }

  /**
   * The next-page button, stopping at the last page. The source compares
   * with `total / per_page` instead (see NextPageAsWritten).
   */
  function NextPage(page: int, total: nat): (r: int)
    ensures r <= LastPage(total)
    ensures page >= 0 ==> r >= 1
    ensures page < LastPage(total) ==> r == page + 1
    ensures page >= LastPage(total) ==> r == LastPage(total)
  {
    if page + 1 > LastPage(total) then LastPage(total) else page + 1
  }

  /** The next-page button as written: the bound is the fraction `total / per_page`. */
  function NextPageAsWritten(page: real, total: nat): (r: real)
    ensures r <= total as real / PerPage as real
    ensures page + 1.0 <= total as real / PerPage as real ==> r == page + 1.0
  {
    var bound := total as real / PerPage as real;
    if page + 1.0 > bound then bound else page + 1.0
  }

  /**
   * With 15 records the second page holds records 11 to 15, but the
   * button as written moves from page 1 to page 1.5; with 5 records it
   * moves from page 1 to page 0.5, below the first page.
   */
  lemma NextPageAsWrittenMissesLastPage()
    ensures NextPageAsWritten(1.0, 15) == 1.5 && NextPage(1, 15) == 2 == LastPage(15)
    ensures NextPageAsWritten(1.0, 5) == 0.5 && NextPage(1, 5) == 1
  {
  }

  /** Previous then next returns to the page, from any page after the first up to the last. */
  lemma NextUndoesPrev(page: int, total: nat)
    requires 1 < page <= LastPage(total)
    ensures NextPage(PrevPage(page), total) == page
  {
  }

  /** Next then previous returns to the page, from any page before the last. */
  lemma PrevUndoesNext(page: int, total: nat)
    requires 1 <= page < LastPage(total)
    ensures PrevPage(NextPage(page, total)) == page
  {
  }

  /** A page between the first and the last stays there under both buttons. */
  lemma ButtonsKeepPageInRange(page: int, total: nat)
    requires 1 <= page <= LastPage(total)
    ensures 1 <= PrevPage(page) <= LastPage(total)
    ensures 1 <= NextPage(page, total) <= LastPage(total)
  {
  }

  /** The numbered page buttons, shown only while the page is at most 4. */
  function PageButtons(page: int): (bs: seq<int>)
    ensures page <= 4 ==> |bs| == 5 && forall i :: 0 <= i < 5 ==> bs[i] == i + 1
    ensures page > 4 ==> bs == []
  {
    if page <= 4 then [1, 2, 3, 4, 5] else []
  }

  /** When the buttons are shown, the one highlighted is the current page, if the page is a button at all. */
  lemma HighlightedButton(page: int)
    requires page <= 4
    ensures page in PageButtons(page) <==> 1 <= page
    ensures forall i :: 0 <= i < |PageButtons(page)| ==> (PageButtons(page)[i] == page <==> i == page - 1)
  {
  }

  // ---------------------------------------------------------------------
  // Rows
  // ---------------------------------------------------------------------

  /** The number shown in front of the `index`-th row of `page`. */
  function RowNumber(page: int, index: nat): int {
    1 + index + (page - 1) * PerPage
  }

  /** The rows of a page carry the numbers after those of the pages before it. */
  lemma RowNumbersOfPage(page: int, index: nat)
    requires index < PerPage
    ensures (page - 1) * PerPage < RowNumber(page, index) <= page * PerPage
  {
  }

  /** The row number determines page and index: numbering is one-to-one across pages. */
  lemma RowNumberDecodes(page: int, index: nat)
    requires index < PerPage
    ensures (RowNumber(page, index) - 1) / PerPage + 1 == page
    ensures (RowNumber(page, index) - 1) % PerPage == index
  {
    var n := RowNumber(page, index) - 1;
    assert n == (page - 1) * PerPage + index;
    DivModOfSum(page - 1, index);
  }

  lemma DivModOfSum(q: int, r: nat)
    requires r < PerPage
    ensures (q * PerPage + r) / PerPage == q && (q * PerPage + r) % PerPage == r
  {
  }

  /** The last row of a page and the first row of the next carry consecutive numbers. */
  lemma RowNumbersContinue(page: int)
    ensures RowNumber(page, PerPage - 1) + 1 == RowNumber(page + 1, 0)
  {
  }

  /** A row takes the `…Even` colours when `index & 1` is set, i.e. when its index is odd. */
  predicate EvenStyled(index: nat) {
    index % 2 == 1
  }

  /** Since a page holds an even number of rows, the `…Even` colours go to the rows with even numbers. */
  lemma EvenStyleMatchesNumber(page: int, index: nat)
    ensures EvenStyled(index) <==> RowNumber(page, index) % 2 == 0
  {
    var half, odd := index / 2, index % 2;
    assert index == 2 * half + odd;
    var k, b := 5 * (page - 1) + half + odd, 1 - odd;
    assert RowNumber(page, index) == 2 * k + b;
    Parity(k, b);
  }

  lemma Parity(k: int, b: int)
    requires 0 <= b < 2
    ensures (2 * k + b) % 2 == b
  {
  }

  // ---------------------------------------------------------------------
  // Columns
  // ---------------------------------------------------------------------

  /** JavaScript truthiness of a setting value. */
  predicate Truthy(v: Value) {
    match v
    case Text(s) => s != []
    case Flag(b) => b
    case Number(n) => !n.NaN? && n != Num(0.0)
    case Undefined => false
  }

  /** A setting whose `use` is truthy is shown. */
  predicate Used(f: Field) {
    "use" in f && Truthy(f["use"])
  }

  /** The shown columns: the used settings, in order. */
  function Columns(fs: seq<Field>): (r: seq<Field>)
    ensures |r| <= |fs|
    ensures forall f :: f in r <==> f in fs && Used(f)
  {
    if fs == [] then [] else (if Used(fs[0]) then [fs[0]] else []) + Columns(fs[1..])
  }

  /** The configuration effect: a missing or empty list keeps the columns shown before. */
  function Configure(shown: seq<Field>, fields: Option<seq<Field>>): (r: seq<Field>)
    ensures fields.Some? && fields.value != [] ==> forall f :: f in r <==> f in fields.value && Used(f)
    ensures fields.Some? && fields.value != [] ==> r == Columns(fields.value)
    ensures fields.None? || fields.value == [] ==> r == shown
  {
    if fields.Some? && |fields.value| > 0 then Columns(fields.value) else shown
  }

  /** Filtering keeps order: the columns of two lists one after the other are the columns of each. */
  lemma {:induction false} ColumnsOfAppend(a: seq<Field>, b: seq<Field>)
    ensures Columns(a + b) == Columns(a) + Columns(b)
  {
    if a == [] {
      assert a + b == b;
    } else {
      assert (a + b)[1..] == a[1..] + b;
      ColumnsOfAppend(a[1..], b);
    }
  }

  /** When every setting is used, every setting is shown, in its place. */
  lemma {:induction false} AllUsedAllShown(fs: seq<Field>)
    requires forall i :: 0 <= i < |fs| ==> Used(fs[i])
    ensures Columns(fs) == fs
  {
    if fs != [] {
      AllUsedAllShown(fs[1..]);
    }
  }

  /** The default settings show every attribute, in key order. */
  lemma DefaultsAllShown(keys: seq<string>)
    ensures Columns(DefaultFields(keys)) == DefaultFields(keys)
  {
    AllUsedAllShown(DefaultFields(keys));
  }

  /** Filtering twice is filtering once. */
  lemma ColumnsIdempotent(fs: seq<Field>)
    ensures Columns(Columns(fs)) == Columns(fs)
  {
    var r := Columns(fs);
    forall i | 0 <= i < |r| ensures Used(r[i]) {
      assert r[i] in r;
    }
    AllUsedAllShown(r);
  }

  // ---------------------------------------------------------------------
  // The request
  // ---------------------------------------------------------------------

  const Endpoint := "https://api.smrm.uz/api/earthquakes"

  /** The parts of the filter object the widget changes; the others keep their initial values. */
  datatype QueryFilter = QueryFilter(sort: SortKey, page: int)

  /** The filter object's entries as text, in declaration order. */
  function Entries(f: QueryFilter): (es: seq<(string, string)>)
    ensures |es| == 15
    ensures es[0] == ("sort", f.sort.Text()) && es[14] == ("page", IntToString(f.page))
  {
    [("sort", f.sort.Text()),
     ("epicenter", ""),
     ("from_date", ""),
     ("to_date", ""),
     ("from_magnitude", ""),
     ("to_magnitude", ""),
     ("from_depth", ""),
     ("to_depth", ""),
     ("from_latitude", ""),
     ("to_latitude", ""),
     ("from_longitude", ""),
     ("to_longitude", ""),
     ("uzb", IntToString(1)),
     ("per_page", IntToString(PerPage)),
     ("page", IntToString(f.page))]
  }

  /** `key=value` for each entry, joined by '&'. */
  function QueryString(es: seq<(string, string)>): string {
    Join(Pairs(es), "&")
  }

  function Pairs(es: seq<(string, string)>): (ps: seq<string>)
    ensures |ps| == |es|
    ensures forall i :: 0 <= i < |es| ==> ps[i] == es[i].0 + "=" + es[i].1
  {
    seq(|es|, i requires 0 <= i < |es| => es[i].0 + "=" + es[i].1)
  }

  /** The request URL of `filterData`. */
  function RequestUrl(f: QueryFilter): (u: string)
    ensures StartsWith(u, Endpoint + "?")
  {
    Endpoint + "?" + QueryString(Entries(f))
  }

  /** A `key=value` piece cut at its first '='. */
  function SplitPair(s: string): (p: (string, string))
    ensures p.0 + "=" + p.1 == s || ('=' !in s && p == (s, ""))
  {
    if s == [] then ("", "")
    else if s[0] == '=' then ("", s[1..])
    else
      var rest := SplitPair(s[1..]);
      assert [s[0]] + s[1..] == s;
      assert [s[0]] + rest.0 + "=" + rest.1 == [s[0]] + (rest.0 + "=" + rest.1);
      ([s[0]] + rest.0, rest.1)
  }

  /** Reading a query string back into entries. */
  function ParseQuery(q: string): seq<(string, string)> {
    var pieces := Split(q, '&');
    seq(|pieces|, i requires 0 <= i < |pieces| => SplitPair(pieces[i]))
  }

  lemma {:induction false} SplitPairOf(k: string, v: string)
    requires '=' !in k
    ensures SplitPair(k + "=" + v) == (k, v)
  {
    if k == [] {
      assert k + "=" + v == ['='] + v;
    } else {
      assert (k + "=" + v)[1..] == k[1..] + "=" + v;
      SplitPairOf(k[1..], v);
      assert [k[0]] + k[1..] == k;
    }
  }

  /** Entries whose keys hold neither '=' nor '&' and whose values hold no '&'. */
  predicate Separable(es: seq<(string, string)>) {
    forall i :: 0 <= i < |es| ==> '=' !in es[i].0 && '&' !in es[i].0 && '&' !in es[i].1
  }

  /** The query string reads back to its entries. */
  lemma QueryRoundTrip(es: seq<(string, string)>)
    requires |es| >= 1 && Separable(es)
    ensures ParseQuery(QueryString(es)) == es
  {
    var ps := Pairs(es);
    forall i | 0 <= i < |ps| ensures '&' !in ps[i] {
      assert ps[i] == es[i].0 + "=" + es[i].1;
    }
    SplitJoin(ps, '&');
    forall i | 0 <= i < |es| ensures SplitPair(ps[i]) == es[i] {
      SplitPairOf(es[i].0, es[i].1);
    }
  }

  /** Lower-case letters and underscores only. */
  predicate KeyText(s: string) {
    forall c :: c in s ==> 'a' <= c <= 'z' || c == '_'
  }

  /** The keys are lower-case words: neither '=' nor '&' occurs in them. */
  lemma KeysSeparable(f: QueryFilter)
    ensures forall i :: 0 <= i < 15 ==> KeyText(Entries(f)[i].0)
  {
    DateAndPlaceKeys();
    MagnitudeAndDepthKeys();
    LatitudeAndLongitudeKeys();
    PagingKeys();
  }

  lemma DateAndPlaceKeys()
    ensures KeyText("sort") && KeyText("epicenter") && KeyText("from_date") && KeyText("to_date")
  {
  }

  lemma MagnitudeAndDepthKeys()
    ensures KeyText("from_magnitude") && KeyText("to_magnitude") && KeyText("from_depth") && KeyText("to_depth")
  {
  }

  lemma LatitudeAndLongitudeKeys()
    ensures KeyText("from_latitude") && KeyText("to_latitude") && KeyText("from_longitude") && KeyText("to_longitude")
  {
  }

  lemma PagingKeys()
    ensures KeyText("uzb") && KeyText("per_page") && KeyText("page")
  {
  }

  /** The values are empty, a sort key or a number: '&' occurs in none of them. */
  lemma ValuesSeparable(f: QueryFilter)
    ensures forall i :: 0 <= i < 15 ==> '&' !in Entries(f)[i].1
  {
    var es := Entries(f);
    IntToStringChars(1);
    IntToStringChars(PerPage);
    IntToStringChars(f.page);
    assert KeyText(f.sort.Text());
    forall i | 0 <= i < 15 ensures '&' !in es[i].1 {
    }
  }

  lemma EntriesSeparable(f: QueryFilter)
    ensures Separable(Entries(f))
  {
    KeysSeparable(f);
    ValuesSeparable(f);
  }

  /** The server reads the sort key and the page back from the request. */
  lemma RequestCarriesFilter(f: QueryFilter)
    ensures var es := ParseQuery(QueryString(Entries(f)));
      |es| == 15 && es[0] == ("sort", f.sort.Text()) && es[14] == ("page", IntToString(f.page))
  {
    EntriesSeparable(f);
    QueryRoundTrip(Entries(f));
  }

  // ---------------------------------------------------------------------
  // The widget state
  // ---------------------------------------------------------------------

  /**
   * The selected option, the filter object, the record count reported by
   * the last response, and the highlighted row.
   */
  datatype Table = Table(option: string, filter: QueryFilter, total: nat, active: nat)

  const InitialTable := Table("Eng yangi", QueryFilter(DatetimeDesc, 1), 0, 0)

  /** Choosing a sort option: new key, highlight back on the first row, page kept. */
  function ChooseSort(t: Table, option: string): (r: Table)
    ensures r.filter.sort == SortKeyOf(option) && r.option == option
    ensures r.filter.page == t.filter.page && r.total == t.total && r.active == 0
  {
    t.(option := option, filter := t.filter.(sort := SortKeyOf(option)), active := 0)
  }

  function ClickPrev(t: Table): (r: Table)
    ensures r.filter.page == PrevPage(t.filter.page)
    ensures r.filter.sort == t.filter.sort && r.total == t.total && r.active == t.active
    ensures r.option == t.option
  {
    t.(filter := t.filter.(page := PrevPage(t.filter.page)))
  }

  /**
   * The next arrow, with the bound corrected to the last page (NextPage).
   * As written the page can become a fraction such as 1.5 (see
   * NextPageAsWritten), which the integer page of this model cannot hold.
   */
  function ClickNext(t: Table): (r: Table)
    ensures r.filter.page == NextPage(t.filter.page, t.total)
    ensures r.filter.sort == t.filter.sort && r.total == t.total && r.active == t.active
    ensures r.option == t.option
  {
    t.(filter := t.filter.(page := NextPage(t.filter.page, t.total)))
  }

  /** A numbered page button; only shown buttons can be clicked. */
  function ClickPageButton(t: Table, item: int): (r: Table)
    requires item in PageButtons(t.filter.page)
    ensures 1 <= r.filter.page <= 5 && r.filter.page == item
    ensures r.filter.sort == t.filter.sort && r.total == t.total
    ensures r.active == t.active && r.option == t.option
  {
    t.(filter := t.filter.(page := item))
  }

  function ClickRow(t: Table, index: nat): (r: Table)
    ensures r.active == index && r.filter == t.filter
  {
    t.(active := index)
  }

  /** The row colours: highlight for the active row, else alternate by index. */
  function RowFill(column: Field, active: nat, index: nat): (v: Option<Value>)
    ensures index == active ==> v == Some(Text("#e3e4ff"))
    ensures index != active && index % 2 == 1 ==>
      v == (if "valueFillEven" in column then Some(column["valueFillEven"]) else None)
    ensures index != active && index % 2 == 0 ==>
      v == (if "valueFillOdd" in column then Some(column["valueFillOdd"]) else None)
  {
    if active == index then Some(Text("#e3e4ff"))
    else
      var key := if EvenStyled(index) then "valueFillEven" else "valueFillOdd";
      if key in column then Some(column[key]) else None
  }

  /**
   * Sorting and the two arrows (the next arrow with the corrected bound)
   * never take the table outside its pages. The numbered buttons 1 to 5
   * are offered whatever the total, so they can.
   */
  lemma TableStaysOnPages(t: Table, option: string)
    requires 1 <= t.filter.page <= LastPage(t.total)
    ensures 1 <= ChooseSort(t, option).filter.page <= LastPage(t.total)
    ensures 1 <= ClickPrev(t).filter.page <= LastPage(t.total)
    ensures 1 <= ClickNext(t).filter.page <= LastPage(t.total)
  {
  }

  /** A numbered button can leave the pages: with no records, button 5 goes to page 5 of 1. */
  lemma PageButtonCanLeavePages(t: Table)
    requires t.total == 0 && 1 <= t.filter.page <= 4
    ensures 5 in PageButtons(t.filter.page) && ClickPageButton(t, 5).filter.page > LastPage(t.total)
  {
  }

  /** The initial table asks for the newest records, first page. */
  lemma InitialRequest()
    ensures SortKeyOf(InitialTable.option) == InitialTable.filter.sort
    ensures InitialTable.filter.page == 1
  {
  }
}

=== FILE: raster_collect.dfy ===
/**
 * Collecting the imagery that intersects the visible drawn areas: the
 * extent check, the query's where clause, the de-duplication of the
 * returned rasters by OBJECTID, the outline ring of each raster and the
 * mosaic rule that shows exactly the listed rasters. The imagery
 * service and the projection engine are oracles: each drawn area
 * carries the features the service returns for it, and each feature
 * carries the result of projecting its extent.
 */
module RasterCollect {
  import opened Wrappers
  import opened JsText
  import opened JsNumber

  // ---------------------------------------------------------------------
  // Extents
  // ---------------------------------------------------------------------

  /** An extent; `wkid` is its spatial reference, when it has one. */
  datatype Extent = Extent(xmin: JsNum, ymin: JsNum, xmax: JsNum, ymax: JsNum, wkid: Option<int>)

  /** `isValidExtent`: present, four finite bounds, and positive width and height. */
  predicate IsValidExtent(e: Option<Extent>) {
    e.Some?
    && e.value.xmin.IsFinite() && e.value.ymin.IsFinite()
    && e.value.xmax.IsFinite() && e.value.ymax.IsFinite()
    && Less(e.value.xmin, e.value.xmax) && Less(e.value.ymin, e.value.ymax)
  }

  const Wgs84 := 4326

  /**
   * A raster returned by the imagery service: its OBJECTID, the extent of
   * its geometry (None when geometry or extent is missing), and what
   * projecting that extent to WGS 84 yields (None when projection throws).
   */
  datatype RasterFeature = RasterFeature(id: int, extent: Option<Extent>, projected: Option<Extent>)

  /** `normalizeExtent`: invalid extents are dropped; WGS 84 extents are kept; others are projected. */
  function NormalizeExtent(f: RasterFeature): (r: Option<Extent>)
    ensures r.Some? ==> IsValidExtent(f.extent)
    ensures IsValidExtent(f.extent) && f.extent.value.wkid == Some(Wgs84) ==> r == f.extent
    ensures IsValidExtent(f.extent) && f.extent.value.wkid != Some(Wgs84) ==> r == f.projected
  {
    if !IsValidExtent(f.extent) then None
    else if f.extent.value.wkid == Some(Wgs84) then f.extent
    else f.projected
  }

  // ---------------------------------------------------------------------
  // Rings and list items
  // ---------------------------------------------------------------------

  type Point = (JsNum, JsNum)

  /** The closed outline of an extent: the four corners, then the first again. */
  function Ring(e: Extent): (ring: seq<Point>)
    ensures |ring| == 5 && ring[0] == ring[4]
    ensures forall i :: 0 <= i < 4 ==> ring[i].0 == ring[i + 1].0 || ring[i].1 == ring[i + 1].1
    ensures ring[0] == (e.xmin, e.ymin) && ring[2] == (e.xmax, e.ymax)
    ensures forall i :: 0 <= i < 5 ==>
      (ring[i].0 == e.xmin || ring[i].0 == e.xmax) && (ring[i].1 == e.ymin || ring[i].1 == e.ymax)
  {
    [(e.xmin, e.ymin), (e.xmin, e.ymax), (e.xmax, e.ymax), (e.xmax, e.ymin), (e.xmin, e.ymin)]
  }

  /** The four corners of a valid extent's ring are four different points. */
  lemma RingCornersDistinct(e: Extent)
    requires IsValidExtent(Some(e))
    ensures forall i, j :: 0 <= i < j < 4 ==> Ring(e)[i] != Ring(e)[j]
  {
  }

  /**
   * A raster in the list. The raw attributes and the thumbnail are not
   * represented.
   */
  datatype RasterItem = RasterItem(id: int, visible: bool, ring: seq<Point>, wkid: Option<int>)

  /** The item made for a raster whose extent normalised to `e`. */
  function NewItem(id: int, e: Extent): (it: RasterItem)
    ensures it.id == id && it.visible && it.ring == Ring(e) && it.wkid == e.wkid
  {
    RasterItem(id, true, Ring(e), e.wkid)
  }

  function Ids(items: seq<RasterItem>): (ids: seq<int>)
    ensures |ids| == |items|
    ensures forall i :: 0 <= i < |items| ==> ids[i] == items[i].id
  {
    seq(|items|, i requires 0 <= i < |items| => items[i].id)
  }

  predicate DistinctIds(items: seq<RasterItem>) {
    forall i, j :: 0 <= i < j < |items| ==> items[i].id != items[j].id
  }

  // ---------------------------------------------------------------------
  // De-duplication
  // ---------------------------------------------------------------------

  /** The normalised extent of the first feature with OBJECTID `id` whose extent normalises. */
  function FirstValid(fs: seq<RasterFeature>, id: int): Option<Extent> {
    if fs == [] then None
    else if fs[0].id == id && NormalizeExtent(fs[0]).Some? then NormalizeExtent(fs[0])
    else FirstValid(fs[1..], id)
  }

  /**
   * What the loop leaves after `acc`: `acc` kept as a prefix, ids still
   * distinct, an id listed exactly when it was already or some feature with
   * it has a usable extent, and each new item made from the first such
   * feature.
   */
  ghost predicate Gathered(fs: seq<RasterFeature>, acc: seq<RasterItem>, r: seq<RasterItem>) {
    && |acc| <= |r| && r[..|acc|] == acc
    && (DistinctIds(acc) ==> DistinctIds(r))
    && (forall id :: id in Ids(r) <==> id in Ids(acc) || FirstValid(fs, id).Some?)
    && (forall k :: |acc| <= k < |r| ==>
          r[k].id !in Ids(acc) && FirstValid(fs, r[k].id).Some? && r[k] == NewItem(r[k].id, FirstValid(fs, r[k].id).value))
  }

  /**
   * The loop over the returned features, `acc` being the map built so far
   * (in insertion order): a known OBJECTID is skipped, as is a feature
   * whose extent does not normalise.
   */
  function Gather(fs: seq<RasterFeature>, acc: seq<RasterItem>): (r: seq<RasterItem>)
    ensures Gathered(fs, acc, r)
    decreases |fs|
  {
    if fs == [] then acc
    else
      var f := fs[0];
      if f.id in Ids(acc) || NormalizeExtent(f).None? then
        var r := Gather(fs[1..], acc);
        GatherSkips(fs, acc, r);
        r
      else
        var it := NewItem(f.id, NormalizeExtent(f).value);
        var r := Gather(fs[1..], acc + [it]);
        GatherAdds(fs, acc, r);
        r
  }

  /** A feature whose id is known, or whose extent does not normalise, adds nothing. */
  lemma GatherSkips(fs: seq<RasterFeature>, acc: seq<RasterItem>, r: seq<RasterItem>)
    requires fs != [] && (fs[0].id in Ids(acc) || NormalizeExtent(fs[0]).None?)
    requires Gathered(fs[1..], acc, r)
    ensures Gathered(fs, acc, r)
  {
    forall id ensures FirstValid(fs, id).Some? ==> id in Ids(acc) || FirstValid(fs[1..], id).Some? {
    }
  }

  /** A feature with a new id and a usable extent adds its item, and later features see it as known. */
  lemma GatherAdds(fs: seq<RasterFeature>, acc: seq<RasterItem>, r: seq<RasterItem>)
    requires fs != [] && fs[0].id !in Ids(acc) && NormalizeExtent(fs[0]).Some?
    requires Gathered(fs[1..], acc + [NewItem(fs[0].id, NormalizeExtent(fs[0]).value)], r)
    ensures Gathered(fs, acc, r)
  {
    var it := NewItem(fs[0].id, NormalizeExtent(fs[0]).value);
    IdsOfAppend(acc, it);
    DistinctAppend(acc, it);
    assert r[..|acc|] == (acc + [it])[..|acc|];
    assert r[|acc|] == it;
    forall k | |acc| <= k < |r|
      ensures r[k].id !in Ids(acc) && FirstValid(fs, r[k].id).Some? && r[k] == NewItem(r[k].id, FirstValid(fs, r[k].id).value)
    {
      if k > |acc| {
        assert r[k].id !in Ids(acc + [it]);
      }
    }
  }

  lemma IdsOfAppend(items: seq<RasterItem>, it: RasterItem)
    ensures Ids(items + [it]) == Ids(items) + [it.id]
  {
  }

  lemma DistinctAppend(items: seq<RasterItem>, it: RasterItem)
    requires it.id !in Ids(items)
    ensures DistinctIds(items) ==> DistinctIds(items + [it])
  {
    if DistinctIds(items) {
      forall i, j | 0 <= i < j < |items| + 1 ensures (items + [it])[i].id != (items + [it])[j].id {
        if j == |items| {
          assert Ids(items)[i] == items[i].id;
        }
      }
    }
  }

  /**
   * The loop is a left fold over the features: the list after `a + b` is
   * the list after `a`, carried on over `b`. Together with GatherOne this
   * fixes the order of the list, which is the insertion order of the map and
   * so also the id order of the mosaic rule.
   */
  lemma {:induction false} GatherAppend(a: seq<RasterFeature>, b: seq<RasterFeature>, acc: seq<RasterItem>)
    ensures Gather(a + b, acc) == Gather(b, Gather(a, acc))
    decreases |a|
  {
    if a == [] {
      assert a + b == b;
    } else {
      assert (a + b)[0] == a[0];
      assert (a + b)[1..] == a[1..] + b;
      var f := a[0];
      if f.id in Ids(acc) || NormalizeExtent(f).None? {
        GatherAppend(a[1..], b, acc);
      } else {
        GatherAppend(a[1..], b, acc + [NewItem(f.id, NormalizeExtent(f).value)]);
      }
    }
  }

  /** One feature adds its item at the end, unless its id is already listed or its extent is unusable. */
  lemma GatherOne(f: RasterFeature, acc: seq<RasterItem>)
    ensures Gather([f], acc) ==
      if f.id in Ids(acc) || NormalizeExtent(f).None? then acc else acc + [NewItem(f.id, NormalizeExtent(f).value)]
  {
    assert [f][1..] == [];
  }

  /** The raster list of one collection: every OBJECTID once, each from its first usable feature. */
  lemma GatherFromEmpty(fs: seq<RasterFeature>)
    ensures DistinctIds(Gather(fs, []))
    ensures forall id :: id in Ids(Gather(fs, [])) <==> FirstValid(fs, id).Some?
    ensures forall it :: it in Gather(fs, []) ==> it.visible && it == NewItem(it.id, FirstValid(fs, it.id).value)
  {
    var r := Gather(fs, []);
    forall it | it in r ensures it.visible && it == NewItem(it.id, FirstValid(fs, it.id).value) {
      var k :| 0 <= k < |r| && r[k] == it;
    }
  }

  // ---------------------------------------------------------------------
  // Where clauses
  // ---------------------------------------------------------------------

  /** The condition every imagery query carries. */
  const Exclusion := "Name NOT LIKE 'Ov%' AND Viloyat <> 'Sirdaryo viloyati'"

  /** The query's where clause: the user's clause and the exclusion, or the exclusion alone. */
  function QueryWhere(clause: Option<string>): (q: string)
    ensures EndsWith(q, Exclusion)
    ensures clause.Some? && clause.value != [] ==> StartsWith(q, clause.value + " AND ")
    ensures q == Exclusion <==> clause.None? || clause.value == []
  {
    if clause.Some? && |clause.value| > 0 then clause.value + " AND " + Exclusion else Exclusion
  }

  /** The mosaic rule of an empty selection. */
  const NothingShown := "1=0"

  const IdsPrefix := "OBJECTID IN ("

  function IdTexts(ids: seq<int>): (ts: seq<string>)
    ensures |ts| == |ids|
    ensures forall i :: 0 <= i < |ids| ==> ts[i] == IntToString(ids[i])
  {
    seq(|ids|, i requires 0 <= i < |ids| => IntToString(ids[i]))
  }

  /** `OBJECTID IN (…)` over the ids, comma-separated, in list order. */
  function MosaicWhere(ids: seq<int>): (w: string)
    ensures StartsWith(w, IdsPrefix) && EndsWith(w, ")")
  {
    IdsPrefix + Join(IdTexts(ids), ",") + ")"
  }

  /** The text between the parentheses of a mosaic where clause. */
  function IdsInside(w: string): string
    requires |w| >= |IdsPrefix| + 1
  {
    w[|IdsPrefix|..|w| - 1]
  }

  /** The ids can be read back from the clause, in order. */
  lemma MosaicWhereReadsBack(ids: seq<int>)
    requires |ids| >= 1
    ensures var parts := Split(IdsInside(MosaicWhere(ids)), ',');
      |parts| == |ids| && forall i :: 0 <= i < |ids| ==> ParseInt(parts[i]) == FromInt(ids[i])
  {
    var ts := IdTexts(ids);
    var w := MosaicWhere(ids);
    assert IdsInside(w) == Join(ts, ",");
    forall i | 0 <= i < |ts| ensures ',' !in ts[i] {
      IntToStringChars(ids[i]);
    }
    SplitJoin(ts, ',');
    forall i | 0 <= i < |ids| ensures ParseInt(ts[i]) == FromInt(ids[i]) {
      ParseIntOfString(ids[i]);
    }
  }

  // ---------------------------------------------------------------------
  // collectRastersFromMosaic
  // ---------------------------------------------------------------------

  /** A drawn area: whether it is visible, and the features the service returns for it. */
  datatype Area = Area(visible: bool, hits: seq<RasterFeature>)

  function VisibleAreas(areas: seq<Area>): (vs: seq<Area>)
    ensures forall a :: a in vs <==> a in areas && a.visible
  {
    if areas == [] then []
    else (if areas[0].visible then [areas[0]] else []) + VisibleAreas(areas[1..])
  }

  /** The visible areas keep list order: the filter distributes over concatenation. */
  lemma {:induction false} VisibleAreasAppend(a: seq<Area>, b: seq<Area>)
    ensures VisibleAreas(a + b) == VisibleAreas(a) + VisibleAreas(b)
  {
    if a == [] {
      assert a + b == b;
    } else {
      assert (a + b)[1..] == a[1..] + b;
      VisibleAreasAppend(a[1..], b);
    }
  }

  /** One area is queried exactly when it is visible. */
  lemma VisibleAreasOne(a: Area)
    ensures VisibleAreas([a]) == if a.visible then [a] else []
  {
  }

  /** The features of the areas' queries, area after area. */
  function AllHits(areas: seq<Area>): seq<RasterFeature> {
    if areas == [] then [] else areas[0].hits + AllHits(areas[1..])
  }

  /**
   * What a collection leaves behind: the query's where clause (None when
   * no query runs), the raster list, the new mosaic rule (None when it is
   * left as it was), the layer's visibility (None when left as it was),
   * and the ready flag.
   */
  datatype Collected = Collected(query: Option<string>, items: seq<RasterItem>, rule: Option<string>, layerVisible: Option<bool>, ready: bool)

  function Collect(areas: seq<Area>, clause: Option<string>): (c: Collected)
    ensures c.ready
    ensures VisibleAreas(areas) == [] ==> c == Collected(None, [], Some(NothingShown), None, true)
    ensures VisibleAreas(areas) != [] ==> c.query == Some(QueryWhere(clause))
    ensures DistinctIds(c.items)
    ensures c.items == [] ==> c.rule.None? || c.rule == Some(NothingShown)
    ensures c.items != [] ==> c.rule == Some(MosaicWhere(Ids(c.items))) && c.layerVisible == Some(true)
  {
    var vs := VisibleAreas(areas);
    if vs == [] then Collected(None, [], Some(NothingShown), None, true)
    else
      var items := Gather(AllHits(vs), []);
      if items == [] then Collected(Some(QueryWhere(clause)), [], None, Some(false), true)
      else Collected(Some(QueryWhere(clause)), items, Some(MosaicWhere(Ids(items))), Some(true), true)
  }

  /** A raster is listed exactly when some visible area's query returned it with a usable extent. */
  lemma CollectListsUsableHits(areas: seq<Area>, clause: Option<string>)
    requires VisibleAreas(areas) != []
    ensures var c := Collect(areas, clause);
      forall id :: id in Ids(c.items) <==> FirstValid(AllHits(VisibleAreas(areas)), id).Some?
  {
    GatherFromEmpty(AllHits(VisibleAreas(areas)));
  }

  /** Hidden areas contribute nothing: hiding every area empties the list and the mosaic. */
  lemma HiddenAreasShowNothing(areas: seq<Area>, clause: Option<string>)
    requires forall i :: 0 <= i < |areas| ==> !areas[i].visible
    ensures Collect(areas, clause).items == [] && Collect(areas, clause).rule == Some(NothingShown)
  {
  }
}

=== FILE: regex_split.dfy ===
/**
 * `String.prototype.split` with a regular expression, following the
 * splitting loop of the ECMAScript specification (`RegExp.prototype[@@split]`),
 * for the three expressions the older (MapViewer) KML reader uses. The
 * loop tries a match at each position q, skips empty matches at the start
 * of the current piece, and otherwise cuts the piece at q and resumes
 * after the match.
 */
module RegexSplit {
  import opened Wrappers
  import opened JsText

  datatype Pattern =
    | TupleBreak            // /\s*\n\s*|\s{2,}/
    | FieldBreak            // /\s*,\s*/
    | FieldBreakOrEmpty     // /\s*,\s*|/ : the same with an empty alternative

  /** The length of the run of white space starting at q. */
  function SpaceRun(s: string, q: nat): (n: nat)
    requires q <= |s|
    ensures q + n <= |s|
    ensures forall i :: q <= i < q + n ==> IsWhiteSpace(s[i])
    ensures q + n == |s| || !IsWhiteSpace(s[q + n])
    decreases |s| - q
  {
    if q == |s| || !IsWhiteSpace(s[q]) then 0 else 1 + SpaceRun(s, q + 1)
  }

  /** The end of the match of `pat` at position q, if it matches there. */
  function MatchEnd(pat: Pattern, s: string, q: nat): (e: Option<nat>)
    requires q <= |s|
    ensures e.Some? ==> q <= e.value <= |s|
    ensures e.Some? && e.value == q ==> pat.FieldBreakOrEmpty?
  {
    var w := SpaceRun(s, q);
    match pat
    case TupleBreak =>
      if w >= 2 || (w == 1 && s[q] == '\n') then Some(q + w) else None
    case _ =>
      if q + w < |s| && s[q + w] == ',' then Some(q + w + 1 + SpaceRun(s, q + w + 1))
      else if pat.FieldBreakOrEmpty? then Some(q)
      else None
  }

  /** The splitting loop from piece start p and match position q. */
  function SplitFrom(pat: Pattern, s: string, p: nat, q: nat): (parts: seq<string>)
    requires p <= q <= |s|
    ensures 1 <= |parts| <= |s| - p + 1
    decreases |s| - q, q - p
  {
    if q == |s| then [s[p..]]
    else
      match MatchEnd(pat, s, q)
      case None => SplitFrom(pat, s, p, q + 1)
      case Some(e) =>
        if e == p then SplitFrom(pat, s, p, q + 1)
        else [s[p..q]] + SplitFrom(pat, s, e, e)
  }

  /** `s.split(pat)`; an empty string splits into nothing when the pattern matches the empty string. */
  function SplitBy(pat: Pattern, s: string): seq<string> {
    if s == [] then (if pat.FieldBreakOrEmpty? then [] else [[]])
    else SplitFrom(pat, s, 0, 0)
  }

  /** `parts.filter(Boolean)`: the non-empty parts, in order. */
  function NonEmpty(parts: seq<string>): (r: seq<string>)
    ensures |r| <= |parts|
    ensures forall i :: 0 <= i < |r| ==> r[i] != []
    ensures forall x :: x in r <==> x in parts && x != []
  {
    if parts == [] then []
    else if parts[0] == [] then NonEmpty(parts[1..])
    else [parts[0]] + NonEmpty(parts[1..])
  }

  // ---------------------------------------------------------------------
  // Single steps of the loop
  // ---------------------------------------------------------------------

  lemma SplitFromEnd(pat: Pattern, s: string, p: nat)
    requires p <= |s|
    ensures SplitFrom(pat, s, p, |s|) == [s[p..]]
  {
  }

  lemma SplitFromAdvance(pat: Pattern, s: string, p: nat, q: nat)
    requires p <= q < |s|
    requires MatchEnd(pat, s, q).None? || MatchEnd(pat, s, q) == Some(p)
    ensures SplitFrom(pat, s, p, q) == SplitFrom(pat, s, p, q + 1)
  {
  }

  lemma SplitFromMatch(pat: Pattern, s: string, p: nat, q: nat, e: nat)
    requires p <= q < |s|
    requires MatchEnd(pat, s, q) == Some(e) && e != p
    ensures SplitFrom(pat, s, p, q) == [s[p..q]] + SplitFrom(pat, s, e, e)
  {
  }

  // ---------------------------------------------------------------------
  // When the pattern only ever matches one separator character
  // ---------------------------------------------------------------------

  /** At every position, `pat` matches exactly the character `c`, and nothing more. */
  predicate MatchesOnly(pat: Pattern, s: string, c: char) {
    forall q {:trigger MatchEnd(pat, s, q)} :: 0 <= q < |s| ==> MatchEnd(pat, s, q) == (if s[q] == c then Some(q + 1) else None)
  }

  lemma SplitFromCut(pat: Pattern, s: string, c: char, p: nat, q: nat)
    requires p <= q < |s| && s[q] == c && c !in s[p..q]
    requires MatchEnd(pat, s, q) == Some(q + 1)
    requires SplitFrom(pat, s, q + 1, q + 1) == Split(s[q + 1..], c)
    ensures SplitFrom(pat, s, p, q) == Split(s[p..], c)
  {
    assert s[p..] == s[p..q] + [c] + s[q + 1..];
    SplitAppendSep(s[p..q], c, s[q + 1..]);
  }

  lemma SplitFromSkip(pat: Pattern, s: string, p: nat, q: nat)
    requires p <= q < |s| && MatchEnd(pat, s, q) == None
    ensures SplitFrom(pat, s, p, q) == SplitFrom(pat, s, p, q + 1)
  {
  }

  lemma SeparatorFree(s: string, c: char, p: nat, q: nat)
    requires p <= q < |s| && s[q] != c && c !in s[p..q]
    ensures c !in s[p..q + 1]
  {
    assert s[p..q + 1] == s[p..q] + [s[q]];
  }

  lemma {:induction false} SplitFromAsSplit(pat: Pattern, s: string, c: char, p: nat, q: nat)
    requires p <= q <= |s|
    requires MatchesOnly(pat, s, c)
    requires c !in s[p..q]
    ensures SplitFrom(pat, s, p, q) == Split(s[p..], c)
    decreases |s| - q
  {
    if q == |s| {
      assert s[p..q] == s[p..];
      SplitFromEnd(pat, s, p);
      SplitNoSep(s[p..], c);
    } else if s[q] == c {
      assert MatchEnd(pat, s, q) == Some(q + 1);
      SplitFromAsSplit(pat, s, c, q + 1, q + 1);
      SplitFromCut(pat, s, c, p, q);
    } else {
      assert MatchEnd(pat, s, q) == None;
      SplitFromSkip(pat, s, p, q);
      SeparatorFree(s, c, p, q);
      SplitFromAsSplit(pat, s, c, p, q + 1);
    }
  }

  /** Such a pattern splits like `split` on that character. */
  lemma SplitByAsSplit(pat: Pattern, s: string, c: char)
    requires !pat.FieldBreakOrEmpty?
    requires MatchesOnly(pat, s, c)
    ensures SplitBy(pat, s) == Split(s, c)
  {
    if s != [] {
      SplitFromAsSplit(pat, s, c, 0, 0);
    }
  }

  /** Without white space, the field pattern `\s*,\s*` matches exactly the commas. */
  lemma FieldBreakOnlyCommas(s: string)
    requires NoWhiteSpace(s)
    ensures MatchesOnly(FieldBreak, s, ',')
  {
    forall q | 0 <= q < |s|
      ensures MatchEnd(FieldBreak, s, q) == (if s[q] == ',' then Some(q + 1) else None)
    {
      assert SpaceRun(s, q) == 0;
      if s[q] == ',' {
        assert q + 1 == |s| || !IsWhiteSpace(s[q + 1]);
        assert SpaceRun(s, q + 1) == 0;
      }
    }
  }

  /** The only white space in `s` is newlines, none followed by more white space. */
  predicate LoneNewlines(s: string) {
    && (forall i :: 0 <= i < |s| && IsWhiteSpace(s[i]) ==> s[i] == '\n')
    && (forall i :: 0 <= i < |s| - 1 && s[i] == '\n' ==> !IsWhiteSpace(s[i + 1]))
  }

  /** When every white space is a lone newline, the tuple pattern matches exactly the newlines. */
  lemma TupleBreakOnlyNewlines(s: string)
    requires LoneNewlines(s)
    ensures MatchesOnly(TupleBreak, s, '\n')
  {
    forall q | 0 <= q < |s|
      ensures MatchEnd(TupleBreak, s, q) == (if s[q] == '\n' then Some(q + 1) else None)
    {
      if s[q] == '\n' {
        assert q + 1 == |s| || !IsWhiteSpace(s[q + 1]);
        assert SpaceRun(s, q + 1) == 0;
        assert SpaceRun(s, q) == 1;
      } else {
        assert SpaceRun(s, q) == 0;
      }
    }
  }

  /** Lines without white space, joined by newlines, have only lone newlines. */
  lemma {:induction false} JoinedLinesShape(ts: seq<string>)
    requires forall i :: 0 <= i < |ts| ==> ts[i] != [] && NoWhiteSpace(ts[i])
    ensures LoneNewlines(Join(ts, "\n"))
  {
    if |ts| == 1 {
    } else if |ts| > 1 {
      JoinedLinesShape(ts[1..]);
      var rest := Join(ts[1..], "\n");
      var s := ts[0] + "\n" + rest;
      assert Join(ts, "\n") == s;
      assert rest != [] && rest[0] == ts[1][0] by {
        JoinStartsWith(ts[1..]);
      }
      forall i | 0 <= i < |s| && IsWhiteSpace(s[i])
        ensures s[i] == '\n'
      {
        if i > |ts[0]| { assert s[i] == rest[i - |ts[0]| - 1]; }
      }
      forall i | 0 <= i < |s| - 1 && s[i] == '\n'
        ensures !IsWhiteSpace(s[i + 1])
      {
        if i > |ts[0]| {
          assert s[i] == rest[i - |ts[0]| - 1];
          assert s[i + 1] == rest[i - |ts[0]|];
        } else if i == |ts[0]| {
          assert s[i + 1] == rest[0];
        }
      }
    }
  }

  lemma JoinStartsWith(ts: seq<string>)
    requires ts != [] && ts[0] != []
    ensures Join(ts, "\n") != [] && Join(ts, "\n")[0] == ts[0][0]
  {
  }

  /** Dropping empty parts leaves a list of non-empty parts unchanged. */
  lemma {:induction false} NonEmptyKeepsAll(parts: seq<string>)
    requires forall i :: 0 <= i < |parts| ==> parts[i] != []
    ensures NonEmpty(parts) == parts
  {
    if parts != [] {
      NonEmptyKeepsAll(parts[1..]);
    }
  }

  /** Dropping empty parts distributes over concatenation: the kept parts stay in order. */
  lemma {:induction false} NonEmptyAppend(a: seq<string>, b: seq<string>)
    ensures NonEmpty(a + b) == NonEmpty(a) + NonEmpty(b)
  {
    if a == [] {
      assert a + b == b;
    } else {
      assert (a + b)[1..] == a[1..] + b;
      NonEmptyAppend(a[1..], b);
    }
  }

  /** One part is kept, as itself, exactly when it is non-empty. */
  lemma NonEmptyOne(x: string)
    ensures NonEmpty([x]) == if x == [] then [] else [x]
  {
  }
}

=== FILE: right_panel.dfy ===
/**
 * The imagery viewer's toolbar: the drawing-tool buttons (one tool at a
 * time, a second press deselects it, "Import" is only forwarded), the
 * zoom buttons with their bounds, and the basemap popup.
 */
module RightPanel {
  import opened Wrappers
  import opened MapDrawing

  /** The toolbar's state: selected tool name, basemap popup open, overlay shown, basemap id. */
  datatype Toolbar = Toolbar(tool: string, showBasemaps: bool, overlay: bool, basemap: string)

  const NoToolName := "none"
  const ImportName := "Import"

  /** `updateType`: the new toolbar and the name sent to the map. */
  function UpdateType(t: Toolbar, name: string): (r: (Toolbar, string))
    ensures name == ImportName ==> r == (t, ImportName)
    ensures name != ImportName && name == t.tool ==> r.0 == t.(tool := NoToolName) && r.1 == NoToolName
    ensures name != ImportName && name != t.tool ==> r.0 == t.(tool := name) && r.1 == name
    ensures r.0.tool == r.1 || name == ImportName
  {
    if name == ImportName then (t, ImportName)
    else if name == t.tool then (t.(tool := NoToolName), NoToolName)
    else (t.(tool := name), name)
  }

  /** Pressing a tool twice deselects it again. */
  lemma PressTwiceDeselects(t: Toolbar, name: string)
    requires name != ImportName && name != NoToolName && name != t.tool
    ensures UpdateType(UpdateType(t, name).0, name).0 == t.(tool := NoToolName)
  {
  }

  /** The tool buttons and the name each sends. */
  const ToolButtons: seq<Tool> := [Ruler, Measure, Rectangle, Circle, Polygon]

  /** The map side: the drawing tool for a name the toolbar sends ("none" is no tool). */
  function ToolOf(name: string): (tool: Tool)
    ensures forall t :: t in ToolButtons && t.Name() == name ==> tool == t
    ensures tool != NoTool ==> tool in ToolButtons && tool.Name() == name
  {
    if name == "line" then Ruler
    else if name == "area" then Measure
    else if name == "Reactangle" then Rectangle
    else if name == "Circle" then Circle
    else if name == "Polygon" then Polygon
    else NoTool
  }

  /**
   * What the map does with a forwarded name: Import opens the importer;
   * any other name becomes the drawing tool, and the cursor-preview layer
   * is shown unless the name is "none".
   */
  datatype MapSide = OpenImport | SetTool(tool: Tool, previewVisible: bool)

  function Forwarded(name: string): (m: MapSide)
    ensures name == ImportName <==> m.OpenImport?
    ensures m.SetTool? ==> m.tool == ToolOf(name) && (m.previewVisible <==> name != NoToolName)
  {
    if name == ImportName then OpenImport else SetTool(ToolOf(name), name != NoToolName)
  }

  /** After a tool button, the map's tool is the toolbar's highlighted tool, or none. */
  lemma MapFollowsToolbar(t: Toolbar, b: Tool)
    requires b in ToolButtons
    ensures var r := UpdateType(t, b.Name());
      Forwarded(r.1) == SetTool(if t.tool == b.Name() then NoTool else b, t.tool != b.Name())
  {
  }

  // ---------------------------------------------------------------------
  // Zoom and basemaps
  // ---------------------------------------------------------------------

  const MaxZoom := 20.0
  const MinZoom := 1.0

  /** The zoom level the plus button goes to. */
  function ZoomIn(z: real): (r: real)
    ensures r <= MaxZoom
    ensures r <= z + 1.0
    ensures z + 1.0 <= MaxZoom ==> r == z + 1.0
    ensures z + 1.0 > MaxZoom ==> r == MaxZoom
  {
    if z + 1.0 < MaxZoom then z + 1.0 else MaxZoom
  }

  /** The zoom level the minus button goes to. */
  function ZoomOut(z: real): (r: real)
    ensures r >= MinZoom
    ensures r >= z - 1.0
    ensures z - 1.0 >= MinZoom ==> r == z - 1.0
    ensures z - 1.0 < MinZoom ==> r == MinZoom
  {
    if z - 1.0 > MinZoom then z - 1.0 else MinZoom
  }

  /** Away from the bounds, minus undoes plus and plus undoes minus. */
  lemma ZoomRoundTrips(z: real)
    ensures MinZoom <= z <= MaxZoom - 1.0 ==> ZoomOut(ZoomIn(z)) == z
    ensures MinZoom + 1.0 <= z <= MaxZoom ==> ZoomIn(ZoomOut(z)) == z
  {
  }

  /** Choosing a basemap sets it and always closes the popup. */
  function ChangeBasemap(t: Toolbar, id: string): (r: Toolbar)
    ensures !r.showBasemaps && r.basemap == id
    ensures r.tool == t.tool && r.overlay == t.overlay
  {
    t.(basemap := id, showBasemaps := false)
  }

  /** The layers button opens and closes the popup. */
  function ToggleBasemaps(t: Toolbar): (r: Toolbar)
    ensures r.showBasemaps != t.showBasemaps && r.(showBasemaps := t.showBasemaps) == t
  {
    t.(showBasemaps := !t.showBasemaps)
  }

  /** The overlay checkbox: the overlay layer's visibility follows the box. */
  function ToggleOverlay(t: Toolbar): (r: Toolbar)
    ensures r.overlay != t.overlay && r.(overlay := t.overlay) == t
  {
    t.(overlay := !t.overlay)
  }

  /** Closing the popup by a choice is not undone by choosing again. */
  lemma BasemapChoiceSettles(t: Toolbar, a: string, b: string)
    ensures ChangeBasemap(ChangeBasemap(t, a), b) == ChangeBasemap(t, b)
  {
  }
}

=== FILE: spaceview_calendar.dfy ===
/**
 * The newer date picker (SpaceView `Calendar`): a text field holding a
 * date in a configurable format such as `%D.%M.%Y`, and a popup with a
 * day grid, a month list and a year list, bounded by a minimum and a
 * maximum date. Months are 0-based, as in JavaScript.
 */
module SpaceViewCalendar {
  import opened Wrappers
  import opened JsText
  import opened JsNumber
  import opened CivilDate
  import opened MonthGrid

  /** A date with whole-number fields. */
  datatype DateStruct = DateStruct(day: int, month: int, year: int)

  /** A date read from text by `parseInt`: each field is a whole number or NaN. */
  datatype ParsedDate = ParsedDate(day: JsNum, month: JsNum, year: JsNum)

  /** The popup's state. `selected` is `NoSelection` when nothing is chosen. */
  datatype Picker = Picker(open: bool, mode: Mode, selected: DateStruct, view: DateStruct)

  /**
   * What the picker derives from its properties: the parsed bounds, the
   * bounds as day numbers (None for an invalid date, against which every
   * comparison is false), and today.
   */
  datatype Bounds = Bounds(minDate: ParsedDate, maxDate: ParsedDate, min: Option<int>, max: Option<int>, today: DateStruct)

  const NoSelection := DateStruct(-1, -1, -1)

  const DayMonthYear := "%D.%M.%Y"

  predicate LineTerminator(c: char) {
    c == '\n' || c == '\r' || c == '\U{2028}' || c == '\U{2029}'
  }

  /** The first match of `%D(.)%M` at or after `k`: the separator character. */
  function SeparatorFrom(format: string, k: nat): Option<char>
    decreases |format| - k
  {
    if k + 5 > |format| then None
    else if format[k..k + 2] == "%D" && !LineTerminator(format[k + 2]) && format[k + 3..k + 5] == "%M" then Some(format[k + 2])
    else SeparatorFrom(format, k + 1)
  }

  /** The separator between `%D` and `%M` in the format, '.' when there is none. */
  function Separator(format: string): char {
    SeparatorFrom(format, 0).GetOr('.')
  }

  /**
   * `format.indexOf(tag) / 3` as an index into the three-element array
   * the parts are stored in; -1 when it is not one of 0, 1, 2 (a missing
   * tag or a position that is not a multiple of 3 gives a fraction).
   */
  function Slot(format: string, tag: string): (k: int)
    ensures -1 <= k < 3
  {
    var at := IndexOf(format, tag);
    if at >= 0 && at % 3 == 0 && at / 3 < 3 then at / 3 else -1
  }

  /** Element `j` of the array after storing day, month and year at their slots; an unset element reads as NaN. */
  function Stored(format: string, parts: seq<JsNum>, j: int): JsNum
    requires |parts| == 3
  {
    if Slot(format, "%Y") == j then parts[2]
    else if Slot(format, "%M") == j then parts[1]
    else if Slot(format, "%D") == j then parts[0]
    else NaN
  }

  function ParseAll(texts: seq<string>): (r: seq<JsNum>)
    ensures |r| == |texts|
    ensures forall i :: 0 <= i < |texts| ==> r[i] == ParseInt(texts[i])
  {
    if texts == [] then [] else [ParseInt(texts[0])] + ParseAll(texts[1..])
  }

  /** `parseDate(value)`: None for an empty value, a missing format, or a split into other than three parts. */
  function ParseDate(format: Option<string>, value: Option<string>): (r: Option<ParsedDate>)
    ensures r.Some? ==> value.Some? && value.value != "" && format.Some? && format.value != ""
    ensures r.Some? ==> |Split(value.value, Separator(format.value))| == 3
  {
    if value.None? || value.value == "" || format.None? || format.value == "" then None
    else
      var f := format.value;
      var parts := ParseAll(Split(value.value, Separator(f)));
      if |parts| != 3 then None
      else Some(ParsedDate(Stored(f, parts, 0), Decrement(Stored(f, parts, 1)), Stored(f, parts, 2)))
  }

  /** `formatDate(d)`: the format with `%D`, `%M` and `%Y` filled in; without a format, unpadded and dot-separated. */
  function FormatDate(format: Option<string>, d: DateStruct): string {
    if format.None? || format.value == "" then
      IntToString(d.day) + "." + IntToString(d.month + 1) + "." + IntToString(d.year)
    else
      ReplaceAll(ReplaceAll(ReplaceAll(format.value, "%D", Pad2(d.day)), "%M", Pad2(d.month + 1)), "%Y", IntToString(d.year))
  }

  /** `year > 0 ? year : fallback`: a positive year is kept, anything else (zero, negative, NaN) falls back. */
  function YearOr(year: JsNum, fallback: int): (y: int)
    ensures year.Num? && year.v > 0.0 ==> y == year.v.Floor && y >= 0
    ensures !(year.Num? && year.v > 0.0) ==> y == fallback
  {
    if year.Num? && year.v > 0.0 then year.v.Floor else fallback
  }

  /** `new Date(year > 0 ? year : fallback, month, day)` of a parsed date, None when it is an invalid date. */
  function DateOf(p: ParsedDate, fallbackYear: int): Option<int> {
    var year := YearOr(p.year, fallbackYear);
    if p.day.Num? && p.month.Num? then Some(DayNumber(year, p.month.v.Floor, p.day.v.Floor)) else None
  }

  /** The bounds of a picker from its `minDate` / `maxDate` texts; absent or unreadable bounds default to 1970-01-01 and today. */
  function MakeBounds(format: Option<string>, minText: Option<string>, maxText: Option<string>, today: DateStruct): (b: Bounds)
    ensures b.today == today
    ensures ParseDate(format, minText).Some? ==> b.minDate == ParseDate(format, minText).value
    ensures ParseDate(format, maxText).Some? ==> b.maxDate == ParseDate(format, maxText).value
    ensures ParseDate(format, minText).None? ==> b.min == Some(DayNumber(1970, 0, 1))
    ensures ParseDate(format, maxText).None? ==> b.max == Some(DayNumber(today.year, today.month, today.day))
    ensures b.min.Some? <==> b.minDate.day.Num? && b.minDate.month.Num?
    ensures b.max.Some? <==> b.maxDate.day.Num? && b.maxDate.month.Num?
    ensures b.min.Some? ==> b.min.value == DayNumber(YearOr(b.minDate.year, 1970), b.minDate.month.v.Floor, b.minDate.day.v.Floor)
    ensures b.max.Some? ==> b.max.value == DayNumber(YearOr(b.maxDate.year, today.year), b.maxDate.month.v.Floor, b.maxDate.day.v.Floor)
  {
    var minDate := ParseDate(format, minText).GetOr(ParsedDate(FromInt(1), FromInt(0), FromInt(1970)));
    var maxDate := ParseDate(format, maxText).GetOr(ParsedDate(FromInt(today.day), FromInt(today.month), FromInt(today.year)));
    Bounds(minDate, maxDate, DateOf(minDate, 1970), DateOf(maxDate, today.year), today)
  }

  predicate Before(t: int, bound: Option<int>) {
    bound.Some? && t < bound.value
  }

  predicate After(t: int, bound: Option<int>) {
    bound.Some? && t > bound.value
  }

  /** `isDisabledDay(d)`: the day lies before the minimum or after the maximum. */
  predicate IsDisabledDay(d: DateStruct, b: Bounds) {
    var t := DayNumber(if d.year > 0 then d.year else b.today.year, d.month, d.day);
    Before(t, b.min) || After(t, b.max)
  }

  /** `isDisabledMonth(month, year)`: the whole month lies before the minimum or after the maximum. */
  predicate IsDisabledMonth(month: int, year: int, b: Bounds) {
    Before(DayNumber(year, month + 1, 0), b.min) || After(DayNumber(year, month, 1), b.max)
  }

  predicate AtMostZero(x: JsNum) {
    x.Num? && x.v <= 0.0
  }

  /** `isDisabledYear(year)`. */
  predicate IsDisabledYear(year: int, b: Bounds) {
    (AtMostZero(b.minDate.year) && AtMostZero(b.maxDate.year))
    || Less(FromInt(year), b.minDate.year) || Less(b.maxDate.year, FromInt(year))
  }

  /** `x % 12` with JavaScript's remainder, which takes the sign of `x`. */
  function JsRem12(x: int): int {
    if x >= 0 then x % 12 else -((-x) % 12)
  }

  /** The date a grid cell is labelled with: the previous month wraps January to December of the year before, the next month December to January of the year after. */
  function Label(y: int, m: int, c: GridCell): DateStruct {
    match c.part
    case Previous => DateStruct(c.day, if m == 0 then 11 else m - 1, if m == 0 then y - 1 else y)
    case Current => DateStruct(c.day, m, y)
    case Next => DateStruct(c.day, JsRem12(m + 1), if m == 11 then y + 1 else y)
  }

  /** `getCalendar(y, m)`: the 42 labelled cells of the month grid. */
  method GetCalendar(y: int, m: int) returns (cells: seq<DateStruct>)
    ensures |cells| == GridSize
    ensures forall i :: 0 <= i < GridSize ==> cells[i] == Label(y, m, CellAt(y, m, i))
  {
    var grid := Layout(y, m);
    cells := [];
    for i := 0 to GridSize
      invariant |cells| == i
      invariant forall k :: 0 <= k < i ==> cells[k] == Label(y, m, CellAt(y, m, k))
    {
      cells := cells + [Label(y, m, grid[i])];
    }
  }

  /** `selectDay(d)`: the new state and the text handed to `onChange`, if any. */
  function SelectDay(s: Picker, d: DateStruct, b: Bounds, format: Option<string>): (r: (Picker, Option<string>))
    ensures IsDisabledDay(d, b) ==> r == (s, None)
    ensures !IsDisabledDay(d, b) && s.selected == d ==> r.0.selected == NoSelection && r.1 == Some("")
    ensures !IsDisabledDay(d, b) && s.selected == d ==>
      r.0.view == b.today && r.0.open == s.open && r.0.mode == s.mode
    ensures !IsDisabledDay(d, b) && s.selected != d ==>
      r.0 == Picker(false, Days, d, d) && r.1 == Some(FormatDate(format, d))
  {
    if IsDisabledDay(d, b) then (s, None)
    else if s.selected == d then (s.(selected := NoSelection, view := b.today), Some(""))
    else (Picker(false, Days, d, d), Some(FormatDate(format, d)))
  }

  /** `view.year <= minDate.year`, false against NaN. */
  predicate AtMost(y: int, bound: JsNum) {
    bound.Num? && y as real <= bound.v
  }

  predicate AtLeast(y: int, bound: JsNum) {
    bound.Num? && y as real >= bound.v
  }

  /** The `<` button. */
  function HandlePrev(s: Picker, b: Bounds): Picker {
    var v := s.view;
    match s.mode
    case Days =>
      var month := if v.month == 0 then 11 else v.month - 1;
      var year := if v.month == 0 then v.year - 1 else v.year;
      if Before(DayNumber(year, month + 1, 0), b.min) then s
      else s.(view := v.(month := month, year := year))
    case Months =>
      if AtMost(v.year, b.minDate.year) then s else s.(view := v.(year := v.year - 1))
    case Years => s.(view := v.(year := v.year - 10))
  }

  /** The `>` button. */
  function HandleNext(s: Picker, b: Bounds): Picker {
    var v := s.view;
    match s.mode
    case Days =>
      var month := if v.month == 11 then 0 else v.month + 1;
      var year := if v.month == 11 then v.year + 1 else v.year;
      if After(DayNumber(year, month, 1), b.max) then s
      else s.(view := v.(month := month, year := year))
    case Months =>
      if AtLeast(v.year, b.maxDate.year) then s else s.(view := v.(year := v.year + 1))
    case Years => s.(view := v.(year := v.year + 10))
  }

  /** A click on month `i` of the month list. */
  function MonthClick(s: Picker, i: int, b: Bounds): Picker {
    if IsDisabledMonth(i, s.view.year, b) then s
    else s.(view := s.view.(month := i), mode := Days)
  }

  /** A click on a year of the year list. */
  function YearClick(s: Picker, year: int, b: Bounds): Picker {
    if IsDisabledYear(year, b) then s
    else s.(view := s.view.(year := year), mode := Months)
  }

  /** The year list: the years from the minimum to the maximum bound year, shown only when both are positive. */
  function YearList(b: Bounds): (ys: seq<int>)
    ensures ys != [] ==> b.minDate.year.Num? && b.maxDate.year.Num? && b.minDate.year.v > 0.0 && b.maxDate.year.v > 0.0
    ensures ys != [] ==> |ys| == b.maxDate.year.v.Floor - b.minDate.year.v.Floor + 1
    ensures ys != [] <==>
      b.minDate.year.Num? && b.maxDate.year.Num? && b.minDate.year.v > 0.0 && b.maxDate.year.v > 0.0
      && b.minDate.year.v.Floor <= b.maxDate.year.v.Floor
    ensures forall i :: 0 <= i < |ys| ==> ys[i] == b.minDate.year.v.Floor + i
  {
    if b.minDate.year.Num? && b.maxDate.year.Num? && b.minDate.year.v > 0.0 && b.maxDate.year.v > 0.0 then
      var lo := b.minDate.year.v.Floor;
      var hi := b.maxDate.year.v.Floor;
      if lo <= hi then seq(hi - lo + 1, i => lo + i) else []
    else []
  }

  // ---------------------------------------------------------------------
  // Format and parse
  // ---------------------------------------------------------------------

  lemma ReplaceAtPattern(pat: string, rest: string, rep: string)
    requires pat != []
    ensures ReplaceAll(pat + rest, pat, rep) == rep + ReplaceAll(rest, pat, rep)
  {
    assert (pat + rest)[..|pat|] == pat;
    assert (pat + rest)[|pat|..] == rest;
  }

  lemma ReplaceSkipsChar(c: char, rest: string, pat: string, rep: string)
    requires pat != [] && pat[0] != c
    ensures ReplaceAll([c] + rest, pat, rep) == [c] + ReplaceAll(rest, pat, rep)
  {
    assert ([c] + rest)[1..] == rest;
  }

  /** Replacing leaves a text without the pattern's first character unchanged. */
  lemma {:induction false} ReplaceAbsent(s: string, pat: string, rep: string)
    requires pat != [] && pat[0] !in s
    ensures ReplaceAll(s, pat, rep) == s
  {
    if s != [] {
      ReplaceSkipsChar(s[0], s[1..], pat, rep);
      ReplaceAbsent(s[1..], pat, rep);
      assert [s[0]] + s[1..] == s;
    }
  }

  lemma ReplaceSkipsText(a: string, rest: string, pat: string, rep: string)
    requires pat != [] && pat[0] !in a
    ensures ReplaceAll(a + rest, pat, rep) == a + ReplaceAll(rest, pat, rep)
    decreases |a|
  {
    if a != [] {
      assert a + rest == [a[0]] + (a[1..] + rest);
      ReplaceSkipsChar(a[0], a[1..] + rest, pat, rep);
      ReplaceSkipsText(a[1..], rest, pat, rep);
      assert [a[0]] + a[1..] == a;
    } else {
      assert a + rest == rest;
    }
  }

  /** A two-character pattern that starts at no position leaves the text unchanged. */
  lemma {:induction false} ReplaceMisses(s: string, pat: string, rep: string)
    requires |pat| == 2
    requires forall k :: 0 <= k < |s| - 1 ==> s[k] != pat[0] || s[k + 1] != pat[1]
    ensures ReplaceAll(s, pat, rep) == s
  {
    if s != [] {
      if |s| >= 2 {
        assert s[..2][0] == s[0] && s[..2][1] == s[1];
      }
      assert !StartsWith(s, pat);
      ReplaceMisses(s[1..], pat, rep);
      assert [s[0]] + s[1..] == s;
    }
  }

  /** `%D` occurs nowhere in `.%M.%Y`. */
  lemma ReplaceDayTail(dd: string)
    ensures ReplaceAll(".%M.%Y", "%D", dd) == ".%M.%Y"
  {
    ReplaceMisses(".%M.%Y", "%D", dd);
  }

  lemma ReplaceDay(dd: string)
    requires NumberChars(dd)
    ensures ReplaceAll(DayMonthYear, "%D", dd) == dd + ".%M.%Y"
  {
    assert DayMonthYear == "%D" + ".%M.%Y";
    ReplaceAtPattern("%D", ".%M.%Y", dd);
    ReplaceDayTail(dd);
  }

  lemma ReplaceMonth(dd: string, mm: string)
    requires NumberChars(dd) && NumberChars(mm)
    ensures ReplaceAll(dd + ".%M.%Y", "%M", mm) == dd + "." + mm + ".%Y"
  {
    assert dd + ".%M.%Y" == (dd + ".") + ("%M" + ".%Y");
    ReplaceSkipsText(dd + ".", "%M" + ".%Y", "%M", mm);
    ReplaceAtPattern("%M", ".%Y", mm);
    assert ".%Y" == ['.'] + "%Y";
    ReplaceSkipsChar('.', "%Y", "%M", mm);
    assert !StartsWith("%Y", "%M") by { assert "%Y"[1] != "%M"[1]; }
    assert "%Y"[1..] == "Y";
    ReplaceAbsent("Y", "%M", mm);
  }

  lemma ReplaceYear(dd: string, mm: string, yy: string)
    requires NumberChars(dd) && NumberChars(mm)
    ensures ReplaceAll(dd + "." + mm + ".%Y", "%Y", yy) == dd + "." + mm + "." + yy
  {
    assert dd + "." + mm + ".%Y" == (dd + "." + mm + ".") + ("%Y" + "");
    ReplaceSkipsText(dd + "." + mm + ".", "%Y" + "", "%Y", yy);
    ReplaceAtPattern("%Y", "", yy);
  }

  /** With the format `%D.%M.%Y`, `formatDate` writes padded day, padded month + 1 and the year between dots. */
  lemma FormatDayMonthYear(d: DateStruct)
    ensures FormatDate(Some(DayMonthYear), d) == Pad2(d.day) + "." + Pad2(d.month + 1) + "." + IntToString(d.year)
  {
    var dd, mm, yy := Pad2(d.day), Pad2(d.month + 1), IntToString(d.year);
    Pad2Chars(d.day);
    Pad2Chars(d.month + 1);
    ReplaceDay(dd);
    ReplaceMonth(dd, mm);
    ReplaceYear(dd, mm, yy);
  }

  lemma SeparatorOfDayMonthYear()
    ensures Separator(DayMonthYear) == '.'
  {
    assert DayMonthYear[0..2] == "%D" && DayMonthYear[3..5] == "%M";
  }

  lemma SlotsOfDayMonthYear()
    ensures Slot(DayMonthYear, "%D") == 0 && Slot(DayMonthYear, "%M") == 1 && Slot(DayMonthYear, "%Y") == 2
  {
    DaySlot();
    MonthSlot();
    YearSlot();
  }

  lemma DaySlot()
    ensures IndexOf(DayMonthYear, "%D") == 0
  {
    assert StartsWith(DayMonthYear[0..], "%D");
    FirstOccurrence(DayMonthYear, "%D", 0);
  }

  lemma MonthSlot()
    ensures IndexOf(DayMonthYear, "%M") == 3
  {
    assert StartsWith(DayMonthYear[3..], "%M");
    forall j | 0 <= j < 3 ensures !StartsWith(DayMonthYear[j..], "%M") {
      NotStartingAt(DayMonthYear, "%M", j);
    }
    FirstOccurrence(DayMonthYear, "%M", 3);
  }

  lemma YearSlot()
    ensures IndexOf(DayMonthYear, "%Y") == 6
  {
    assert StartsWith(DayMonthYear[6..], "%Y");
    forall j | 0 <= j < 6 ensures !StartsWith(DayMonthYear[j..], "%Y") {
      NotStartingAt(DayMonthYear, "%Y", j);
    }
    FirstOccurrence(DayMonthYear, "%Y", 6);
  }

  /** A tag does not start where the next character is not the tag's letter. */
  lemma NotStartingAt(s: string, tag: string, j: nat)
    requires j + 1 < |s| && |tag| == 2 && s[j + 1] != tag[1]
    ensures !StartsWith(s[j..], tag)
  {
  }

  /** With the format `%D.%M.%Y`, three dot-free parts are read as day, month + 1 and year. */
  lemma ParseDayMonthYear(dd: string, mm: string, yy: string)
    requires '.' !in dd && '.' !in mm && '.' !in yy
    ensures ParseDate(Some(DayMonthYear), Some(dd + "." + mm + "." + yy))
      == Some(ParsedDate(ParseInt(dd), Decrement(ParseInt(mm)), ParseInt(yy)))
  {
    SplitThree(dd, mm, yy, '.');
    SeparatorOfDayMonthYear();
    SlotsOfDayMonthYear();
    var parts := ParseAll([dd, mm, yy]);
    assert parts == [ParseInt(dd), ParseInt(mm), ParseInt(yy)];
  }

  lemma PaddedPart(n: int)
    ensures '.' !in Pad2(n) && ParseInt(Pad2(n)) == FromInt(n)
  {
    Pad2Chars(n);
    NumberCharsNoDot(Pad2(n));
    ParseIntPadded(n);
  }

  lemma YearPart(n: int)
    ensures '.' !in IntToString(n) && ParseInt(IntToString(n)) == FromInt(n)
  {
    IntToStringChars(n);
    NumberCharsNoDot(IntToString(n));
    ParseIntOfString(n);
  }

  /** With the format `%D.%M.%Y`, parsing what `formatDate` wrote gives the date back. */
  lemma ParseFormatRoundTrip(d: DateStruct)
    ensures ParseDate(Some(DayMonthYear), Some(FormatDate(Some(DayMonthYear), d)))
      == Some(ParsedDate(FromInt(d.day), FromInt(d.month), FromInt(d.year)))
  {
    FormatDayMonthYear(d);
    PaddedPart(d.day);
    PaddedPart(d.month + 1);
    YearPart(d.year);
    ParseDayMonthYear(Pad2(d.day), Pad2(d.month + 1), IntToString(d.year));
    assert Decrement(FromInt(d.month + 1)) == FromInt(d.month);
  }

  /** Without a format the picker writes dates it cannot read back: `parseDate` needs a format. */
  lemma NoFormatNoParse(value: Option<string>)
    ensures ParseDate(None, value) == None
  {
  }

  // ---------------------------------------------------------------------
  // Grid, selection and navigation
  // ---------------------------------------------------------------------

  /** The label of any cell names the date the cell stands for, in a view month 0..11 of a year after 100. */
  lemma LabelNamesDate(y: int, m: int, c: GridCell)
    requires y > 100 && 0 <= m < 12
    ensures var l := Label(y, m, c);
      DayNumber(l.year, l.month, l.day) == CellDate(y, m, c)
  {
    if c.part == Previous && m == 0 {
      MonthCarry(y, -1, c.day);
    } else if c.part == Next && m == 11 {
      MonthCarry(y, 12, c.day);
      assert JsRem12(m + 1) == 0;
    } else if c.part == Next {
      assert JsRem12(m + 1) == m + 1;
    }
  }

  /** For a view month in 0..11 of a year after 100, each cell's label names the very day the cell stands for, so the labelled grid is six Monday-first weeks of consecutive days. */
  lemma LabelsNameCellDates(y: int, m: int, i: int)
    requires y > 100 && 0 <= m < 12
    ensures var l := Label(y, m, CellAt(y, m, i));
      DayNumber(l.year, l.month, l.day) == CellDate(y, m, CellAt(y, m, i))
  {
    LabelNamesDate(y, m, CellAt(y, m, i));
  }

  /** Selecting an enabled day emits its text; selecting it again clears the selection and emits "". */
  lemma SelectTwiceClears(s: Picker, d: DateStruct, b: Bounds, format: Option<string>)
    requires !IsDisabledDay(d, b) && s.selected != d
    ensures var (s1, out1) := SelectDay(s, d, b, format);
      var (s2, out2) := SelectDay(s1, d, b, format);
      s1.selected == d && out1 == Some(FormatDate(format, d))
      && s2.selected == NoSelection && out2 == Some("")
  {
  }

  /** What a selection emits in the `%D.%M.%Y` format reads back as the selected day. */
  lemma SelectionReadsBack(s: Picker, d: DateStruct, b: Bounds)
    requires !IsDisabledDay(d, b) && s.selected != d
    ensures var out := SelectDay(s, d, b, Some(DayMonthYear)).1;
      out.Some? && ParseDate(Some(DayMonthYear), out) == Some(ParsedDate(FromInt(d.day), FromInt(d.month), FromInt(d.year)))
  {
    ParseFormatRoundTrip(d);
  }

  /** In the day view, `>` undoes `<` whenever neither is blocked, and the month stays in 0..11. */
  lemma NextUndoesPrev(s: Picker, b: Bounds)
    requires s.mode == Days && 0 <= s.view.month < 12
    requires HandlePrev(s, b) != s && HandleNext(HandlePrev(s, b), b) != HandlePrev(s, b)
    ensures 0 <= HandlePrev(s, b).view.month < 12
    ensures HandleNext(HandlePrev(s, b), b) == s
  {
  }

  /** The day view shows a month that overlaps the range from the minimum to the maximum. */
  predicate ViewInRange(v: DateStruct, b: Bounds) {
    !IsDisabledMonth(v.month, v.year, b)
  }

  lemma MonthEndsBeforeNextStarts(y: int, m: int)
    ensures DayNumber(y, m, 1) <= DayNumber(y, m + 1, 0) < DayNumber(y, m + 1, 1)
  {
    DayZeroIsLastDay(y, m);
  }

  /** The last day of the month before (y, m) comes before the last day of (y, m). */
  lemma LastDayAdvances(y: int, m: int)
    requires 0 <= m < 12 && y > 101
    ensures var (py, pm) := if m == 0 then (y - 1, 11) else (y, m - 1);
      DayNumber(py, pm + 1, 0) < DayNumber(y, m + 1, 0)
  {
    MonthEndsBeforeNextStarts(y, m);
    NextDay(y, m, 0);
    if m == 0 {
      MonthCarry(y - 1, 12, 0);
    }
  }

  /** The first day of (y, m) comes before the first day of the month after it. */
  lemma FirstDayAdvances(y: int, m: int)
    requires 0 <= m < 12 && y > 100
    ensures var (ny, nm) := if m == 11 then (y + 1, 0) else (y, m + 1);
      DayNumber(y, m, 1) < DayNumber(ny, nm, 1)
  {
    MonthEndsBeforeNextStarts(y, m);
    if m == 11 {
      MonthCarry(y, 12, 1);
    }
  }

  /** In the day view, `<` never moves to a month wholly outside the bounds once the view is inside them. */
  lemma PrevKeepsViewInRange(s: Picker, b: Bounds)
    requires s.mode == Days && 0 <= s.view.month < 12 && s.view.year > 101
    requires ViewInRange(s.view, b)
    ensures ViewInRange(HandlePrev(s, b).view, b)
  {
    var y, m := s.view.year, s.view.month;
    FirstDayAdvances(if m == 0 then y - 1 else y, if m == 0 then 11 else m - 1);
  }

  /** In the day view, `>` never moves to a month wholly outside the bounds once the view is inside them. */
  lemma NextKeepsViewInRange(s: Picker, b: Bounds)
    requires s.mode == Days && 0 <= s.view.month < 12 && s.view.year > 101
    requires ViewInRange(s.view, b)
    ensures ViewInRange(HandleNext(s, b).view, b)
  {
    var y, m := s.view.year, s.view.month;
    LastDayAdvances(if m == 11 then y + 1 else y, if m == 11 then 0 else m + 1);
  }

  /** A month click lands on a month inside the bounds and returns to the day view. */
  lemma MonthClickInRange(s: Picker, i: int, b: Bounds)
    requires MonthClick(s, i, b) != s
    ensures MonthClick(s, i, b).view == s.view.(month := i)
    ensures ViewInRange(MonthClick(s, i, b).view, b) && MonthClick(s, i, b).mode == Days
  {
  }

  /** A year click with numeric bound years lands on a year between them. */
  lemma YearClickInRange(s: Picker, year: int, b: Bounds)
    requires b.minDate.year.Num? && b.maxDate.year.Num?
    requires YearClick(s, year, b) != s
    ensures b.minDate.year.v <= year as real <= b.maxDate.year.v
    ensures YearClick(s, year, b).view.year == year && YearClick(s, year, b).mode == Months
  {
  }
}

=== FILE: spaceview_import.dfy ===
/**
 * `handleFiles` of the newer (SpaceView) drag-and-drop importer: the
 * guards, the dispatch on the extension, the KMZ entry selection and the
 * shapefile-then-KML fallback for `.zip` archives.
 */
module SpaceViewImport {
  import opened Wrappers
  import opened JsText
  import opened JsonValue
  import opened Geo
  import opened XmlTree
  import opened KmlReader
  import opened GeoJson
  import opened FileGuard
  import opened ImportOutcome

  /** Whether an archive entry is a KML file: its lower-cased name ends in `.kml`. */
  predicate IsKml(e: ZipEntry) {
    EndsWith(ToLower(e.name), ".kml")
  }

  /** The first archive entry whose lower-cased name ends in `.kml`. */
  function FirstKml(entries: seq<ZipEntry>): (r: Option<ZipEntry>)
    ensures r.Some? ==> exists i :: 0 <= i < |entries| && entries[i] == r.value && IsKml(entries[i])
                                    && forall j :: 0 <= j < i ==> !IsKml(entries[j])
    ensures r.None? ==> forall i :: 0 <= i < |entries| ==> !IsKml(entries[i])
  {
    if entries == [] then None
    else if IsKml(entries[0]) then Some(entries[0])
    else
      var r := FirstKml(entries[1..]);
      FirstKmlShift(entries, r);
      r
  }

  lemma FirstKmlShift(entries: seq<ZipEntry>, r: Option<ZipEntry>)
    requires entries != [] && !IsKml(entries[0])
    requires r.Some? ==> exists i :: 0 <= i < |entries[1..]| && entries[1..][i] == r.value && IsKml(entries[1..][i])
                                     && forall j :: 0 <= j < i ==> !IsKml(entries[1..][j])
    ensures r.Some? ==> exists i :: 0 <= i < |entries| && entries[i] == r.value && IsKml(entries[i])
                                    && forall j :: 0 <= j < i ==> !IsKml(entries[j])
  {
    if r.Some? {
      var i :| 0 <= i < |entries[1..]| && entries[1..][i] == r.value && IsKml(entries[1..][i])
               && forall j :: 0 <= j < i ==> !IsKml(entries[1..][j]);
      assert entries[i + 1] == r.value && IsKml(entries[i + 1]);
      forall j | 0 <= j < i + 1 ensures !IsKml(entries[j]) {
        if j > 0 {
          assert entries[j] == entries[1..][j - 1];
        }
      }
    }
  }

  function FromKmlAll(gs: seq<Geometry>): (r: seq<Imported>)
    ensures |r| == |gs|
    ensures forall i :: 0 <= i < |gs| ==> r[i] == FromKml(gs[i])
  {
    if gs == [] then [] else [FromKml(gs[0])] + FromKmlAll(gs[1..])
  }

  function FromJsonAll(js: seq<Json>): (r: seq<Imported>)
    ensures |r| == |js|
    ensures forall i :: 0 <= i < |js| ==> r[i] == FromJson(js[i])
  {
    if js == [] then [] else [FromJson(js[0])] + FromJsonAll(js[1..])
  }

  /** `parseKML` of a parsed document, as imported geometries. */
  function ReadKml(doc: Located): (r: Result<seq<Imported>>)
    ensures r.Failure? <==> QueryAll(doc, ["parsererror"]) != []
    ensures r.Success? ==> r.value == FromKmlAll(PlacemarksGeometries(QueryAll(doc, ["Placemark"])))
  {
    match ParseKml(doc)
    case Success(gs) => Success(FromKmlAll(gs))
    case Failure(e) => Failure(e)
  }

  /** The `.zip` branch: the shapefile converter first; if it (or reading its result) throws, the first KML entry. */
  function ZipGeometries(f: DroppedFile): (r: Result<seq<Imported>>)
    ensures f.shapes.Some? && Normalise(f.shapes.value).Success?
            ==> r == Success(FromJsonAll(Normalise(f.shapes.value).value))
    ensures (f.shapes.None? || Normalise(f.shapes.value).Failure?) ==>
              (f.archive.None? ==> r.Failure?) &&
              (f.archive.Some? && FirstKml(f.archive.value).None? ==> r == Success([])) &&
              (f.archive.Some? && FirstKml(f.archive.value).Some? ==> r == ReadKml(FirstKml(f.archive.value).value.doc))
  {
    var shp := if f.shapes.Some? then Normalise(f.shapes.value) else Failure("shp failed");
    if shp.Success? then Success(FromJsonAll(shp.value))
    else if f.archive.None? then Failure("not a zip archive")
    else
      match FirstKml(f.archive.value)
      case None => Success([])
      case Some(entry) => ReadKml(entry.doc)
  }

  /**
   * The geometries read for an allowed extension, or the exception that
   * escapes to the outer `catch`: `.kml` goes to the KML reader,
   * `.geojson` to the GeoJSON normaliser, `.kmz` to the first KML entry of
   * the archive, and `.zip` to the shapefile converter before the first
   * KML entry.
   */
  function ReadGeometries(f: DroppedFile, ext: string): (r: Result<seq<Imported>>)
    requires Allowed(ext)
    ensures ext == "kml" ==> r == ReadKml(f.kml)
    ensures ext == "geojson" ==> (r.Success? <==> f.json.Some? && Normalise(f.json.value).Success?)
    ensures ext == "geojson" && r.Success? ==> r.value == FromJsonAll(Normalise(f.json.value).value)
    ensures ext == "kmz" ==> (r.Success? <==> f.archive.Some? && FirstKml(f.archive.value).Some?
                                              && ReadKml(FirstKml(f.archive.value).value.doc).Success?)
    ensures ext == "kmz" && r.Success? ==> r == ReadKml(FirstKml(f.archive.value).value.doc)
    ensures ext == "zip" ==> r == ZipGeometries(f)
  {
    if ext == "geojson" then
      (if f.json.None? then Failure("JSON syntax error")
       else
         match Normalise(f.json.value)
         case Success(js) => Success(FromJsonAll(js))
         case Failure(e) => Failure(e))
    else if ext == "kml" then ReadKml(f.kml)
    else if ext == "kmz" then
      (if f.archive.None? then Failure("not a zip archive")
       else
         match FirstKml(f.archive.value)
         case None => Failure("no KML in KMZ")
         case Some(entry) => ReadKml(entry.doc))
    else ZipGeometries(f)
  }

  /** The end of the outer `try`: a throw alerts, an empty list alerts, anything else goes to `onChange`. */
  function Settle(read: Result<seq<Imported>>): (r: Outcome)
    ensures r == Alerted(ReadError) <==> read.Failure?
    ensures r == Alerted(NoGeometry) <==> read == Success([])
    ensures r.Changed? <==> read.Success? && read.value != []
    ensures r.Changed? ==> r.geometries == read.value
  {
    match read
    case Failure(_) => Alerted(ReadError)
    case Success(gs) => if gs == [] then Alerted(NoGeometry) else Changed(gs)
  }

  /**
   * `handleFiles(files)`: only the first file is read; the size guard
   * comes before the extension guard, and an allowed extension is read by
   * its own reader.
   */
  function HandleFiles(files: seq<DroppedFile>): (r: Outcome)
    ensures files == [] <==> r == NoFile
    ensures files != [] && files[0].size > MaxSize ==> r == Alerted(FileTooLarge)
    ensures files != [] && files[0].size <= MaxSize && !Allowed(Extension(files[0].name)) ==> r == Alerted(UnsupportedFormat)
    ensures files != [] && files[0].size <= MaxSize && Allowed(Extension(files[0].name))
            ==> r == Settle(ReadGeometries(files[0], Extension(files[0].name)))
    ensures r.Changed? ==> files[0].size <= MaxSize && Allowed(Extension(files[0].name)) && r.geometries != []
  {
    if files == [] then NoFile
    else
      var f := files[0];
      if f.size > MaxSize then Alerted(FileTooLarge)
      else
        var ext := Extension(f.name);
        if !Allowed(ext) then Alerted(UnsupportedFormat)
        else Settle(ReadGeometries(f, ext))
  }

  // ---------------------------------------------------------------------
  // Properties
  // ---------------------------------------------------------------------

  /** A `.geojson` FeatureCollection within the size limit imports its non-null geometries, in order. */
  lemma ImportFeatureCollection(base: string, size: nat, gs: seq<Option<Json>>, kml: Located,
                                archive: Option<seq<ZipEntry>>, shapes: Option<Json>)
    requires size <= MaxSize
    requires PresentGeometries(gs) != []
    ensures HandleFiles([DroppedFile(base + ".geojson", size, Some(FeatureCollection(gs)), kml, archive, shapes)])
            == Changed(FromJsonAll(PresentGeometries(gs)))
  {
    var f := DroppedFile(base + ".geojson", size, Some(FeatureCollection(gs)), kml, archive, shapes);
    GeoJsonExtension(base);
    NormaliseFeatureCollection(gs);
    assert ReadGeometries(f, "geojson") == Success(FromJsonAll(PresentGeometries(gs)));
  }

  lemma GeoJsonExtension(base: string)
    ensures Extension(base + ".geojson") == "geojson"
  {
    assert base + ".geojson" == base + "." + "geojson";
    ExtensionOfName(base, "geojson");
    LowerCaseFixed("geojson");
  }

  /** A `.kml` file whose document holds a `parsererror` ends in the read-error alert. */
  lemma ImportBrokenKml(f: DroppedFile)
    requires f.size <= MaxSize && Extension(f.name) == "kml"
    requires QueryAll(f.kml, ["parsererror"]) != []
    ensures HandleFiles([f]) == Alerted(ReadError)
  {
  }

  /** When the shapefile converter throws, a `.zip` falls back to its first KML entry. */
  lemma ZipFallsBackToKml(f: DroppedFile, entry: ZipEntry, gs: seq<Imported>)
    requires f.size <= MaxSize && Extension(f.name) == "zip"
    requires f.shapes.None? && f.archive.Some? && FirstKml(f.archive.value) == Some(entry)
    requires ReadKml(entry.doc) == Success(gs) && gs != []
    ensures HandleFiles([f]) == Changed(gs)
  {
    assert ReadGeometries(f, "zip") == ReadKml(entry.doc);
  }

  /**
   * When the converter succeeds with no geometries, a `.zip` does not fall
   * back: the file ends in the no-geometry alert whatever KML it holds.
   */
  lemma ZipEmptyShapefileDoesNotFallBack(f: DroppedFile)
    requires f.size <= MaxSize && Extension(f.name) == "zip"
    requires f.shapes == Some(FeatureCollection([]))
    ensures HandleFiles([f]) == Alerted(NoGeometry)
  {
    NormaliseFeatureCollection([]);
  }

  /** A `.kmz` archive without a KML entry ends in the read-error alert. */
  lemma KmzWithoutKml(f: DroppedFile)
    requires f.size <= MaxSize && Extension(f.name) == "kmz"
    requires f.archive.Some? && FirstKml(f.archive.value).None?
    ensures HandleFiles([f]) == Alerted(ReadError)
  {
  }
}

=== FILE: wrappers.dfy ===
/**
 * Optional values and results: the model's stand-ins for `null` /
 * `undefined` and for an exception thrown by a call.
 */
module Wrappers {

  datatype Option<+T> = None | Some(value: T) {

    /** The value, or `default` when absent (JavaScript's `??`). */
    function GetOr(default: T): T {
      match this
      case Some(v) => v
      case None => default
    }
  }

  /** A value, or the fact that the computation threw. */
  datatype Result<+T> = Success(value: T) | Failure(error: string)
}

=== FILE: xml_tree.dfy ===
/**
 * A parsed XML document as a tree of elements, and the two DOM queries the
 * KML readers use: `getElementsByTagName(tag)` and `querySelectorAll` /
 * `querySelector` with a descendant-combinator selector of tag names
 * (`"outerBoundaryIs LinearRing coordinates"`). Results come in document
 * order, and a selector's ancestors may lie anywhere above the element,
 * also above the element the query starts from.
 */
module XmlTree {
  import opened Wrappers

  /** An element: its tag name, its `textContent` and its child elements. */
  datatype Element = Element(tag: string, text: string, children: seq<Element>)

  /** An element together with the tags of its ancestors, outermost first. */
  datatype Located = Located(ancestors: seq<string>, el: Element)

  /** The document node returned by `DOMParser`, with the document element as its child. */
  function Document(root: Element): Located {
    Located([], Element("#document", "", [root]))
  }

  /** The elements of `es` and all their descendants, in document order, below ancestors `path`. */
  function Below(path: seq<string>, es: seq<Element>): (r: seq<Located>)
    ensures |es| <= |r|
    ensures forall i :: 0 <= i < |es| ==> Located(path, es[i]) in r
    decreases es
  {
    if es == [] then []
    else [Located(path, es[0])] + Below(path + [es[0].tag], es[0].children) + Below(path, es[1..])
  }

  /** The proper descendants of a located element, in document order. */
  function Descendants(c: Located): seq<Located> {
    Below(c.ancestors + [c.el.tag], c.el.children)
  }

  /** `a` occurs in `b` as a (not necessarily contiguous) subsequence. */
  predicate IsSubsequence(a: seq<string>, b: seq<string>)
    decreases |b|
  {
    if a == [] then true
    else if b == [] then false
    else if a[|a| - 1] == b[|b| - 1] then IsSubsequence(a[..|a| - 1], b[..|b| - 1])
    else IsSubsequence(a, b[..|b| - 1])
  }

  /** Whether `x` matches the descendant selector `sel` (a non-empty list of tag names). */
  predicate Matches(x: Located, sel: seq<string>) {
    sel != [] && x.el.tag == sel[|sel| - 1] && IsSubsequence(sel[..|sel| - 1], x.ancestors)
  }

  /** The elements of `xs` that match `sel`, in order. */
  function Filter(xs: seq<Located>, sel: seq<string>): (r: seq<Located>)
    ensures |r| <= |xs|
    ensures forall i :: 0 <= i < |r| ==> Matches(r[i], sel) && r[i] in xs
    ensures forall i :: 0 <= i < |xs| && Matches(xs[i], sel) ==> xs[i] in r
  {
    if xs == [] then []
    else if Matches(xs[0], sel) then [xs[0]] + Filter(xs[1..], sel)
    else Filter(xs[1..], sel)
  }

  /** `c.querySelectorAll(sel)`; with a one-tag selector also `c.getElementsByTagName(tag)`. */
  function QueryAll(c: Located, sel: seq<string>): seq<Located> {
    Filter(Descendants(c), sel)
  }

  /** `c.querySelector(sel)`: the first match, or null. */
  function QueryFirst(c: Located, sel: seq<string>): (r: Option<Located>)
    ensures r.Some? <==> QueryAll(c, sel) != []
    ensures r.Some? ==> r.value == QueryAll(c, sel)[0]
  {
    var all := QueryAll(c, sel);
    if all == [] then None else Some(all[0])
  }
}

=== FILE: zilzila_calendar.dfy ===
/**
 * The older date picker (Zilzila `DatePicker`): a `dd.mm.yyyy` text field
 * and a popup whose day grid greys out days after today, whose month
 * list hides the months after the current one, and whose navigation is
 * bounded by a minimum year and the current year.
 */
module ZilzilaCalendar {
  import opened Wrappers
  import opened JsText
  import opened JsNumber
  import opened CivilDate
  import opened MonthGrid

  /** A date read from text by `Number`; no field is NaN. */
  datatype NumDate = NumDate(day: JsNum, month: JsNum, year: JsNum)

  /** A date picked in the grid; the month is 0-based. */
  datatype Picked = Picked(day: int, month: int, year: int)

  datatype View = View(year: int, month: int)

  datatype Picker = Picker(open: bool, mode: Mode, selected: Option<Picked>, view: View)

  /** A cell of the day grid as the popup draws it. */
  datatype DayEntry = DayEntry(day: int, current: bool, disabled: bool)

  /** Today's date; `Number` is its day number. */
  datatype Today = Today(year: int, month: int, day: int) {
    function Number(): int {
      DayNumber(year, month, day)
    }
  }

  const DefaultMinYear := 1970

  /** `parseDate(str)`: three dot-separated numbers, none NaN, the month made 0-based. */
  function ParseDate(str: Option<string>): (r: Option<NumDate>)
    ensures r.Some? ==> !r.value.day.NaN? && !r.value.month.NaN? && !r.value.year.NaN?
    ensures r.Some? ==> str.Some? && |Split(str.value, '.')| == 3
  {
    if str.None? || str.value == "" then None
    else
      var p := Split(str.value, '.');
      if |p| != 3 then None else FromParts(p[0], p[1], p[2])
  }

  /** The date of three parts read by `Number`, None if any is NaN. */
  function FromParts(dayText: string, monthText: string, yearText: string): (r: Option<NumDate>)
    ensures r.Some? ==> !r.value.day.NaN? && !r.value.month.NaN? && !r.value.year.NaN?
  {
    FromValues(ToNumber(dayText), Decrement(ToNumber(monthText)), ToNumber(yearText))
  }

  /** The date of three values, None if any is NaN. */
  function FromValues(day: JsNum, month: JsNum, year: JsNum): (r: Option<NumDate>)
    ensures r.Some? <==> !day.NaN? && !month.NaN? && !year.NaN?
    ensures r.Some? ==> r.value == NumDate(day, month, year)
  {
    if day.NaN? || month.NaN? || year.NaN? then None
    else Some(NumDate(day, month, year))
  }

  /** `formatDate(obj)`: `dd.mm.yyyy`, or "" for no date. */
  function FormatDate(obj: Option<Picked>): string {
    if obj.None? then ""
    else Pad2(obj.value.day) + "." + Pad2(obj.value.month + 1) + "." + IntToString(obj.value.year)
  }

  /** `selectDay(day)`: pick that day of the viewed month, emit its text, close the popup. */
  function SelectDay(s: Picker, day: int): (r: (Picker, string))
    ensures r.0.selected == Some(Picked(day, s.view.month, s.view.year))
    ensures r.0.view == s.view && !r.0.open && r.0.mode == Days
    ensures r.1 == FormatDate(r.0.selected)
  {
    var date := Picked(day, s.view.month, s.view.year);
    (s.(selected := Some(date), open := false, mode := Days), FormatDate(Some(date)))
  }

  /** A click on a grid cell: only enabled days of the viewed month are picked. */
  function DayClick(s: Picker, e: DayEntry): (r: (Picker, Option<string>))
    ensures r.1.None? <==> e.disabled || !e.current
    ensures r.1.None? ==> r.0 == s
  {
    if !e.disabled && e.current then
      var (s1, text) := SelectDay(s, e.day);
      (s1, Some(text))
    else (s, None)
  }

  predicate InYears(y: int, minYear: int, maxYear: int) {
    minYear <= y <= maxYear
  }

  /** `changeMonth(n)`: step the viewed month, wrapping below January and above December, unless the year leaves the range. */
  function ChangeMonth(s: Picker, n: int, minYear: int, maxYear: int): (r: Picker)
    ensures r != s ==> InYears(r.view.year, minYear, maxYear)
    ensures r.mode == s.mode && r.selected == s.selected && r.open == s.open
  {
    var m0 := s.view.month + n;
    var y0 := s.view.year;
    var (m1, y1) := if m0 < 0 then (11, y0 - 1) else (m0, y0);
    var (m, y) := if m1 > 11 then (0, y1 + 1) else (m1, y1);
    if InYears(y, minYear, maxYear) then s.(view := View(y, m)) else s
  }

  /** `changeYear(n)`: step the viewed year unless it leaves the range. */
  function ChangeYear(s: Picker, n: int, minYear: int, maxYear: int): (r: Picker)
    ensures r != s ==> InYears(r.view.year, minYear, maxYear) && r.view.month == s.view.month
    ensures r.mode == s.mode && r.selected == s.selected && r.open == s.open
  {
    var y := s.view.year + n;
    if InYears(y, minYear, maxYear) then s.(view := s.view.(year := y)) else s
  }

  /** The four header arrows, from left to right. */
  datatype Arrow = FastBack | Back | Forward | FastForward

  /** An arrow click: in the day view the inner arrows step months and the outer ones years; otherwise they step 1 and 5 years. */
  function ArrowClick(s: Picker, a: Arrow, minYear: int, maxYear: int): Picker {
    var days := s.mode == Days;
    match a
    case FastBack => ChangeYear(s, if days then -1 else -5, minYear, maxYear)
    case Back => if days then ChangeMonth(s, -1, minYear, maxYear) else ChangeYear(s, -1, minYear, maxYear)
    case Forward => if days then ChangeMonth(s, 1, minYear, maxYear) else ChangeYear(s, 1, minYear, maxYear)
    case FastForward => ChangeYear(s, if days then 1 else 5, minYear, maxYear)
  }

  /** A cell with its greying: a cell is disabled when its date is after today. */
  function Entry(y: int, m: int, c: GridCell, today: Today): DayEntry {
    DayEntry(c.day, c.part == Current, CellDate(y, m, c) > today.Number())
  }

  /** `generateDays(year, month)`. */
  method GenerateDays(y: int, m: int, today: Today) returns (days: seq<DayEntry>)
    ensures |days| == GridSize
    ensures forall i :: 0 <= i < GridSize ==> days[i] == Entry(y, m, CellAt(y, m, i), today)
  {
    var grid := Layout(y, m);
    days := [];
    for i := 0 to GridSize
      invariant |days| == i
      invariant forall k :: 0 <= k < i ==> days[k] == Entry(y, m, CellAt(y, m, k), today)
    {
      days := days + [Entry(y, m, grid[i], today)];
    }
  }

  /** A month of the month list is hidden when it lies after today's month in today's year. */
  predicate FutureMonth(viewYear: int, i: int, today: Today) {
    viewYear == today.year && i > today.month
  }

  /** A click on month `i` of the month list. */
  function MonthClick(s: Picker, i: int, today: Today): Picker {
    if FutureMonth(s.view.year, i, today) then s
    else s.(view := s.view.(month := i), mode := Days)
  }

  /** The year list: every year from the minimum to the current one. */
  function YearList(minYear: int, maxYear: int): (ys: seq<int>)
    ensures |ys| == if maxYear >= minYear then maxYear - minYear + 1 else 0
    ensures forall i :: 0 <= i < |ys| ==> ys[i] == minYear + i
  {
    if maxYear >= minYear then seq(maxYear - minYear + 1, i => minYear + i) else []
  }

  /** A click on a year of the year list. */
  function YearClick(s: Picker, y: int): Picker {
    s.(view := s.view.(year := y), mode := Months)
  }

  // ---------------------------------------------------------------------
  // Properties
  // ---------------------------------------------------------------------

  lemma PaddedNumber(n: int)
    ensures '.' !in Pad2(n) && ToNumber(Pad2(n)) == FromInt(n)
  {
    Pad2Chars(n);
    NumberCharsNoDot(Pad2(n));
    ToNumberPadded(n);
  }

  lemma YearNumber(n: int)
    ensures '.' !in IntToString(n) && ToNumber(IntToString(n)) == FromInt(n)
  {
    IntToStringChars(n);
    NumberCharsNoDot(IntToString(n));
    ToNumberOfString(n);
  }

  /** Three dot-free parts are read one by one. */
  lemma ParseParts(a: string, b: string, c: string)
    requires '.' !in a && '.' !in b && '.' !in c
    ensures ParseDate(Some(a + "." + b + "." + c)) == FromParts(a, b, c)
  {
    var text := a + "." + b + "." + c;
    assert text != "" by { assert |text| >= 2; }
    SplitThree(a, b, c, '.');
  }

  lemma FromNumbers(a: string, b: string, c: string, day: int, month: int, year: int)
    requires ToNumber(a) == FromInt(day) && ToNumber(b) == FromInt(month + 1) && ToNumber(c) == FromInt(year)
    ensures FromParts(a, b, c) == Some(NumDate(FromInt(day), FromInt(month), FromInt(year)))
  {
    assert Decrement(FromInt(month + 1)) == FromInt(month);
    assert FromParts(a, b, c) == FromValues(FromInt(day), FromInt(month), FromInt(year));
  }

  /** Parsing what `formatDate` wrote gives the date back. */
  lemma ParseFormatRoundTrip(d: Picked)
    ensures ParseDate(Some(FormatDate(Some(d)))) == Some(NumDate(FromInt(d.day), FromInt(d.month), FromInt(d.year)))
  {
    PaddedNumber(d.day);
    PaddedNumber(d.month + 1);
    YearNumber(d.year);
    ParseParts(Pad2(d.day), Pad2(d.month + 1), IntToString(d.year));
    FromNumbers(Pad2(d.day), Pad2(d.month + 1), IntToString(d.year), d.day, d.month, d.year);
  }

  /** `Number("")` is 0, so two dots alone read as day 0 of month -1 of year 0 rather than as no date. */
  lemma EmptyPartsReadAsZero()
    ensures ParseDate(Some("..")) == Some(NumDate(FromInt(0), FromInt(-1), FromInt(0)))
  {
    assert ".." == "" + "." + "" + "." + "";
    SplitThree("", "", "", '.');
  }

  /** The arrows keep a month in 0..11 and step it by one, carrying into the year. */
  lemma ChangeMonthSteps(s: Picker, n: int, minYear: int, maxYear: int)
    requires 0 <= s.view.month < 12 && (n == 1 || n == -1)
    ensures var r := ChangeMonth(s, n, minYear, maxYear);
      0 <= r.view.month < 12
      && (r != s ==> 12 * r.view.year + r.view.month == 12 * s.view.year + s.view.month + n)
  {
  }

  /** One month forward undoes one month back whenever both apply. */
  lemma ForwardUndoesBack(s: Picker, minYear: int, maxYear: int)
    requires 0 <= s.view.month < 12 && InYears(s.view.year, minYear, maxYear)
    requires ChangeMonth(s, -1, minYear, maxYear) != s
    ensures ChangeMonth(ChangeMonth(s, -1, minYear, maxYear), 1, minYear, maxYear) == s
  {
  }

  /** Arrow navigation never takes a view inside the year range outside it. */
  lemma ArrowsKeepYearRange(s: Picker, a: Arrow, minYear: int, maxYear: int)
    requires InYears(s.view.year, minYear, maxYear)
    ensures InYears(ArrowClick(s, a, minYear, maxYear).view.year, minYear, maxYear)
  {
  }

  /** The cells of the viewed month are exactly the days 1 to its length, in order. */
  lemma CurrentCellsAreTheMonth(y: int, m: int, today: Today)
    ensures forall i :: 0 <= i < GridSize && Entry(y, m, CellAt(y, m, i), today).current ==>
      Entry(y, m, CellAt(y, m, i), today).day == i - StartColumn(y, m) + 1
      && 1 <= Entry(y, m, CellAt(y, m, i), today).day <= MonthLength(y, m)
    ensures forall i :: StartColumn(y, m) <= i < StartColumn(y, m) + MonthLength(y, m) ==>
      Entry(y, m, CellAt(y, m, i), today).current
  {
    CurrentRun(y, m);
  }

  /** Disabled cells form a tail of the grid: once a cell is after today, so is every later cell. */
  lemma DisabledIsSuffix(y: int, m: int, today: Today, i: int, j: int)
    requires 0 <= i <= j < GridSize
    requires Entry(y, m, CellAt(y, m, i), today).disabled
    ensures Entry(y, m, CellAt(y, m, j), today).disabled
  {
    CellDates(y, m, i);
    CellDates(y, m, j);
  }

  /** A day picked from the grid is never after today, and its text reads back as that day. */
  lemma PickedDayNotInFuture(s: Picker, y: int, m: int, i: int, today: Today)
    requires s.view == View(y, m) && 0 <= i < GridSize
    ensures var (s1, text) := DayClick(s, Entry(y, m, CellAt(y, m, i), today));
      text.Some? ==>
        var d := s1.selected.value;
        DayNumber(d.year, d.month, d.day) <= today.Number()
        && ParseDate(text) == Some(NumDate(FromInt(d.day), FromInt(d.month), FromInt(d.year)))
  {
    var e := Entry(y, m, CellAt(y, m, i), today);
    if !e.disabled && e.current {
      ParseFormatRoundTrip(Picked(e.day, m, y));
    }
  }

  /** A month click never opens a month after today's month of today's year. */
  lemma MonthClickNotInFuture(s: Picker, i: int, today: Today)
    requires MonthClick(s, i, today) != s
    ensures !FutureMonth(MonthClick(s, i, today).view.year, MonthClick(s, i, today).view.month, today)
    ensures MonthClick(s, i, today).mode == Days
  {
  }
}
